=== FILE: README.md ===
# School administration rules: a Dafny model

This project models the rules inside the school-administration web application
"control-test". Its users are administrators and teachers who record student
marks across three trimesters, track which teachers have completed their classes,
enrol students singly or in bulk, create teachers with (subject, class)
assignments, and write one report per student, subject, teacher and trimester.
The database is an in-memory `School.Store`: a record of sequences, one per
table. Each server route is a function from a store and a request to a response
(`Ok`, `BadRequest` or `NotFound`) and a new store. Each page handler is a
function from page state to page state.

Modules, one per part of the application:

- `Common`: options, JavaScript property values (absent, null or a string), the
  JavaScript truthiness of an optional string, `Filter`,
  `Map`, `FindFirst`, order-preserving subsequence, `CountIf` and `Flatten`, each
  with its lemmas.
- `Text`: trimming, ASCII lower case, case-insensitive containment, joining, and
  decimal digits.
- `Marks`: the five mark components, their maxima 15/15/15/20/35, and the total,
  which counts a missing component as 0.
- `School`: the table rows and the store.
- `Completion`: the progress route's completed/incomplete classification, and the
  library helper's different classification.
- `Enrolment`: single student enrolment and the zero mark rows it creates.
- `Upload`: bulk enrolment from JSON or CSV content.
- `TeacherCreation`: teacher creation with its link upserts and mark batches.
- `StudentReports`: the report store and the per-class report status route.
- `Settings`: the singleton settings row.
- `Countdown`: the countdown decomposition, its padding and its end condition.
- Pages:
  - `TeacherPage`: the teacher's marks page;
  - `AdminUI`: the administrator's marks page;
  - `StudentsManage`: the student-management page;
  - `StudentsReportPage`: the report list page;
  - `TeacherCreationPage`: the teacher form;
  - `TeacherProgressPage`: the teacher-progress table;
  - `StudentsProgressPage`: the per-class report page.

## Model

| member | source | states |
|---|---|---|
| Marks.MaxTotal | src/app/teacher/page.tsx:32-38 | The five maxima are 15, 15, 15, 20 and 35, and they add up to 100. |
| Marks.Set | src/app/teacher/page.tsx:112-120 | Writing one component changes that component to the new value and leaves the other four as they were. |
| Marks.TotalWithinMaxTotal | src/app/teacher/page.tsx:122-131 | When every component lies within its maximum, the total lies between 0 and 100. |
| Marks.TotalAfterSet | src/app/teacher/page.tsx:122-131 | After one component is edited, the total moves by exactly the new value minus the old (missing counts as 0). |
| Marks.MissingCountsAsZero | src/app/teacher/page.tsx:122-131 | The total is the same whether a component is missing or 0. |
| Marks.SetIdempotent | src/app/teacher/page.tsx:112-120 | Writing the same value into a component twice is the same as writing it once. |
| School.InsertIfAbsent | src/app/api/teachersCreation/route.ts:26-64 | An upsert with an empty update works as set insertion: the element ends up present, nothing else is added, and the existing rows keep their order. |
| School.InsertIfAbsentIdempotent | src/app/api/teachersCreation/route.ts:26-64 | Upserting the same link twice leaves the table as upserting it once. |
| School.InsertIfAbsentKeepsDistinct | src/app/api/teachersCreation/route.ts:26-64 | A link table without repeats stays without repeats after an upsert. |
| Completion.ClassifyTeacher | src/app/api/allTeachersProgress/route.ts:41-88 | `classesAssigned` lists every class in order. The completed list is the names of exactly the classes passing the completion test, in class order, and the incomplete list likewise for the gap test; both are order-preserving sublists of `classesAssigned`. The completed list is as long as `classesAssigned` exactly when every class counts as completed. |
| Completion.RouteListsSound | src/app/api/allTeachersProgress/route.ts:41-71 | Every name in the completed (incomplete) list is the name of a class of the teacher that passes the completion (gap) test. |
| Completion.AllTeachersProgress | src/app/api/allTeachersProgress/route.ts:11-88 | The route answers 400 exactly when the trimester is missing or empty. Otherwise it gives one row per TEACHER-role teacher, counted exactly, in fetched order, and no row for any other role. |
| Completion.EmptyClassIsBoth | src/app/api/allTeachersProgress/route.ts:46-64 | A class with no marks for the trimester passes both the completion test (`every` on an empty list) and the gap test. |
| Completion.AllFilledIsCompletedOnly | src/app/api/allTeachersProgress/route.ts:46-70 | A class with marks that are all filled and non-zero passes the completion test and fails the gap test. |
| Completion.ZeroComponentIsIncompleteOnly | src/app/api/allTeachersProgress/route.ts:46-70 | A zero in any component of any mark makes the class pass the gap test and fail the completion test. |
| Completion.InRouteListsIff | src/app/api/allTeachersProgress/route.ts:41-71 | In the teacher's progress row, a class whose name no other class shares is listed as completed exactly when every trimester mark has all components filled, and as incomplete exactly when it has no trimester marks or one with a 0. |
| Completion.ListedInBothIff | src/app/api/allTeachersProgress/route.ts:41-71 | Such a class is listed both as completed and as incomplete exactly when it has no marks for the trimester. |
| Completion.ListedInNeitherIff | src/app/api/allTeachersProgress/route.ts:41-71 | Such a class is missing from both lists exactly when it has marks, none with a 0 component, and some with a missing component. |
| Completion.NullWithoutZeroListedNowhere | src/app/api/allTeachersProgress/route.ts:47-70 | Such a class with a missing component in some mark and no 0 in any mark is reported in neither list. |
| Completion.Summarize | src/lib/actions.ts:201-213 | The completed list is the names of the classes with any mark and the incomplete list those of the classes without, each in class order. Together they hold the class names as a multiset, so their lengths add up to the number of classes. |
| Completion.TeachersProgress | src/lib/actions.ts:201-213 | Row i is the summary of teacher i, so it carries that teacher's name and classification. |
| Completion.LibraryPartition | src/lib/actions.ts:202-207 | In a teacher's summary, a class whose name no other class shares is listed as completed exactly when it has marks, as incomplete exactly when it has none, and so in exactly one list. |
| Completion.VersionsDisagree | src/lib/actions.ts:202-204 | A class whose only mark is all zeros is completed for the library but incomplete, and not completed, for the route. |
| Enrolment.PairMarks | src/app/api/studentCreation/route.ts:69-89 | Each (subject, class teacher) pair yields exactly one mark per trimester label. |
| Enrolment.SubjectMarks | src/app/api/studentCreation/route.ts:71-89 | One subject yields three marks per class teacher, and those are exactly its marks. |
| Enrolment.StudentMarks | src/app/api/studentCreation/route.ts:71-89 | Enrolment yields 3 × subjects × class teachers marks, and a row is among them exactly when it is the mark for some subject, class teacher and trimester. |
| Enrolment.EnrolmentRowsAreZero | src/app/api/studentCreation/route.ts:69-89 | Every enrolment mark belongs to the student and has all five components 0. Its trimester is one of the three labels. Its class teacher is a link of the class, and its academic year is that teacher's. Its subject is a subject of the class. |
| Enrolment.CreateStudent | src/app/api/studentCreation/route.ts:16-89 | Missing name, date of birth or class gives 400. An unknown class gives 404. Both leave the store unchanged. Success appends the student, with absent expenses stored as "paid" and an explicit null kept as null. The marks appended are exactly the class's enrolment rows for the student: 3 × subjects × class teachers zero marks. Nothing else changes. |
| Enrolment.SixRowsForTwoSubjectsOneTeacher | src/app/api/studentCreation/route.ts:71-89 | A class with two subjects and one teacher yields six mark rows. |
| Upload.DetectFormatIgnoresPadding | src/app/api/students/upload/route.ts:20-31 | Leading or trailing white space never changes whether the content is read as JSON or CSV. |
| Upload.TrimPadding | src/app/api/students/upload/route.ts:20 | Trimming removes exactly the white space added around the content. |
| Upload.Normalize | src/app/api/students/upload/route.ts:38-57 | An absent or empty date of birth becomes null; every other field is kept. |
| Upload.CheckRows | src/app/api/students/upload/route.ts:36-58 | The accepted rows are exactly the passing rows, normalised, in row order. The errors are the messages of exactly the failing rows, in row order, a bad date taking precedence over missing fields. There are no errors exactly when every row passes. |
| Upload.StudentFromRow | src/app/api/students/upload/route.ts:76-102 | The created student has the given id and the row's name, class, date of birth and other fields unchanged. Absent expenses are stored as "paid", and an explicit null stays null. |
| Upload.CreateAll | src/app/api/students/upload/route.ts:67-138 | Rows of unknown classes are skipped and the others are created in order, the i-th with the i-th id. The marks appended are each created student's enrolment rows, concatenated in creation order. Only students and marks change. |
| Upload.UploadStudents | src/app/api/students/upload/route.ts:10-138 | Empty content gives 400 with its message. The batch succeeds exactly when every parsed row passes. Otherwise it writes nothing and its message is the failing rows' errors joined by newlines, in row order. Success runs the creation loop on the normalised rows. |
| Upload.UploadCreatesKnownRows | src/app/api/students/upload/route.ts:64-138 | A successful upload creates one student per uploaded row whose class exists, in row order, and appends exactly those students' enrolment rows. |
| Upload.UploadMarksAreEnrolmentMarks | src/app/api/students/upload/route.ts:104-137 | A row is among the marks a successful upload adds exactly when it is an enrolment row of one of the created students. |
| TeacherCreation.StudentsIn | src/app/api/teachersCreation/route.ts:67-69 | Exactly the students of the class, drawn from the store. |
| TeacherCreation.UpsertClassTeacher | src/app/api/teachersCreation/route.ts:37-48 | The returned link joins the class and the teacher and is the first such link in the resulting table. The table is unchanged when such a link exists, and gains exactly one fresh link otherwise. |
| TeacherCreation.AssignmentMarks | src/app/api/teachersCreation/route.ts:71-82 | One mark per student of the class, for that link and subject, with all five components 0 and no trimester or year. |
| TeacherCreation.ApplyOne | src/app/api/teachersCreation/route.ts:26-82 | After one assignment, the three links exist and the earlier links are kept. The marks appended are one untagged zero mark per student of the class, in student order, for the subject and under the first link of the class and teacher (the fresh link when there was none). No other table changes. |
| TeacherCreation.ApplyAll | src/app/api/teachersCreation/route.ts:24-83 | The mark count grows by the batch size summed over the assignments, and older rows are kept. |
| TeacherCreation.ApplyAllKeeps | src/app/api/teachersCreation/route.ts:26-64 | No earlier subject or class link is lost. |
| TeacherCreation.ApplyAllLinks | src/app/api/teachersCreation/route.ts:26-64 | After the loop, every assignment's three links exist. |
| TeacherCreation.ApplyAllBatches | src/app/api/teachersCreation/route.ts:24-83 | The marks the loop appends are its batches in request order: for each assignment, one zero mark per student of the class under the first link of the class and teacher in the final table. |
| TeacherCreation.ApplyAllMarksUntagged | src/app/api/teachersCreation/route.ts:71-80 | Every mark the loop creates has all components 0 and carries no trimester. |
| TeacherCreation.CreateTeacher | src/app/api/teachersCreation/route.ts:12-85 | A non-array assignment list gives 400 before the teacher is written. Otherwise the teacher is appended and every assignment is linked. The marks appended are exactly the per-assignment batches, one zero mark per student of the class under its link. Students, classes, reports and settings are untouched. |
| TeacherCreation.RepeatedAssignmentDuplicatesMarks | src/app/api/teachersCreation/route.ts:24-82 | Repeating a (subject, class) pair leaves the links as before but adds a second batch of marks. |
| TeacherCreation.EnrolmentAfterTeacherCreation | src/app/api/studentCreation/route.ts:69-89 | Once a teacher is assigned to a class, enrolling a student in that class creates marks under that teacher's link for every trimester. |
| StudentReports.SaveReport | src/app/api/saveStudentReport/route.ts:12-70 | A missing field, or a report that already exists for the (student, subject, teacher, trimester) tuple, gives 400. A failed lookup gives 404, and "Student not found." when the student is missing. All of these leave the store unchanged. Success appends one report with the teacher's year and the defaults. |
| StudentReports.QuizAndProjectNotStored | src/app/api/saveStudentReport/route.ts:55-69 | The quiz and project marks in the body never affect the outcome. |
| StudentReports.SavedReportIsUnique | src/app/api/saveStudentReport/route.ts:41-70 | After a success there is exactly one report for the tuple. |
| StudentReports.SaveTwiceRejected | src/app/api/saveStudentReport/route.ts:41-52 | Repeating a successful save is rejected with 400 and leaves the store unchanged. |
| StudentReports.KeyCountZero | src/app/api/saveStudentReport/route.ts:41-52 | No report matches the tuple exactly when the duplicate test finds none. |
| StudentReports.StatusOf | src/app/api/studentsProgress/route.ts:54-57 | The status is "Done" exactly when the student has a matching report, and "Not Yet" otherwise. The student's fields pass through. |
| StudentReports.StudentsProgress | src/app/api/studentsProgress/route.ts:7-57 | A missing or empty class, subject, trimester or teacher name gives 400. Otherwise there is one status per listed student, in store order. |
| StudentReports.SavedReportShowsDone | src/app/api/studentsProgress/route.ts:22-57 | After a report is saved for a student the progress route lists for the request's class, subject and trimester, the route answers OK for the same four names and its answer includes that student with status "Done". |
| Settings.SaveSettings | src/app/api/settings/route.ts:17-41 | A missing or empty date gives 400 with the store unchanged. Success leaves exactly one settings row, with id "global-settings" and the submitted date, and changes nothing else. |
| Settings.SaveThenRead | src/app/api/settings/route.ts:27-34 | Reading after saving gives the saved date under the fixed id. |
| Settings.SaveIdempotent | src/app/api/settings/route.ts:27-34 | A second save leaves the state a single save of its date leaves, whatever was saved first. |
| Countdown.JsRem | src/app/_components/CountDown.tsx:37-40 | The dividend minus the remainder is a multiple of the divisor, and the remainder has the dividend's sign and a size below the divisor. These fix JavaScript's truncating `%`. |
| Countdown.FloorDiv | src/app/_components/CountDown.tsx:36-40 | `Math.floor` of a quotient is the greatest multiple below the dividend. |
| Countdown.FormatTime | src/app/_components/CountDown.tsx:35-42 | For a non-negative time, hours are below 24 and minutes and seconds below 60. The parts add up to the time, less a remainder under one second. A negative time gives non-positive parts and negative days. |
| Countdown.FormatDecomposes | src/app/_components/CountDown.tsx:35-42 | The same bounds and sum hold for the plain quotient-and-remainder decomposition. |
| Countdown.PadRoundTrip | src/app/_components/CountDown.tsx:52-55 | Every value from 0 to 99 pads to exactly two digits that read back as the value. |
| Countdown.PastTargetRendersNegative | src/app/_components/CountDown.tsx:35-55 | Less than one second past the target, days are -1 and render as "0-1". |
| Countdown.Ticks | src/app/_components/CountDown.tsx:9-32 | The countdown ends at the first tick whose remaining time is 0 or less, and only then. Every shown value is the target minus that tick's clock. |
| TeacherPage.Defaulted | src/app/teacher/page.tsx:84-91 | Every component is present, and a missing one becomes 0. |
| TeacherPage.InitialEntry | src/app/teacher/page.tsx:83-92 | A student's entry is its first mark's id; each of its components is that mark's value, or 0 when the mark has none, so the total is the same; a student without marks gets zeros. |
| TeacherPage.InitialMarks | src/app/teacher/page.tsx:82-93 | The marks table has an entry for exactly the listed students. |
| TeacherPage.InitialMarksEntry | src/app/teacher/page.tsx:82-93 | A student's entry is built from its own first mark; with repeated ids, the last listing wins. |
| TeacherPage.HandleMarkChange | src/app/teacher/page.tsx:112-120 | Only the chosen field of the chosen student changes. Its other fields and mark id are kept, and every other student's entry is unchanged. |
| TeacherPage.SetColumn | src/app/teacher/page.tsx:165-190 | Every listed student's field gets the value. Their other fields and mark ids are kept, and unlisted entries are unchanged. |
| TeacherPage.FillAll | src/app/teacher/page.tsx:165-177 | Every listed student's field is at its maximum. |
| TeacherPage.ResetAll | src/app/teacher/page.tsx:179-190 | Every listed student's field is 0. |
| TeacherPage.SetColumnIdempotent | src/app/teacher/page.tsx:165-190 | Setting a column twice to the same value is the same as setting it once. |
| TeacherPage.FillResetIdempotent | src/app/teacher/page.tsx:165-190 | Fill and reset are each idempotent. |
| TeacherPage.TotalAfterFill | src/app/teacher/page.tsx:122-177 | After a fill, a student's total changes by the field's maximum minus its old value. |
| TeacherPage.SavePayloads | src/app/teacher/page.tsx:133-163 | Payloads follow the student order. The save fails exactly when some student has none, and then it stops at the first such student. |
| TeacherPage.LoadedStudentsSave | src/app/teacher/page.tsx:82-149 | Saving right after loading sends each student's first mark id with its defaulted components. |
| AdminUI.HighlightThresholds | src/app/admin/AdminUI.tsx:62-66 | A cell is highlighted exactly when its value is at most 9, 9, 9, 13 or 23 for its column. An empty cell is highlighted and a full one is not. |
| AdminUI.SubjectChange | src/app/admin/AdminUI.tsx:124-138 | A new subject clears the teacher, its label, the class, the class list and the students, reloads the teacher list, and keeps the year and trimester. |
| AdminUI.TeacherChange | src/app/admin/AdminUI.tsx:141-156 | When the chosen teacher is listed, the label becomes the name of the first listed teacher with that id; otherwise it is unchanged. Loaded classes clear the class and the students; a failed load keeps them. |
| AdminUI.ClassChange | src/app/admin/AdminUI.tsx:158-166 | As written: the submitted value is stored as the class, and the name is set only when some option's link id equals that value. Nothing else changes. |
| AdminUI.DisplayedClassName | src/app/admin/AdminUI.tsx:482 | The heading shows a name exactly when some option's class id is the selected class, and then that option's class name. |
| AdminUI.ClassChangeMissesLinkIds | src/app/admin/AdminUI.tsx:158-166 | Choosing an option whose class id is no option's link id leaves the stored name unchanged, while the heading shows the chosen class. |
| AdminUI.ClassChangeNameNotSet | src/app/admin/AdminUI.tsx:158-166 | Choosing class "C1" through link "L1" leaves the stored name empty. |
| AdminUI.ClassChangeByClassId | src/app/admin/AdminUI.tsx:158-166 | With the value matched against class ids, a listed class gets a stored name equal to the heading's. |
| AdminUI.ClassChangeByClassIdNamesChoice | src/app/admin/AdminUI.tsx:158-166 | Choosing an option whose class is listed once stores that class's name, the one the heading shows. |
| AdminUI.ChangesBlockFetch | src/app/admin/AdminUI.tsx:78 | Right after a subject or teacher change, no students are fetched. |
| AdminUI.SelectionsEnableFetch | src/app/admin/AdminUI.tsx:78 | Choosing a subject, a teacher and a class, with year and trimester set, enables the fetch. |
| AdminUI.AdminEntryFromFirstMatch | src/app/admin/AdminUI.tsx:107-122 | Each component of a student's entry is the value of the first mark for the selected subject, or 0 when that mark has none, so the total is that mark's; the entry is all zeros when no mark matches. |
| AdminUI.EntriesFor | src/app/admin/AdminUI.tsx:107-122 | The marks table has an entry for exactly the listed students. |
| AdminUI.EntriesForEntry | src/app/admin/AdminUI.tsx:107-122 | Each student's entry is built from its own marks; with repeated ids, the last listing wins. |
| AdminUI.InitMarks | src/app/admin/AdminUI.tsx:107-122 | An empty student list keeps the old table. Otherwise the table covers exactly the students, each with its first-match entry. |
| AdminUI.HandleInputChange | src/app/admin/AdminUI.tsx:189-197 | Only the chosen field of the chosen student changes, and every other entry is unchanged. |
| AdminUI.LoadedRowTotal | src/app/admin/AdminUI.tsx:107-197 | A student without a matching mark totals 0. An edit moves the total by the new value minus the old. |
| StudentsManage.Loaded | src/app/studentsManage/page.tsx:12-35 | After loading, everything is shown, the filter is empty, and the form is blank with expenses "paid". |
| StudentsManage.FilterChange | src/app/studentsManage/page.tsx:57-79 | Clearing the name shows everyone. Otherwise a student is shown exactly when it matches the new filter. Only the changed filter field is stored. |
| StudentsManage.ShownIsSubsequence | src/app/studentsManage/page.tsx:57-79 | The shown list keeps the full list's order. |
| StudentsManage.ClearingNameIgnoresClass | src/app/studentsManage/page.tsx:65-66 | Clearing the name shows students of other classes even while a class is chosen. |
| StudentsManage.EmptyFilterShowsAll | src/app/studentsManage/page.tsx:69-75 | An empty filter shows every student. |
| StudentsManage.DatePart | src/app/studentsManage/page.tsx:89 | The date is the prefix before the first "T". |
| StudentsManage.DatePartOfDate | src/app/studentsManage/page.tsx:89 | A date without a time part is kept whole. |
| StudentsManage.FormFor | src/app/studentsManage/page.tsx:84-93 | The form shows missing optional fields as "", missing expenses as "paid", and the date cut to its day. |
| StudentsManage.SettingsClick | src/app/studentsManage/page.tsx:82-95 | The student is chosen, the form is filled from it and opened, and the lists are unchanged. |
| StudentsManage.FormRoundTrip | src/app/studentsManage/page.tsx:84-130 | Saving the untouched form of a fully filled student gives the student back. |
| StudentsManage.HandleSave | src/app/studentsManage/page.tsx:97-136 | A migration request is sent exactly when the class changed, followed by the update. A successful update replaces only the chosen student's entry and closes the form. |
| StudentsManage.ShownRowIsStale | src/app/studentsManage/page.tsx:126-130 | After a rename, the full list has the new name while the shown list keeps the old one. |
| StudentsReportPage.LoadedList | src/app/studentsReport/page.tsx:12-24 | After loading, all reports are shown with an empty filter. |
| StudentsReportPage.ReportFilterChange | src/app/studentsReport/page.tsx:40-64 | Only the named filter field changes. A report is shown exactly when it matches both filters. |
| StudentsReportPage.ReportShownIsSubsequence | src/app/studentsReport/page.tsx:48-57 | The shown reports keep the full list's order. |
| StudentsReportPage.ShownDependsOnlyOnFilter | src/app/studentsReport/page.tsx:48-57 | The shown list depends only on the full list and the new filter. |
| StudentsReportPage.ClearedFilterShowsAll | src/app/studentsReport/page.tsx:49-54 | Empty filters show every report. |
| StudentsReportPage.NamelessHiddenByName | src/app/studentsReport/page.tsx:49-52 | A report without a student name is hidden by any non-empty name filter. |
| StudentsReportPage.ViewReport | src/app/studentsReport/page.tsx:69-71 | The page navigates exactly when the id is non-empty, and the link ends with that id. |
| TeacherCreationPage.SelectSubject | src/app/teacherCreation/page.tsx:122 | The chosen subject is remembered and nothing else changes. |
| TeacherCreationPage.AddPair | src/app/teacherCreation/page.tsx:46-57 | Without a subject, nothing changes. Otherwise exactly one pair is appended, earlier pairs are kept, and the subject is cleared. |
| TeacherCreationPage.PairNeedsFreshSubject | src/app/teacherCreation/page.tsx:46-57 | A second class without a new subject adds no pair. |
| TeacherCreationPage.HandleChange | src/app/teacherCreation/page.tsx:60-63 | Only the named input changes. |
| TeacherCreationPage.RequestOf | src/app/teacherCreation/page.tsx:69-73 | The body carries the form's fields and its pair list as an array. |
| TeacherCreationPage.FormRequestAccepted | src/app/teacherCreation/page.tsx:9-73 | The route never rejects the form's body, and the new teacher row carries the form's name, e-mail and password. |
| TeacherProgressPage.FromRoute | src/app/api/allTeachersProgress/route.ts:78-88 | A route row reaches the page with a `teacherId`, no `id`, no classes, and its subjects as bare name strings, which have no `id`. |
| TeacherProgressPage.VisibleRows | src/app/teacherProgress/page.tsx:202 | Every teacher except one named "test-teacher" is shown. |
| TeacherProgressPage.VisibleRowsInOrder | src/app/teacherProgress/page.tsx:202 | The shown rows keep their order. |
| TeacherProgressPage.LabelMeansAllCompleted | src/app/teacherProgress/page.tsx:210-214 | On route rows, the label shows exactly when every class counts as completed, including when none has marks. |
| TeacherProgressPage.Ids | src/app/teacherProgress/page.tsx:104-105 | Mapping `.id` over entries gives each entry's id in order (undefined for a bare string), and throws exactly when some entry is undefined. |
| TeacherProgressPage.SettingsFor | src/app/teacherProgress/page.tsx:99-109 | The form takes the row's name, year and the `.id` of each class and subject entry, or [] when the row has none; the click throws exactly when some entry is undefined. |
| TeacherProgressPage.SettingsOfRouteRow | src/app/teacherProgress/page.tsx:104-105 | Opened on a route row, the form opens with no classes and an undefined id for each subject. |
| TeacherProgressPage.MergeSettings | src/app/teacherProgress/page.tsx:130-132 | The form's fields overwrite the row's: its class and subject values become bare strings, and undefined where none was chosen; ids and progress lists are kept. |
| TeacherProgressPage.ReopenAfterSave | src/app/teacherProgress/page.tsx:99-132 | Reopening a row saved as written throws exactly when the form held an unchosen class or subject; otherwise it shows the saved name with every class and subject id undefined. |
| TeacherProgressPage.ReopenRouteRowAfterSaveThrows | src/app/teacherProgress/page.tsx:99-132 | On a route row with a subject, opening, saving and reopening the settings throws. |
| TeacherProgressPage.MergeSettingsKeepingIds | src/app/teacherProgress/page.tsx:130-132 | The corrected merge: the form's name and year replace the row's, with ids and progress lists kept. |
| TeacherProgressPage.ReopenShowsSaved | src/app/teacherProgress/page.tsx:99-132 | With the corrected merge, reopening a saved row gives back exactly the saved form. |
| TeacherProgressPage.SaveLocalAsWritten | src/app/teacherProgress/page.tsx:130-132 | Every row whose `id` equals the selected row's `id` takes the form. |
| TeacherProgressPage.SaveAsWrittenRewritesEveryRow | src/app/teacherProgress/page.tsx:130-132 | On route rows, saving one teacher writes the form into every row. |
| TeacherProgressPage.SaveAsWrittenCounterexample | src/app/teacherProgress/page.tsx:130-132 | Renaming "Amal" also renames "Badr". |
| TeacherProgressPage.SaveLocal | src/app/teacherProgress/page.tsx:111-132 | Every row whose `teacherId` equals the selected one takes the form through the corrected merge; the others are unchanged. |
| TeacherProgressPage.SaveChangesOnlySelected | src/app/teacherProgress/page.tsx:111-132 | With distinct teacher ids, exactly the selected row changes, and its settings reopen with the saved form. |
| TeacherProgressPage.DeleteAsWritten | src/app/teacherProgress/page.tsx:141-161 | The request names the selected `id`. An OK answer removes every row with that `id`, and a failure removes nothing. |
| TeacherProgressPage.DeleteAsWrittenEmptiesTable | src/app/teacherProgress/page.tsx:149-154 | On route rows, the request names no teacher and an OK answer empties the table. |
| TeacherProgressPage.Delete | src/app/teacherProgress/page.tsx:141-161 | The request names the selected `teacherId`. An OK answer removes exactly the rows with that id. |
| TeacherProgressPage.DeleteRemovesOnlySelected | src/app/teacherProgress/page.tsx:141-161 | With distinct teacher ids, exactly one row goes and the others keep their order. |
| StudentsProgressPage.FetchRejectedOnlyForEmptyTeacher | src/app/studentsProgress/page.tsx:41-47 | Once the page's guard passes, the route rejects the query only for a teacher name that is given but empty. |
| StudentsProgressPage.AddReport | src/app/studentsProgress/page.tsx:66-69 | Opening the form chooses the student and empties every report field. |
| StudentsProgressPage.RequestFor | src/app/studentsProgress/page.tsx:78-85 | The body carries the student, the form's fields and the page's four parameters. |
| StudentsProgressPage.SaveReportLocal | src/app/studentsProgress/page.tsx:71-105 | Nothing happens without a chosen student. An OK save marks only that student's rows "Done" and clears the choice. |
| StudentsProgressPage.BlankFormStoresDefaults | src/app/api/saveStudentReport/route.ts:66-68 | Saving the form as opened stores the route's defaults. |
| StudentsProgressPage.Toggle | src/app/studentsProgress/page.tsx:186-189 | Checking appends the item. Unchecking removes every copy and keeps the other items. |
| StudentsProgressPage.UncheckKeepsOrder | src/app/studentsProgress/page.tsx:186-189 | Unchecking keeps the remaining items in order. |
| StudentsProgressPage.CheckThenUncheck | src/app/studentsProgress/page.tsx:186-189 | Checking and then unchecking a new item restores the list. |

## Left out

- Database queries: the filtering, `include` and ordering done by the ORM are not modelled. Fetched rows are inputs, and the store is a record of sequences.
- Generated ids for marks, reports and teachers are not modelled. Mark rows carry no id. New student, teacher and link ids are parameters.
- HTTP framing, rendering, toasts, router navigation and `window.print` are not modelled. Outcomes are `Ok`, `BadRequest` or `NotFound`.
- The 500 paths for thrown exceptions are not modelled. The model has no failing database.
- The parallel `Promise.all` saves on the marks pages, and their single success toast, are not modelled. `TeacherPage.SavePayloads` models the batch only as the payloads it would send.
- `setInterval` timing is not modelled. `Countdown.Ticks` takes the clock readings as a sequence.
- Parsing is supplied by the caller as functions:
  - `JSON.parse` and the CSV reader;
  - `Date.parse`;
  - `Number(...)` for a typed cell;
  - `JSON.stringify` of a row in an error message.
- Marks are integers; floating-point marks are not modelled. The 0.66 highlight threshold is the exact integer test `100 * v < 66 * max`.
- Case-insensitive matching lower-cases ASCII letters only; Unicode case mapping is not modelled.
- Query-string encoding of parameters is not modelled. A missing parameter is rendered as "null", as the template string does.
- Conversion of dates with `new Date`, in the settings route and for uploaded dates of birth, is not modelled; a date is kept as text.
- The teacher-progress page's countdown target-date form is not modelled.
- The teacher page's class filtering and subject auto-selection, and its fetch of classes, are not modelled.
- The display-only fields that the administrator page builds for each student are not modelled.
- The remaining library helpers in src/lib/actions.ts are not part of this model, nor are the routes that only pass a query through (teachers, classesByAdmin, allStudents, updateStudent, deleteTeacher).
- The deleteTeacher route's link deletions (src/app/api/deleteTeacher/route.ts:9-15) are not modelled, so the model does not show the links a request without a teacher id removes before the route fails.
- The letter-grade table, subject rubrics and report grouping appear in no shown source, so they are not modelled.
- StudentReports.SaveReport: for a 404, only the "Student not found." message is stated. The messages for a missing teacher, class or subject are not.
- StudentReports.SavedReportShowsDone: assumes distinct ids in the subject and teacher tables, which the database's primary keys guarantee.
- TeacherPage.InitialMarksEntry and AdminUI.EntriesForEntry: with repeated student ids, only the last listing of each id is described, because the later assignment overwrites the earlier one.

## Findings

| source | as written | input that shows it | evidently intended | confidence | as-written member | corrected member |
|---|---|---|---|---|---|---|
| src/app/teacherProgress/page.tsx:130-132 | After a save, every row whose `id` equals the selected row's `id` takes the form. The rows come from the progress route, which gives `teacherId` and no `id`, so every `id` is undefined and every row matches. | Two route rows, "Amal" (t1) and "Badr" (t2). Save Amal's settings with the name "Amal S." and both rows show "Amal S.". | Match rows on `teacherId`, the id the save request already sends. | not executed | TeacherProgressPage.SaveAsWrittenCounterexample | TeacherProgressPage.SaveChangesOnlySelected |
| src/app/teacherProgress/page.tsx:149-154 | Delete sends the selected row's `id` and, after an OK answer, drops every row with that `id`. On route rows that `id` is undefined. | Any list of route rows: the request body names no teacher. On the server, `deleteMany` with an undefined `teacherId` filter matches every class-teacher and subject-teacher link (src/app/api/deleteTeacher/route.ts:9-15), so all links are likely removed; `teacher.delete` then fails (:18-20) and the route answers 500 (:23-25), leaving the page's table unchanged. Had it answered OK, the table would be emptied. | Send and match `teacherId`, removing just the selected teacher's row. | not executed | TeacherProgressPage.DeleteAsWrittenEmptiesTable | TeacherProgressPage.DeleteRemovesOnlySelected |
| src/app/teacherProgress/page.tsx:131 | After a save, `{ ...teacher, ...formData }` stores the form's raw ids (or undefined) as the row's classes and subjects, but reopening the settings reads `.id` from each of them (lines 104-105). | A route row with the subject "Math": open its settings (the subject id is undefined), save with an OK answer, open them again: reading `.id` of undefined throws. With a class "c1" chosen instead, the reopened form shows no class id. | Store the saved ids as entries carrying them, so the settings reopen with the saved choices. | not executed | TeacherProgressPage.ReopenRouteRowAfterSaveThrows | TeacherProgressPage.ReopenShowsSaved |
| src/app/admin/AdminUI.tsx:162 | The class drop-down submits the class's id (line 381), but the handler looks the value up among the options' class-teacher link ids, so the stored class name is not set. Nothing reads that name, so the screen does not show the difference. | One option, link "L1" for class "C1" named "Grade 1": choosing it stores class "C1" and leaves the name empty. | Look the value up by `classItem.class.id`, as the heading at line 482 does. | not executed | AdminUI.ClassChangeNameNotSet | AdminUI.ClassChangeByClassIdNamesChoice |

=== FILE: admin_ui.dfy ===
/** The administrator's mark-entry screen: the cascading subject, teacher and class
    selection, the guard on fetching the class's students, the per-student mark
    state built from each student's mark for the selected subject, single-cell
    edits, the row total and the highlighting of low values. Fetch results are
    parameters; `None` stands for a fetch that threw. */
module AdminUI {
  import opened Common
  import opened Marks

  datatype Teacher = Teacher(id: string, email: string, name: string)

  /** A class option: a class-teacher link row with its class. `id` is the link's
      own id; `classId` and `className` are the linked class's. */
  datatype ClassOption = ClassOption(id: string, classId: string, className: string)

  datatype AdminMark = AdminMark(subjectId: string, components: Components)
  datatype AdminStudent = AdminStudent(id: string, marks: seq<AdminMark>)

  /** The selection state of the screen. `teacherLabel` is the state the screen
      names after the e-mail but fills with the teacher's name. */
  datatype Selection = Selection(
    subjectId: Option<string>,
    teachers: seq<Teacher>,
    teacherId: Option<string>,
    teacherLabel: Option<string>,
    classes: seq<ClassOption>,
    classId: Option<string>,
    className: Option<string>,
    students: seq<AdminStudent>,
    academicYear: Option<string>,
    trimester: Option<string>)

  const Initial := Selection(None, [], None, None, [], None, None, [], None, None)

  /** `getInputClass`: a value is highlighted when `(value || 0) < max * 0.66`.
      Marks are whole numbers here, so the comparison is done exactly in hundredths. */
  predicate IsBelowThreshold(v: Option<int>, f: Field)
  {
    100 * OrZero(v) < 66 * MaxValue(f)
  }

  /** The highest whole mark still highlighted, field by field. */
  function HighlightLimit(f: Field): int
  {
    match f
    case Participation => 9
    case Behavior => 9
    case WorkingQuiz => 9
    case Project => 13
    case FinalExam => 23
  }

  /** A whole mark is highlighted exactly when it is at most 9 of 15, 13 of 20 or
      23 of 35; an empty cell is always highlighted, a full one never. */
  lemma HighlightThresholds(v: Option<int>, f: Field)
    ensures IsBelowThreshold(v, f) <==> OrZero(v) <= HighlightLimit(f)
    ensures IsBelowThreshold(None, f) && !IsBelowThreshold(Some(MaxValue(f)), f)
  {
  }

  /** `handleSubjectChange`: the subject is set, everything chosen below it is
      cleared, and the teachers become the fetched list (left empty when the
      fetch throws). */
  function SubjectChange(sel: Selection, subjectId: string, fetched: Option<seq<Teacher>>): (r: Selection)
    ensures r.subjectId == Some(subjectId)
    ensures r.teacherId.None? && r.teacherLabel.None? && r.classId.None? && r.className.None?
    ensures r.classes == [] && r.students == []
    ensures fetched.Some? ==> r.teachers == fetched.value
    ensures fetched.None? ==> r.teachers == []
    ensures r.academicYear == sel.academicYear && r.trimester == sel.trimester
  {
    sel.(subjectId := Some(subjectId), teachers := if fetched.Some? then fetched.value else [],
         teacherId := None, classes := [], classId := None, className := None,
         students := [], teacherLabel := None)
  }

  /** `handleTeacherChange`: the teacher is set and labelled with its name when it
      is in the list; when the class fetch succeeds the classes are replaced and
      the class and students cleared, when it throws they are left as they were. */
  function TeacherChange(sel: Selection, teacherId: string, fetched: Option<seq<ClassOption>>): (r: Selection)
    ensures r.teacherId == Some(teacherId)
    ensures r.teacherLabel.Some? && r.teacherLabel != sel.teacherLabel ==>
              exists i :: 0 <= i < |sel.teachers| && sel.teachers[i].id == teacherId
                          && r.teacherLabel == Some(sel.teachers[i].name)
    ensures (forall i :: 0 <= i < |sel.teachers| ==> sel.teachers[i].id != teacherId) ==>
              r.teacherLabel == sel.teacherLabel
    ensures (exists i :: 0 <= i < |sel.teachers| && sel.teachers[i].id == teacherId) ==>
              exists i :: 0 <= i < |sel.teachers| && sel.teachers[i].id == teacherId
                          && r.teacherLabel == Some(sel.teachers[i].name)
    ensures forall i :: 0 <= i < |sel.teachers| && sel.teachers[i].id == teacherId
                        && (forall j :: 0 <= j < i ==> sel.teachers[j].id != teacherId)
                        ==> r.teacherLabel == Some(sel.teachers[i].name)
    ensures fetched.Some? ==> r.classes == fetched.value && r.classId.None? && r.className.None? && r.students == []
    ensures fetched.None? ==> r.classes == sel.classes && r.classId == sel.classId
                              && r.className == sel.className && r.students == sel.students
    ensures r.subjectId == sel.subjectId && r.teachers == sel.teachers
  {
    var found := FindFirst((t: Teacher) => t.id == teacherId, sel.teachers);
    var labelled := sel.(teacherId := Some(teacherId),
                         teacherLabel := if found.Some? then Some(found.value.name) else sel.teacherLabel);
    if fetched.Some? then labelled.(classes := fetched.value, classId := None, className := None, students := [])
    else labelled
  }

  /** The value the class drop-down submits for an option: the class's id. */
  function OptionValue(o: ClassOption): string
  {
    o.classId
  }

  /** `handleClassChange` as written: the submitted value is stored as the class,
      and the name is taken from the first option whose link id equals it. */
  function ClassChange(sel: Selection, value: string): (r: Selection)
    ensures r.classId == Some(value)
    ensures (forall i :: 0 <= i < |sel.classes| ==> sel.classes[i].id != value) ==> r.className == sel.className
    ensures (exists i :: 0 <= i < |sel.classes| && sel.classes[i].id == value) ==>
              exists i :: 0 <= i < |sel.classes| && sel.classes[i].id == value
                          && r.className == Some(sel.classes[i].className)
    ensures r.(classId := sel.classId, className := sel.className) == sel
  {
    var found := FindFirst((c: ClassOption) => c.id == value, sel.classes);
    sel.(classId := Some(value), className := if found.Some? then Some(found.value.className) else sel.className)
  }

  /** The class heading of the mark sheet: the name of the first option whose class
      id is the selected class. */
  function DisplayedClassName(sel: Selection): (r: Option<string>)
    ensures r.Some? <==> sel.classId.Some? && exists i :: 0 <= i < |sel.classes| && sel.classes[i].classId == sel.classId.value
    ensures r.Some? ==> exists i :: 0 <= i < |sel.classes| && sel.classes[i].classId == sel.classId.value
                                   && r.value == sel.classes[i].className
  {
    if sel.classId.None? then None
    else
      var found := FindFirst((c: ClassOption) => c.classId == sel.classId.value, sel.classes);
      if found.Some? then Some(found.value.className) else None
  }

  /** No other option links the class of option `k`. */
  predicate ClassListedOnce(classes: seq<ClassOption>, k: nat)
    requires k < |classes|
  {
    forall i :: 0 <= i < |classes| && i != k ==> classes[i].classId != classes[k].classId
  }

  /** As written, choosing an option whose class id is no option's link id (the two
      ids come from different tables) leaves the stored class name as it was, while
      the heading shows the chosen class. */
  lemma ClassChangeMissesLinkIds(sel: Selection, k: nat)
    requires k < |sel.classes| && ClassListedOnce(sel.classes, k)
    requires forall i :: 0 <= i < |sel.classes| ==> sel.classes[i].id != OptionValue(sel.classes[k])
    ensures var r := ClassChange(sel, OptionValue(sel.classes[k]));
            r.className == sel.className && DisplayedClassName(r) == Some(sel.classes[k].className)
  {
  }

  /** A concrete case: link "L1" of class "C1" named "Grade 1". */
  lemma ClassChangeNameNotSet()
    ensures var sel := Initial.(classes := [ClassOption("L1", "C1", "Grade 1")]);
            var r := ClassChange(sel, OptionValue(sel.classes[0]));
            r.className.None? && DisplayedClassName(r) == Some("Grade 1")
  {
    var sel := Initial.(classes := [ClassOption("L1", "C1", "Grade 1")]);
    assert sel.classes[0].id != "C1";
    ClassChangeMissesLinkIds(sel, 0);
  }

  /** `handleClassChange` matching the option value: the name is taken from the first
      option whose class id equals the submitted value. */
  function ClassChangeByClassId(sel: Selection, value: string): (r: Selection)
    ensures r.classId == Some(value)
    ensures (exists i :: 0 <= i < |sel.classes| && sel.classes[i].classId == value) ==>
              r.className.Some? && r.className == DisplayedClassName(r)
    ensures (forall i :: 0 <= i < |sel.classes| ==> sel.classes[i].classId != value) ==> r.className == sel.className
    ensures r.(classId := sel.classId, className := sel.className) == sel
  {
    var found := FindFirst((c: ClassOption) => c.classId == value, sel.classes);
    sel.(classId := Some(value), className := if found.Some? then Some(found.value.className) else sel.className)
  }

  /** With the value matched against class ids, choosing option `k` stores its class's
      name, the same name the heading shows. */
  lemma ClassChangeByClassIdNamesChoice(sel: Selection, k: nat)
    requires k < |sel.classes| && ClassListedOnce(sel.classes, k)
    ensures var r := ClassChangeByClassId(sel, OptionValue(sel.classes[k]));
            r.className == Some(sel.classes[k].className) && r.className == DisplayedClassName(r)
  {
  }

  /** The guard in front of the student fetch: class, teacher, subject, year and
      trimester all chosen. */
  predicate ReadyToFetch(sel: Selection)
  {
    Truthy(sel.classId) && Truthy(sel.teacherId) && Truthy(sel.subjectId)
    && Truthy(sel.academicYear) && Truthy(sel.trimester)
  }

  /** Changing the subject, or the teacher with a successful class fetch, always
      leaves the screen unable to fetch students until a class is chosen again. */
  lemma ChangesBlockFetch(sel: Selection, subjectId: string, teachers: Option<seq<Teacher>>,
                          teacherId: string, classes: seq<ClassOption>)
    ensures !ReadyToFetch(SubjectChange(sel, subjectId, teachers))
    ensures !ReadyToFetch(TeacherChange(sel, teacherId, Some(classes)))
  {
  }

  /** Choosing a non-empty subject, teacher and class in turn, with year and
      trimester chosen, makes the screen ready to fetch. */
  lemma SelectionsEnableFetch(sel: Selection, subjectId: string, teachers: seq<Teacher>,
                              teacherId: string, classes: seq<ClassOption>, classId: string)
    requires subjectId != "" && teacherId != "" && classId != ""
    requires Truthy(sel.academicYear) && Truthy(sel.trimester)
    ensures var s1 := SubjectChange(sel, subjectId, Some(teachers));
            var s2 := TeacherChange(s1, teacherId, Some(classes));
            ReadyToFetch(ClassChange(s2, classId))
  {
  }

  /** `student.marks.find(mark => mark.subjectId === selectedSubjectId) || {}`, every
      component defaulted with `|| 0`. */
  function AdminEntry(s: AdminStudent, subjectId: Option<string>): (c: Components)
    ensures forall f :: Get(c, f).Some?
  {
    var m := FindFirst((m: AdminMark) => Some(m.subjectId) == subjectId, s.marks);
    var base := if m.Some? then m.value.components else NoComponents;
    Components(Some(OrZero(base.participation)), Some(OrZero(base.behavior)), Some(OrZero(base.workingQuiz)),
               Some(OrZero(base.project)), Some(OrZero(base.finalExam)))
  }

  /** A student without a mark for the subject starts at zero everywhere; otherwise
      each component of the entry is the first such mark's, with a missing one at 0,
      so the entry has that mark's total. */
  lemma AdminEntryFromFirstMatch(s: AdminStudent, subjectId: Option<string>)
    ensures (forall i :: 0 <= i < |s.marks| ==> Some(s.marks[i].subjectId) != subjectId)
              ==> AdminEntry(s, subjectId) == ZeroComponents
    ensures forall i :: 0 <= i < |s.marks| && Some(s.marks[i].subjectId) == subjectId
                        && (forall j :: 0 <= j < i ==> Some(s.marks[j].subjectId) != subjectId)
                        ==> forall f :: Get(AdminEntry(s, subjectId), f) == Some(OrZero(Get(s.marks[i].components, f)))
    ensures forall i :: 0 <= i < |s.marks| && Some(s.marks[i].subjectId) == subjectId
                        && (forall j :: 0 <= j < i ==> Some(s.marks[j].subjectId) != subjectId)
                        ==> Total(AdminEntry(s, subjectId)) == Total(s.marks[i].components)
  {
    var m := FindFirst((m: AdminMark) => Some(m.subjectId) == subjectId, s.marks);
    if m.Some? {
      FirstMatchUnique(s.marks, subjectId, m.value);
    }
  }

  /** The first mark with the selected subject is the mark `find` returns. */
  lemma FirstMatchUnique(marks: seq<AdminMark>, subjectId: Option<string>, m: AdminMark)
    requires exists i :: 0 <= i < |marks| && marks[i] == m && Some(m.subjectId) == subjectId
                         && forall j :: 0 <= j < i ==> Some(marks[j].subjectId) != subjectId
    ensures forall i :: 0 <= i < |marks| && Some(marks[i].subjectId) == subjectId
                        && (forall j :: 0 <= j < i ==> Some(marks[j].subjectId) != subjectId)
                        ==> marks[i] == m
  {
    var k :| 0 <= k < |marks| && marks[k] == m && Some(m.subjectId) == subjectId
             && forall j :: 0 <= j < k ==> Some(marks[j].subjectId) != subjectId;
    forall i | 0 <= i < |marks| && Some(marks[i].subjectId) == subjectId
               && (forall j :: 0 <= j < i ==> Some(marks[j].subjectId) != subjectId)
      ensures marks[i] == m
    {
    }
  }

  function AdminStudentIds(students: seq<AdminStudent>): (r: seq<string>)
    ensures |r| == |students| && forall i :: 0 <= i < |r| ==> r[i] == students[i].id
  {
    Map((s: AdminStudent) => s.id, students)
  }

  /** No later student in the list has the same id as student `i`. */
  predicate LastListing(students: seq<AdminStudent>, i: nat)
    requires i < |students|
  {
    forall j :: i < j < |students| ==> students[j].id != students[i].id
  }

  /** The `forEach` over the students: one entry per listed student. */
  function EntriesFor(students: seq<AdminStudent>, subjectId: Option<string>): (r: map<string, Components>)
    ensures forall k :: k in r <==> k in AdminStudentIds(students)
    decreases |students|
  {
    if |students| == 0 then map[]
    else
      var n := |students| - 1;
      assert AdminStudentIds(students) == AdminStudentIds(students[..n]) + [students[n].id];
      EntriesFor(students[..n], subjectId)[students[n].id := AdminEntry(students[n], subjectId)]
  }

  /** Each student's entry is built from its own marks; of several listings of the
      same id, the last one wins. */
  lemma {:induction false} EntriesForEntry(students: seq<AdminStudent>, subjectId: Option<string>, i: nat)
    requires i < |students| && LastListing(students, i)
    ensures students[i].id in EntriesFor(students, subjectId)
    ensures EntriesFor(students, subjectId)[students[i].id] == AdminEntry(students[i], subjectId)
    decreases |students|
  {
    var n := |students| - 1;
    var prev := EntriesFor(students[..n], subjectId);
    assert EntriesFor(students, subjectId) == prev[students[n].id := AdminEntry(students[n], subjectId)];
    if i < n {
      assert students[..n][i] == students[i];
      assert LastListing(students[..n], i);
      EntriesForEntry(students[..n], subjectId, i);
      assert students[n].id != students[i].id;
    }
  }

  /** The effect that rebuilds the marks when the students or the subject change:
      nothing happens while the list is empty; otherwise the state is replaced by
      the entries of the listed students, earlier edits discarded. */
  function InitMarks(marks: map<string, Components>, students: seq<AdminStudent>, subjectId: Option<string>)
    : (r: map<string, Components>)
    ensures |students| == 0 ==> r == marks
    ensures |students| > 0 ==> forall k :: k in r <==> k in AdminStudentIds(students)
    ensures |students| > 0 ==>
              forall i :: 0 <= i < |students| && LastListing(students, i) ==>
                r[students[i].id] == AdminEntry(students[i], subjectId)
  {
    if |students| == 0 then marks
    else
      var r := EntriesFor(students, subjectId);
      forall i | 0 <= i < |students| && LastListing(students, i)
        ensures r[students[i].id] == AdminEntry(students[i], subjectId)
      {
        EntriesForEntry(students, subjectId, i);
      }
      r
  }

  /** `handleInputChange`: `{ ...prev[studentId], [field]: value }`, spreading a
      missing entry as an empty object. */
  function HandleInputChange(marks: map<string, Components>, studentId: string, f: Field, value: int)
    : (r: map<string, Components>)
    ensures r.Keys == marks.Keys + {studentId}
    ensures Get(r[studentId], f) == Some(value)
    ensures forall g :: g != f ==> Get(r[studentId], g) == (if studentId in marks then Get(marks[studentId], g) else None)
    ensures forall k :: k in marks && k != studentId ==> r[k] == marks[k]
  {
    var e := if studentId in marks then marks[studentId] else NoComponents;
    marks[studentId := Set(e, f, Some(value))]
  }

  /** The row total: `marks[student.id] || {}` summed with missing components as 0. */
  function AdminRowTotal(marks: map<string, Components>, studentId: string): (t: int)
    ensures studentId !in marks ==> t == 0
    ensures studentId in marks ==> t == Total(marks[studentId])
  {
    Total(if studentId in marks then marks[studentId] else NoComponents)
  }

  /** Right after loading, a student's row shows the total of its mark for the
      selected subject, or 0 when it has none; an edit then moves that total by the
      change in the edited cell. */
  lemma LoadedRowTotal(students: seq<AdminStudent>, subjectId: Option<string>, i: nat, f: Field, value: int)
    requires i < |students| && LastListing(students, i)
    ensures var marks := InitMarks(map[], students, subjectId);
            var id := students[i].id;
            && ((forall m :: 0 <= m < |students[i].marks| ==> Some(students[i].marks[m].subjectId) != subjectId)
                  ==> AdminRowTotal(marks, id) == 0)
            && AdminRowTotal(HandleInputChange(marks, id, f, value), id)
                 == AdminRowTotal(marks, id) - OrZero(Get(marks[id], f)) + value
  {
    var marks := InitMarks(map[], students, subjectId);
    var id := students[i].id;
    AdminEntryFromFirstMatch(students[i], subjectId);
    TotalAfterSet(marks[id], f, Some(value));
  }
}

=== FILE: common.dfy ===
/** Shared vocabulary: optional values, request outcomes, and the order-preserving
    list operations (filter, map, subsequence) that the handlers and pages use. */
module Common {

  /** A value that may be absent: JavaScript `undefined`/`null` or a missing JSON key. */
  datatype Option<T> = None | Some(value: T)

  /** A property of a parsed JSON body or CSV record as JavaScript sees it: absent
      (`undefined`), an explicit `null`, or a string. Only destructuring defaults tell
      the first two apart. */
  datatype JsValue = Undefined | Null | Str(value: string)

  /** The outcome of a request handler: the HTTP statuses the handlers return,
      with the 500 path (an exception from the database) left out. */
  datatype Response<T> =
    | Ok(value: T)
    | BadRequest(message: string)
    | NotFound(message: string)

  /** JavaScript truthiness of an optional string: present and not empty. */
  predicate Truthy(o: Option<string>)
  {
    o.Some? && o.value != ""
  }

  /** `o || fallback` for an optional string. */
  function OrElse(o: Option<string>, fallback: string): (r: string)
    ensures Truthy(o) ==> r == o.value
    ensures !Truthy(o) ==> r == fallback
  {
    if o.Some? && o.value != "" then o.value else fallback
  }

  /** `Array.prototype.filter`: the elements satisfying `p`, in their original order. */
  function Filter<T>(p: T -> bool, s: seq<T>): (r: seq<T>)
    ensures |r| <= |s|
    ensures forall i :: 0 <= i < |r| ==> r[i] in s && p(r[i])
    ensures forall i :: 0 <= i < |s| && p(s[i]) ==> s[i] in r
    decreases |s|
  {
    if |s| == 0 then []
    else if p(s[0]) then [s[0]] + Filter(p, s[1..])
    else Filter(p, s[1..])
  }

  /** `Array.prototype.map`. */
  function Map<T, U>(f: T -> U, s: seq<T>): (r: seq<U>)
    ensures |r| == |s|
    ensures forall i :: 0 <= i < |s| ==> r[i] == f(s[i])
  {
    seq(|s|, i requires 0 <= i < |s| => f(s[i]))
  }

  /** `Array.prototype.find` / the ORM's `findFirst`: the first element satisfying `p`. */
  function FindFirst<T>(p: T -> bool, s: seq<T>): (r: Option<T>)
    ensures r.None? <==> forall i :: 0 <= i < |s| ==> !p(s[i])
    ensures r.Some? ==> exists i :: 0 <= i < |s| && s[i] == r.value && p(s[i])
                          && forall j :: 0 <= j < i ==> !p(s[j])
    decreases |s|
  {
    if |s| == 0 then None
    else if p(s[0]) then Some(s[0])
    else
      var r := FindFirst(p, s[1..]);
      assert forall i :: 1 <= i < |s| ==> s[i] == s[1..][i - 1];
      r
  }

  /** Appending elements after a match does not change the first match. */
  lemma FindFirstPrefix<T>(p: T -> bool, a: seq<T>, b: seq<T>)
    requires |a| <= |b| && b[..|a|] == a && FindFirst(p, a).Some?
    ensures FindFirst(p, b) == FindFirst(p, a)
  {
    var i :| 0 <= i < |a| && a[i] == FindFirst(p, a).value && p(a[i]) && forall k :: 0 <= k < i ==> !p(a[k]);
    assert forall k :: 0 <= k < |a| ==> b[k] == a[k];
  }

  /** The first match of `s + [x]` is `x` when nothing in `s` matches and `x` does. */
  lemma FindFirstAppendOnly<T>(p: T -> bool, s: seq<T>, x: T)
    requires FindFirst(p, s).None? && p(x)
    ensures FindFirst(p, s + [x]) == Some(x)
  {
    var b := s + [x];
    assert b[|s|] == x;
    assert forall k :: 0 <= k < |s| ==> b[k] == s[k];
  }

  /** `a` is obtained from `b` by deleting elements: an order-preserving sublist. */
  predicate SubseqOf<T(==)>(a: seq<T>, b: seq<T>)
    decreases |b|
  {
    if |a| == 0 then true
    else if |b| == 0 then false
    else (a[0] == b[0] && SubseqOf(a[1..], b[1..])) || SubseqOf(a, b[1..])
  }

  /** Number of elements of `s` satisfying `p`. */
  function CountIf<T>(p: T -> bool, s: seq<T>): nat
    decreases |s|
  {
    if |s| == 0 then 0
    else (if p(s[0]) then 1 else 0) + CountIf(p, s[1..])
  }

  /** Concatenation of a sequence of sequences. */
  function Flatten<T>(ss: seq<seq<T>>): seq<T>
    decreases |ss|
  {
    if |ss| == 0 then [] else ss[0] + Flatten(ss[1..])
  }

  lemma {:induction false} FilterIsSubseq<T>(p: T -> bool, s: seq<T>)
    ensures SubseqOf(Filter(p, s), s)
    decreases |s|
  {
    if |s| > 0 {
      FilterIsSubseq(p, s[1..]);
      if p(s[0]) {
        assert Filter(p, s)[1..] == Filter(p, s[1..]);
      } else {
        SubseqSkip(Filter(p, s), s);
      }
    }
  }

  /** Dropping the head of the longer list keeps a subsequence a subsequence. */
  lemma SubseqSkip<T>(a: seq<T>, b: seq<T>)
    requires |b| > 0 && SubseqOf(a, b[1..])
    ensures SubseqOf(a, b)
  {
  }

  lemma {:induction false} MapPreservesSubseq<T, U>(f: T -> U, a: seq<T>, b: seq<T>)
    requires SubseqOf(a, b)
    ensures SubseqOf(Map(f, a), Map(f, b))
    decreases |b|
  {
    if |a| > 0 {
      assert Map(f, b)[1..] == Map(f, b[1..]);
      if a[0] == b[0] && SubseqOf(a[1..], b[1..]) {
        MapPreservesSubseq(f, a[1..], b[1..]);
        assert Map(f, a)[1..] == Map(f, a[1..]);
      } else {
        MapPreservesSubseq(f, a, b[1..]);
      }
    }
  }

  lemma {:induction false} SubseqRefl<T>(s: seq<T>)
    ensures SubseqOf(s, s)
    decreases |s|
  {
    if |s| > 0 {
      SubseqRefl(s[1..]);
    }
  }

  lemma {:induction false} SubseqAppend<T>(s: seq<T>, x: T)
    ensures SubseqOf(s, s + [x])
    decreases |s|
  {
    if |s| > 0 {
      SubseqAppend(s[1..], x);
      assert (s + [x])[1..] == s[1..] + [x];
    }
  }

  /** A filtered-then-mapped list is a sublist of the mapped list, in order. */
  lemma FilterMapIsSubseq<T, U>(p: T -> bool, f: T -> U, s: seq<T>)
    ensures SubseqOf(Map(f, Filter(p, s)), Map(f, s))
  {
    FilterIsSubseq(p, s);
    MapPreservesSubseq(f, Filter(p, s), s);
  }

  /** The filter by `p` and the filter by `!p` split the list: their lengths add up. */
  lemma {:induction false} FilterSplitLength<T>(p: T -> bool, q: T -> bool, s: seq<T>)
    requires forall x :: x in s ==> (q(x) <==> !p(x))
    ensures |Filter(p, s)| + |Filter(q, s)| == |s|
    decreases |s|
  {
    if |s| > 0 {
      FilterSplitLength(p, q, s[1..]);
    }
  }

  /** The filter by `p` and the filter by `!p` split the list: as multisets, after
      any mapping, the two parts add up to the whole. */
  lemma {:induction false} FilterSplitMultiset<T, U>(p: T -> bool, q: T -> bool, f: T -> U, s: seq<T>)
    requires forall x :: x in s ==> (q(x) <==> !p(x))
    ensures multiset(Map(f, Filter(p, s))) + multiset(Map(f, Filter(q, s))) == multiset(Map(f, s))
    decreases |s|
  {
    if |s| > 0 {
      var rest := s[1..];
      FilterSplitMultiset(p, q, f, rest);
      MapUnfold(f, s);
      if p(s[0]) {
        assert Filter(p, s)[1..] == Filter(p, rest);
        MapUnfold(f, Filter(p, s));
        assert Filter(q, s) == Filter(q, rest);
      } else {
        assert Filter(q, s)[1..] == Filter(q, rest);
        MapUnfold(f, Filter(q, s));
        assert Filter(p, s) == Filter(p, rest);
      }
    }
  }

  lemma MapCons<T, U>(f: T -> U, x: T, s: seq<T>)
    ensures Map(f, [x] + s) == [f(x)] + Map(f, s)
  {
  }

  lemma MapUnfold<T, U>(f: T -> U, s: seq<T>)
    requires |s| > 0
    ensures multiset(Map(f, s)) == multiset{f(s[0])} + multiset(Map(f, s[1..]))
  {
    assert Map(f, s) == [f(s[0])] + Map(f, s[1..]);
  }

  /** A filter keeps every element exactly when every element satisfies the predicate. */
  lemma {:induction false} FilterKeepsAllIff<T>(p: T -> bool, s: seq<T>)
    ensures |Filter(p, s)| == |s| <==> forall i :: 0 <= i < |s| ==> p(s[i])
    decreases |s|
  {
    if |s| > 0 {
      FilterKeepsAllIff(p, s[1..]);
      if !p(s[0]) {
        assert |Filter(p, s)| <= |s[1..]|;
      } else {
        assert forall i :: 1 <= i < |s| ==> s[i] == s[1..][i - 1];
      }
    }
  }

  /** A filter whose predicate holds everywhere returns its input. */
  lemma {:induction false} FilterKeepsAll<T>(p: T -> bool, s: seq<T>)
    requires forall i :: 0 <= i < |s| ==> p(s[i])
    ensures Filter(p, s) == s
    decreases |s|
  {
    if |s| > 0 {
      assert forall i :: 1 <= i < |s| ==> s[i] == s[1..][i - 1];
      FilterKeepsAll(p, s[1..]);
    }
  }

  /** The length of a filter is the number of elements satisfying its predicate. */
  lemma {:induction false} FilterLengthIsCount<T>(p: T -> bool, s: seq<T>)
    ensures |Filter(p, s)| == CountIf(p, s)
    decreases |s|
  {
    if |s| > 0 {
      FilterLengthIsCount(p, s[1..]);
    }
  }

  /** When `f` tells `s[i]` apart from every other element, `f(s[i])` is among the
      images of the kept elements exactly when `s[i]` is kept. */
  lemma MapFilterMembership<T, U>(p: T -> bool, f: T -> U, s: seq<T>, i: nat)
    requires i < |s|
    requires forall j :: 0 <= j < |s| && j != i ==> f(s[j]) != f(s[i])
    ensures f(s[i]) in Map(f, Filter(p, s)) <==> p(s[i])
  {
    var kept := Filter(p, s);
    if p(s[i]) {
      var k :| 0 <= k < |kept| && kept[k] == s[i];
      assert Map(f, kept)[k] == f(s[i]);
    }
    if f(s[i]) in Map(f, kept) {
      var k :| 0 <= k < |kept| && Map(f, kept)[k] == f(s[i]);
      assert kept[k] in s && p(kept[k]);
      var j :| 0 <= j < |s| && s[j] == kept[k];
      assert j == i;
    }
  }

  lemma {:induction false} FlattenLength<T>(ss: seq<seq<T>>, n: nat)
    requires forall i :: 0 <= i < |ss| ==> |ss[i]| == n
    ensures |Flatten(ss)| == |ss| * n
    decreases |ss|
  {
    if |ss| > 0 {
      FlattenLength(ss[1..], n);
    }
  }

  lemma {:induction false} FlattenMembership<T>(ss: seq<seq<T>>, x: T)
    ensures x in Flatten(ss) <==> exists i :: 0 <= i < |ss| && x in ss[i]
    decreases |ss|
  {
    if |ss| > 0 {
      FlattenMembership(ss[1..], x);
      if x in Flatten(ss[1..]) {
        var i :| 0 <= i < |ss[1..]| && x in ss[1..][i];
        assert x in ss[i + 1];
      }
      if exists i :: 0 <= i < |ss| && x in ss[i] {
        var i :| 0 <= i < |ss| && x in ss[i];
        if i > 0 {
          assert x in ss[1..][i - 1];
        }
      }
    }
  }
}

=== FILE: completion.dfy ===
/** Teacher completion classification, in the two versions the application carries:
    the progress route (per-mark "every component filled" and "some component is
    0" tests, which are not complements) and the library helper (a strict partition
    on "the class has any marks"). */
module Completion {
  import opened Common
  import opened Marks
  import opened School

  /** A class-teacher assignment as fetched with its class and its marks. */
  datatype FetchedClass = FetchedClass(className: string, marks: seq<MarkRow>)

  /** A teacher as fetched with subject names and class assignments. */
  datatype FetchedTeacher = FetchedTeacher(
    id: string,
    name: Option<string>,
    academicYear: Option<string>,
    email: Option<string>,
    role: string,
    subjectNames: seq<string>,
    classes: seq<FetchedClass>)

  /** One row of the progress route's reply. */
  datatype TeacherProgress = TeacherProgress(
    teacherId: string,
    name: Option<string>,
    academicYear: Option<string>,
    email: Option<string>,
    role: string,
    subjects: seq<string>,
    classesAssigned: seq<string>,
    completedClasses: seq<string>,
    incompleteClasses: seq<string>)

  function ClassName(c: FetchedClass): string
  {
    c.className
  }

  /** The marks of one assignment restricted to the requested trimester. */
  function MarksIn(c: FetchedClass, trimester: string): (r: seq<Components>)
    ensures |r| <= |c.marks|
  {
    Map((m: MarkRow) => m.components, Filter((m: MarkRow) => m.trimester == Some(trimester), c.marks))
  }

  /** A component that is neither `null`/`undefined` nor 0. */
  predicate Filled(v: Option<int>)
  {
    v.Some? && v.value != 0
  }

  /** The route's per-mark completion test: all five components filled. */
  predicate MarkFilled(c: Components)
  {
    forall f :: Filled(Get(c, f))
  }

  /** The route's per-mark gap test: some component is exactly 0. */
  predicate MarkHasZero(c: Components)
  {
    exists f :: Get(c, f) == Some(0)
  }

  /** "completed" in the route: every mark of the trimester has every component filled
      (`every` holds of an empty list). */
  predicate RouteCompleted(c: FetchedClass, trimester: string)
  {
    var ms := MarksIn(c, trimester);
    forall i :: 0 <= i < |ms| ==> MarkFilled(ms[i])
  }

  /** "incomplete" in the route: no marks, or some mark with a component equal to 0. */
  predicate RouteIncomplete(c: FetchedClass, trimester: string)
  {
    var ms := MarksIn(c, trimester);
    |ms| == 0 || exists i :: 0 <= i < |ms| && MarkHasZero(ms[i])
  }

  /** The route's completion test for a fixed trimester, as a function value. */
  function Done(trimester: string): FetchedClass -> bool
  {
    c => RouteCompleted(c, trimester)
  }

  /** The route's gap test for a fixed trimester, as a function value. */
  function Open(trimester: string): FetchedClass -> bool
  {
    c => RouteIncomplete(c, trimester)
  }

  /** No other class of the teacher carries the name of class `i`. */
  predicate NameUnique(t: FetchedTeacher, i: nat)
    requires i < |t.classes|
  {
    forall j :: 0 <= j < |t.classes| && j != i ==> t.classes[j].className != t.classes[i].className
  }

  /** Progress of one teacher: the class list, and the completed and incomplete
      classes, each an order-preserving sublist of the class list holding the names
      of exactly the classes that pass the corresponding test. */
  function ClassifyTeacher(t: FetchedTeacher, trimester: string): (r: TeacherProgress)
    ensures r.teacherId == t.id && r.name == t.name && r.academicYear == t.academicYear
    ensures r.email == t.email && r.role == t.role && r.subjects == t.subjectNames
    ensures |r.classesAssigned| == |t.classes|
    ensures forall i :: 0 <= i < |t.classes| ==> r.classesAssigned[i] == t.classes[i].className
    ensures r.completedClasses == Map(ClassName, Filter(Done(trimester), t.classes))
    ensures r.incompleteClasses == Map(ClassName, Filter(Open(trimester), t.classes))
    ensures SubseqOf(r.completedClasses, r.classesAssigned)
    ensures SubseqOf(r.incompleteClasses, r.classesAssigned)
    ensures |r.completedClasses| == |r.classesAssigned| <==>
              forall i :: 0 <= i < |t.classes| ==> RouteCompleted(t.classes[i], trimester)
  {
    var done := Filter(Done(trimester), t.classes);
    var open := Filter(Open(trimester), t.classes);
    FilterMapIsSubseq(Done(trimester), ClassName, t.classes);
    FilterMapIsSubseq(Open(trimester), ClassName, t.classes);
    FilterKeepsAllIff(Done(trimester), t.classes);
    TeacherProgress(
      t.id, t.name, t.academicYear, t.email, t.role, t.subjectNames,
      Map(ClassName, t.classes), Map(ClassName, done), Map(ClassName, open))
  }

  /** The role filter of the progress route. */
  predicate IsTeacher(t: FetchedTeacher)
  {
    t.role == "TEACHER"
  }

  /** The classification for a fixed trimester, as a function value. */
  function Classify(trimester: string): FetchedTeacher -> TeacherProgress
  {
    t => ClassifyTeacher(t, trimester)
  }

  /** `GET /api/allTeachersProgress?trimester=…`: 400 without a trimester; otherwise
      one progress row per teacher whose role is TEACHER, in the fetched order. */
  function AllTeachersProgress(trimester: Option<string>, teachers: seq<FetchedTeacher>)
    : (r: Response<seq<TeacherProgress>>)
    ensures r.BadRequest? <==> !Truthy(trimester)
    ensures !r.NotFound?
    ensures r.Ok? ==> |r.value| == CountIf(IsTeacher, teachers)
    ensures r.Ok? ==> forall j :: 0 <= j < |teachers| && IsTeacher(teachers[j]) ==>
              ClassifyTeacher(teachers[j], trimester.value) in r.value
    ensures r.Ok? ==> forall i :: 0 <= i < |r.value| ==>
              exists j :: 0 <= j < |teachers| && IsTeacher(teachers[j])
                          && r.value[i] == ClassifyTeacher(teachers[j], trimester.value)
    ensures r.Ok? ==> SubseqOf(r.value, Map(Classify(trimester.value), teachers))
  {
    if !Truthy(trimester) then BadRequest("Trimester is required")
    else
      var ts := Filter(IsTeacher, teachers);
      var rows := Map(Classify(trimester.value), ts);
      FilterLengthIsCount(IsTeacher, teachers);
      FilterMapIsSubseq(IsTeacher, Classify(trimester.value), teachers);
      assert forall i :: 0 <= i < |ts| ==> ts[i] in teachers && rows[i] == ClassifyTeacher(ts[i], trimester.value);
      assert forall j :: 0 <= j < |teachers| && IsTeacher(teachers[j]) ==> teachers[j] in ts;
      Ok(rows)
  }

  /** A class without marks for the trimester is both completed and incomplete. */
  lemma EmptyClassIsBoth(c: FetchedClass, trimester: string)
    requires |MarksIn(c, trimester)| == 0
    ensures RouteCompleted(c, trimester) && RouteIncomplete(c, trimester)
  {
  }

  /** The two route lists overlap exactly on classes with no marks for the trimester. */
  lemma BothIffNoMarks(c: FetchedClass, trimester: string)
    ensures RouteCompleted(c, trimester) && RouteIncomplete(c, trimester)
            <==> |MarksIn(c, trimester)| == 0
  {
    var ms := MarksIn(c, trimester);
    if |ms| > 0 && RouteCompleted(c, trimester) {
      forall i | 0 <= i < |ms|
        ensures !MarkHasZero(ms[i])
      {
        assert MarkFilled(ms[i]);
      }
    }
  }

  /** A class with marks, none of which has a 0 but some of which has a missing
      component, is in neither list. */
  lemma NullWithoutZeroIsNeither(c: FetchedClass, trimester: string, k: nat, f: Field)
    requires var ms := MarksIn(c, trimester);
             k < |ms| && Get(ms[k], f).None?
             && forall i :: 0 <= i < |ms| ==> !MarkHasZero(ms[i])
    ensures !RouteCompleted(c, trimester) && !RouteIncomplete(c, trimester)
  {
    var ms := MarksIn(c, trimester);
    assert !Filled(Get(ms[k], f));
  }

  /** The route lists miss a class exactly when it has marks, none with a 0
      component, and some with a missing component. */
  lemma NeitherIff(c: FetchedClass, trimester: string)
    ensures !RouteCompleted(c, trimester) && !RouteIncomplete(c, trimester) <==>
            var ms := MarksIn(c, trimester);
            && |ms| > 0
            && (forall i :: 0 <= i < |ms| ==> !MarkHasZero(ms[i]))
            && (exists i, f :: 0 <= i < |ms| && Get(ms[i], f).None?)
  {
    var ms := MarksIn(c, trimester);
    if !RouteCompleted(c, trimester) {
      var i :| 0 <= i < |ms| && !MarkFilled(ms[i]);
      var f :| !Filled(Get(ms[i], f));
      if !RouteIncomplete(c, trimester) {
        assert !MarkHasZero(ms[i]);
        assert Get(ms[i], f).None?;
      }
    }
  }

  /** A class with marks that are all filled is completed and not incomplete. */
  lemma AllFilledIsCompletedOnly(c: FetchedClass, trimester: string)
    requires var ms := MarksIn(c, trimester);
             |ms| > 0 && forall i :: 0 <= i < |ms| ==> MarkFilled(ms[i])
    ensures RouteCompleted(c, trimester) && !RouteIncomplete(c, trimester)
  {
    BothIffNoMarks(c, trimester);
  }

  /** A class one of whose marks has a component at 0 is incomplete and not completed. */
  lemma ZeroComponentIsIncompleteOnly(c: FetchedClass, trimester: string, k: nat, f: Field)
    requires var ms := MarksIn(c, trimester);
             k < |ms| && Get(ms[k], f) == Some(0)
    ensures RouteIncomplete(c, trimester) && !RouteCompleted(c, trimester)
  {
    var ms := MarksIn(c, trimester);
    assert MarkHasZero(ms[k]);
    assert !MarkFilled(ms[k]);
  }

  /** Every name in the completed (incomplete) list belongs to a class of the
      teacher that passes the completion (gap) test. */
  lemma RouteListsSound(t: FetchedTeacher, trimester: string)
    ensures var r := ClassifyTeacher(t, trimester);
            && (forall n :: n in r.completedClasses ==>
                  exists i :: 0 <= i < |t.classes| && t.classes[i].className == n
                              && RouteCompleted(t.classes[i], trimester))
            && (forall n :: n in r.incompleteClasses ==>
                  exists i :: 0 <= i < |t.classes| && t.classes[i].className == n
                              && RouteIncomplete(t.classes[i], trimester))
  {
    var done := Filter(Done(trimester), t.classes);
    var open := Filter(Open(trimester), t.classes);
    forall n | n in Map(ClassName, done)
      ensures exists i :: 0 <= i < |t.classes| && t.classes[i].className == n
                          && RouteCompleted(t.classes[i], trimester)
    {
      var k :| 0 <= k < |done| && Map(ClassName, done)[k] == n;
      var i :| 0 <= i < |t.classes| && t.classes[i] == done[k];
    }
    forall n | n in Map(ClassName, open)
      ensures exists i :: 0 <= i < |t.classes| && t.classes[i].className == n
                          && RouteIncomplete(t.classes[i], trimester)
    {
      var k :| 0 <= k < |open| && Map(ClassName, open)[k] == n;
      var i :| 0 <= i < |t.classes| && t.classes[i] == open[k];
    }
  }

  /** A class whose name no other class of the teacher shares is listed as completed
      exactly when it passes the completion test, and as incomplete exactly when it
      passes the gap test. */
  lemma InRouteListsIff(t: FetchedTeacher, trimester: string, i: nat)
    requires i < |t.classes| && NameUnique(t, i)
    ensures var r := ClassifyTeacher(t, trimester);
            (t.classes[i].className in r.completedClasses <==> RouteCompleted(t.classes[i], trimester))
            && (t.classes[i].className in r.incompleteClasses <==> RouteIncomplete(t.classes[i], trimester))
  {
    MapFilterMembership(Done(trimester), ClassName, t.classes, i);
    MapFilterMembership(Open(trimester), ClassName, t.classes, i);
  }

  /** Such a class is listed in both of the route's lists exactly when it has no
      marks for the trimester. */
  lemma ListedInBothIff(t: FetchedTeacher, trimester: string, i: nat)
    requires i < |t.classes| && NameUnique(t, i)
    ensures var r := ClassifyTeacher(t, trimester);
            t.classes[i].className in r.completedClasses && t.classes[i].className in r.incompleteClasses
            <==> |MarksIn(t.classes[i], trimester)| == 0
  {
    InRouteListsIff(t, trimester, i);
    BothIffNoMarks(t.classes[i], trimester);
  }

  /** Such a class is missing from both of the route's lists exactly when it has
      marks, none with a 0 component, and some with a missing component. */
  lemma ListedInNeitherIff(t: FetchedTeacher, trimester: string, i: nat)
    requires i < |t.classes| && NameUnique(t, i)
    ensures var r := ClassifyTeacher(t, trimester);
            var ms := MarksIn(t.classes[i], trimester);
            t.classes[i].className !in r.completedClasses && t.classes[i].className !in r.incompleteClasses
            <==> && |ms| > 0
                 && (forall k :: 0 <= k < |ms| ==> !MarkHasZero(ms[k]))
                 && (exists k, f :: 0 <= k < |ms| && Get(ms[k], f).None?)
  {
    InRouteListsIff(t, trimester, i);
    NeitherIff(t.classes[i], trimester);
  }

  /** A uniquely named class with a missing component and no 0 anywhere is reported
      in neither list. */
  lemma NullWithoutZeroListedNowhere(t: FetchedTeacher, trimester: string, i: nat, k: nat, f: Field)
    requires i < |t.classes|
    requires var ms := MarksIn(t.classes[i], trimester);
             k < |ms| && Get(ms[k], f).None?
             && forall j :: 0 <= j < |ms| ==> !MarkHasZero(ms[j])
    requires NameUnique(t, i)
    ensures var r := ClassifyTeacher(t, trimester);
            t.classes[i].className !in r.completedClasses && t.classes[i].className !in r.incompleteClasses
  {
    NullWithoutZeroIsNeither(t.classes[i], trimester, k, f);
    InRouteListsIff(t, trimester, i);
  }

  /** The library's summary row for one teacher. */
  datatype Summary = Summary(teacherName: Option<string>, completed: seq<string>, incomplete: seq<string>)

  predicate HasMarks(c: FetchedClass)
  {
    |c.marks| > 0
  }

  predicate HasNoMarks(c: FetchedClass)
  {
    |c.marks| == 0
  }

  /** The library helper for one teacher: classes with any mark are completed,
      classes without are incomplete. */
  function Summarize(t: FetchedTeacher): (r: Summary)
    ensures r.teacherName == t.name
    ensures |r.completed| + |r.incomplete| == |t.classes|
    ensures multiset(r.completed) + multiset(r.incomplete) == multiset(Map(ClassName, t.classes))
    ensures SubseqOf(r.completed, Map(ClassName, t.classes))
    ensures SubseqOf(r.incomplete, Map(ClassName, t.classes))
    ensures r.completed == Map(ClassName, Filter(HasMarks, t.classes))
    ensures r.incomplete == Map(ClassName, Filter(HasNoMarks, t.classes))
  {
    FilterSplitLength(HasMarks, HasNoMarks, t.classes);
    FilterSplitMultiset(HasMarks, HasNoMarks, ClassName, t.classes);
    FilterMapIsSubseq(HasMarks, ClassName, t.classes);
    FilterMapIsSubseq(HasNoMarks, ClassName, t.classes);
    Summary(t.name, Map(ClassName, Filter(HasMarks, t.classes)), Map(ClassName, Filter(HasNoMarks, t.classes)))
  }

  /** `getTeachersProgress`: one summary per teacher, in input order. */
  function TeachersProgress(teachers: seq<FetchedTeacher>): (r: seq<Summary>)
    ensures |r| == |teachers|
    ensures forall i :: 0 <= i < |teachers| ==> r[i] == Summarize(teachers[i])
    ensures forall i :: 0 <= i < |teachers| ==> r[i].teacherName == teachers[i].name
  {
    Map(Summarize, teachers)
  }

  /** In the library version every uniquely named class is in exactly one of the two
      lists of its teacher's summary: the completed list exactly when it has marks. */
  lemma {:induction false} LibraryPartition(t: FetchedTeacher, i: nat)
    requires i < |t.classes| && NameUnique(t, i)
    ensures var r := Summarize(t);
            && (t.classes[i].className in r.completed <==> |t.classes[i].marks| > 0)
            && (t.classes[i].className in r.incomplete <==> |t.classes[i].marks| == 0)
            && (t.classes[i].className in r.completed) != (t.classes[i].className in r.incomplete)
  {
    MapFilterMembership(HasMarks, ClassName, t.classes, i);
    MapFilterMembership(HasNoMarks, ClassName, t.classes, i);
  }

  /** The two versions disagree: a class whose only mark is all zeros counts as
      completed for the library and as incomplete, not completed, for the route. */
  lemma VersionsDisagree(trimester: string)
    ensures var c := FetchedClass("A", [MarkRow("s", "ct", "sub", None, Some(trimester), ZeroComponents)]);
            HasMarks(c) && !RouteCompleted(c, trimester) && RouteIncomplete(c, trimester)
  {
    var c := FetchedClass("A", [MarkRow("s", "ct", "sub", None, Some(trimester), ZeroComponents)]);
    assert Filter((m: MarkRow) => m.trimester == Some(trimester), c.marks) == c.marks;
    assert MarksIn(c, trimester) == [ZeroComponents];
    ZeroComponentIsIncompleteOnly(c, trimester, 0, Participation);
  }
}

=== FILE: countdown.dfy ===
/** The mark-entry countdown: the remaining milliseconds split into days, hours,
    minutes and seconds with JavaScript's `Math.floor` and truncating `%`, the
    two-digit rendering of each part, and the once-a-second tick that stops at the
    target. Clock readings are parameters. */
module Countdown {
  import opened Common
  import opened Text

  const Second: int := 1000
  const Minute: int := 60 * Second
  const Hour: int := 60 * Minute
  const Day: int := 24 * Hour

  /** JavaScript `a % d` for `d > 0`: `a` minus a multiple of `d`, with the sign of
      `a` and a magnitude below `d`; these determine it. */
  function JsRem(a: int, d: int): (r: int)
    requires d > 0
    ensures (a - r) % d == 0
    ensures a >= 0 ==> 0 <= r < d
    ensures a < 0 ==> -d < r <= 0
    ensures a >= 0 ==> r == a % d
  {
    if a >= 0 then
      DivModUnique(a - a % d, d, a / d, 0);
      a % d
    else
      DivModUnique(a + (-a) % d, d, -((-a) / d), 0);
      -((-a) % d)
  }

  /** `Math.floor(a / d)` for `d > 0`. Dafny's division rounds towards negative
      infinity when the divisor is positive, so it is the same operation. */
  function FloorDiv(a: int, d: int): (q: int)
    requires d > 0
    ensures q * d <= a < q * d + d
  {
    a / d
  }

  datatype Parts = Parts(days: int, hours: int, minutes: int, seconds: int)

  /** `formatTime`. */
  function FormatTime(time: int): (p: Parts)
    ensures time >= 0 ==>
              && p.days >= 0 && 0 <= p.hours < 24 && 0 <= p.minutes < 60 && 0 <= p.seconds < 60
              && p.days * Day + p.hours * Hour + p.minutes * Minute + p.seconds * Second <= time
              && time < p.days * Day + p.hours * Hour + p.minutes * Minute + p.seconds * Second + Second
    ensures time < 0 ==>
              && p.days < 0 && -24 <= p.hours <= 0 && -60 <= p.minutes <= 0 && -60 <= p.seconds <= 0
  {
    var p := Parts(FloorDiv(time, Day), FloorDiv(JsRem(time, Day), Hour),
                   FloorDiv(JsRem(time, Hour), Minute), FloorDiv(JsRem(time, Minute), Second));
    if time >= 0 then
      FormatDecomposes(time);
      p
    else
      p
  }

  /** For a non-negative time the four parts are its mixed-radix digits. */
  lemma FormatDecomposes(time: int)
    requires time >= 0
    ensures var days := time / Day;
            var hours := (time % Day) / Hour;
            var minutes := (time % Hour) / Minute;
            var seconds := (time % Minute) / Second;
            && hours < 24 && minutes < 60 && seconds < 60
            && days * Day + hours * Hour + minutes * Minute + seconds * Second <= time
            && time < days * Day + hours * Hour + minutes * Minute + seconds * Second + Second
  {
    var r1 := time % Day;
    DivModUnique(time, Day, time / Day, r1);
    DivModUnique(r1, Hour, r1 / Hour, r1 % Hour);
    DivModUnique(time, Hour, (time / Day) * 24 + r1 / Hour, r1 % Hour);
    var r2 := time % Hour;
    DivModUnique(r2, Minute, r2 / Minute, r2 % Minute);
    DivModUnique(time, Minute, (time / Hour) * 60 + r2 / Minute, r2 % Minute);
    var r3 := time % Minute;
    DivModUnique(r3, Second, r3 / Second, r3 % Second);
  }

  /** Euclidean division is unique: a quotient and an in-range remainder that
      rebuild `a` are `a / d` and `a % d`. */
  lemma DivModUnique(a: int, d: int, q: int, m: int)
    requires d > 0 && a == q * d + m && 0 <= m < d
    ensures a / d == q && a % d == m
  {
    var q0 := a / d;
    var m0 := a % d;
    assert a == q0 * d + m0 && 0 <= m0 < d;
    assert (q - q0) * d == m0 - m;
    if q > q0 {
      MulAtLeast(q - q0, d);
    } else if q < q0 {
      MulAtLeast(q0 - q, d);
    }
  }

  lemma MulAtLeast(x: int, d: int)
    requires x >= 1 && d > 0
    ensures x * d >= d
  {
  }

  /** `${x < 10 ? `0${x}` : x}`: numbers below 10 get a leading "0". */
  function Pad(x: int): (r: string)
    ensures x < 10 ==> |r| >= 2 && r[0] == '0' && r[1..] == IntToString(x)
    ensures x >= 10 ==> r == NatToString(x)
  {
    if x < 10 then "0" + IntToString(x) else IntToString(x)
  }

  /** A leading zero does not change the value of a digit string. */
  lemma {:induction false} ParseLeadingZero(s: string)
    requires AllDigits(s)
    ensures AllDigits("0" + s) && ParseDigits("0" + s) == ParseDigits(s)
    decreases |s|
  {
    if |s| > 0 {
      var t := s[..|s| - 1];
      ParseLeadingZero(t);
      assert ("0" + s)[..|"0" + s| - 1] == "0" + t;
    }
  }

  /** Every part in its range renders as exactly two digits that read back as the part. */
  lemma PadRoundTrip(x: int)
    requires 0 <= x < 100
    ensures |Pad(x)| == 2 && AllDigits(Pad(x)) && ParseDigits(Pad(x)) == x
  {
    ParseNatToString(x);
    if x < 10 {
      ParseLeadingZero(NatToString(x));
    }
  }

  /** A target already in the past shows a negative part, whose rendering starts
      with "0-" in the display before the first tick ends the countdown. */
  lemma PastTargetRendersNegative(time: int)
    requires -Second <= time < 0
    ensures FormatTime(time).days == -1 && Pad(FormatTime(time).days) == "0-1"
  {
    assert FloorDiv(time, Day) == -1;
    assert NatToString(1) == "1";
  }

  /** `useState(() => target - now)`. */
  function InitialRemaining(target: int, now: int): (r: int)
    ensures now + r == target
  {
    target - now
  }

  /** The interval loop over the clock readings at each tick: every tick shows
      `target - now`; the first tick at which that is at most 0 calls the end
      callback and clears the interval, so nothing after it is shown. */
  datatype Run = Run(shown: seq<int>, endedAt: Option<nat>)

  function Ticks(target: int, clock: seq<int>): (r: Run)
    ensures r.endedAt.None? <==> forall i :: 0 <= i < |clock| ==> target - clock[i] > 0
    ensures r.endedAt.Some? ==>
              var k := r.endedAt.value;
              && k < |clock| && target - clock[k] <= 0
              && (forall i :: 0 <= i < k ==> target - clock[i] > 0)
              && |r.shown| == k + 1
    ensures r.endedAt.None? ==> |r.shown| == |clock|
    ensures forall i :: 0 <= i < |r.shown| ==> r.shown[i] == target - clock[i]
    decreases |clock|
  {
    if |clock| == 0 then Run([], None)
    else if target - clock[0] <= 0 then Run([target - clock[0]], Some(0))
    else
      var rest := Ticks(target, clock[1..]);
      assert forall i :: 1 <= i < |clock| ==> clock[i] == clock[1..][i - 1];
      Run([target - clock[0]] + rest.shown, if rest.endedAt.Some? then Some(rest.endedAt.value + 1) else None)
  }
}

=== FILE: enrolment.dfy ===
/** Enrolment of one student (`POST /api/studentCreation`) and the zero-mark rows
    every enrolment creates: three rows, one per trimester, for each pair of a
    subject linked to the class and a teacher assigned to the class. */
module Enrolment {
  import opened Common
  import opened Marks
  import opened School

  /** The row for trimester `k` of one (subject, class-teacher) pair: all five
      components 0, the academic year of the assigned teacher. */
  function EnrolmentMark(db: Store, studentId: string, subjectId: string, ct: ClassTeacherRow, k: nat)
    : (m: MarkRow)
    requires k < |TrimesterLabels|
  {
    MarkRow(studentId, ct.id, subjectId, TeacherYear(db, ct.teacherId), Some(TrimesterLabels[k]), ZeroComponents)
  }

  /** The three rows of one (subject, class-teacher) pair, in trimester order. */
  function PairMarks(db: Store, studentId: string, subjectId: string, ct: ClassTeacherRow)
    : (r: seq<MarkRow>)
    ensures |r| == |TrimesterLabels|
    ensures forall k :: 0 <= k < |r| ==> r[k] == EnrolmentMark(db, studentId, subjectId, ct, k)
  {
    seq(|TrimesterLabels|, k requires 0 <= k < |TrimesterLabels| => EnrolmentMark(db, studentId, subjectId, ct, k))
  }

  /** The inner loop over class teachers, for one subject. */
  function SubjectMarks(db: Store, studentId: string, subjectId: string, cts: seq<ClassTeacherRow>)
    : (r: seq<MarkRow>)
    ensures |r| == 3 * |cts|
    ensures forall m :: m in r <==>
              exists j, k :: 0 <= j < |cts| && 0 <= k < 3 && m == EnrolmentMark(db, studentId, subjectId, cts[j], k)
    decreases |cts|
  {
    if |cts| == 0 then []
    else
      var head := PairMarks(db, studentId, subjectId, cts[0]);
      var rest := SubjectMarks(db, studentId, subjectId, cts[1..]);
      assert forall j :: 1 <= j < |cts| ==> cts[j] == cts[1..][j - 1];
      head + rest
  }

  /** The outer loop over class subjects: every row the enrolment creates. */
  function StudentMarks(db: Store, studentId: string, subjects: seq<ClassSubjectRow>, cts: seq<ClassTeacherRow>)
    : (r: seq<MarkRow>)
    ensures |r| == 3 * |subjects| * |cts|
    ensures forall m :: m in r <==>
              exists i, j, k :: 0 <= i < |subjects| && 0 <= j < |cts| && 0 <= k < 3
                                && m == EnrolmentMark(db, studentId, subjects[i].subjectId, cts[j], k)
    decreases |subjects|
  {
    if |subjects| == 0 then []
    else
      var head := SubjectMarks(db, studentId, subjects[0].subjectId, cts);
      var rest := StudentMarks(db, studentId, subjects[1..], cts);
      assert forall i :: 1 <= i < |subjects| ==> subjects[i] == subjects[1..][i - 1];
      assert |head + rest| == 3 * |cts| + 3 * (|subjects| - 1) * |cts| == 3 * |subjects| * |cts|;
      head + rest
  }

  /** The rows enrolling a student into `classId` creates, from the store's links. */
  function MarksForEnrolment(db: Store, studentId: string, classId: string): seq<MarkRow>
  {
    StudentMarks(db, studentId, ClassSubjectsOf(db, classId), ClassTeachersOf(db, classId))
  }

  /** Every enrolment row is for the enrolled student, all zero, carries one of
      the three trimester labels, and points at a teacher assigned to the class. */
  lemma EnrolmentRowsAreZero(db: Store, studentId: string, classId: string, m: MarkRow)
    requires m in MarksForEnrolment(db, studentId, classId)
    ensures m.studentId == studentId && m.components == ZeroComponents
    ensures m.trimester.Some? && m.trimester.value in TrimesterLabels
    ensures exists ct :: ct in db.classTeachers && ct.classId == classId && ct.id == m.classTeacherId
                         && m.academicYear == TeacherYear(db, ct.teacherId)
    ensures exists cs :: cs in db.classSubjects && cs.classId == classId && cs.subjectId == m.subjectId
  {
    var subjects := ClassSubjectsOf(db, classId);
    var cts := ClassTeachersOf(db, classId);
    var i, j, k :| 0 <= i < |subjects| && 0 <= j < |cts| && 0 <= k < 3
                   && m == EnrolmentMark(db, studentId, subjects[i].subjectId, cts[j], k);
    assert cts[j] in db.classTeachers && subjects[i] in db.classSubjects;
  }

  /** The request body: every field optional, as in the JSON the page posts. */
  datatype StudentRequest = StudentRequest(
    name: Option<string>,
    arabicName: Option<string>,
    dob: Option<string>,
    school: Option<string>,
    classId: Option<string>,
    nationality: Option<string>,
    iqamaNo: Option<string>,
    passportNo: Option<string>,
    expenses: JsValue,
    username: Option<string>,
    password: Option<string>)

  /** The destructuring default `expenses = 'paid'`: it replaces only an absent
      field, so an explicit `null` is stored as null and an empty string is kept. */
  function ExpensesOrPaid(e: JsValue): (r: Option<string>)
    ensures r.None? <==> e.Null?
    ensures e.Undefined? ==> r == Some("paid")
    ensures e.Str? ==> r == Some(e.value)
  {
    match e
    case Undefined => Some("paid")
    case Null => None
    case Str(v) => Some(v)
  }

  predicate HasRequiredFields(req: StudentRequest)
  {
    Truthy(req.name) && Truthy(req.dob) && Truthy(req.classId)
  }

  /** `POST /api/studentCreation` on the store; `newId` is the id the database gives
      the student. */
  function CreateStudent(db: Store, req: StudentRequest, newId: string): (r: Step<StudentRow>)
    ensures r.response.BadRequest? <==> !HasRequiredFields(req)
    ensures r.response.NotFound? <==> HasRequiredFields(req) && ClassById(db, req.classId.value).None?
    ensures !r.response.Ok? ==> r.store == db
    ensures r.response.Ok? ==>
              var s := r.response.value;
              && s.id == newId && s.name == req.name.value && s.classId == req.classId.value
              && s.dateOfBirth == req.dob && s.expenses == ExpensesOrPaid(req.expenses)
              && ClassById(db, s.classId).Some?
              && r.store.students == db.students + [s]
              && |r.store.marks| >= |db.marks| && r.store.marks[..|db.marks|] == db.marks
              && r.store.(students := db.students, marks := db.marks) == db
    ensures r.response.Ok? ==>
              var s := r.response.value;
              var created := r.store.marks[|db.marks|..];
              && |created| == 3 * |ClassSubjectsOf(db, s.classId)| * |ClassTeachersOf(db, s.classId)|
              && (forall m :: m in created ==> m.studentId == newId && m.components == ZeroComponents)
              && created == MarksForEnrolment(db, newId, req.classId.value)
  {
    if !HasRequiredFields(req) then
      Step(BadRequest("Name, date of birth, and class are required."), db)
    else if ClassById(db, req.classId.value).None? then
      Step(NotFound("Class not found."), db)
    else
      var s := StudentRow(newId, req.name.value, req.arabicName, req.dob, req.school, req.classId.value,
                          req.nationality, req.iqamaNo, req.passportNo, ExpensesOrPaid(req.expenses),
                          req.username, req.password);
      var created := MarksForEnrolment(db, newId, s.classId);
      forall m | m in created
        ensures m.studentId == newId && m.components == ZeroComponents
      {
        EnrolmentRowsAreZero(db, newId, s.classId, m);
      }
      var db' := db.(students := db.students + [s], marks := db.marks + created);
      assert db'.marks[|db.marks|..] == created;
      Step(Ok(s), db')
  }

  /** A class with two linked subjects and one assigned teacher: enrolment creates
      six rows, two subjects times one teacher times three trimesters. */
  lemma SixRowsForTwoSubjectsOneTeacher(db: Store, studentId: string, classId: string)
    requires |ClassSubjectsOf(db, classId)| == 2 && |ClassTeachersOf(db, classId)| == 1
    ensures |MarksForEnrolment(db, studentId, classId)| == 6
  {
  }
}

=== FILE: marks.dfy ===
/** The five mark components, their maxima, and the arithmetic the mark-entry
    pages share: the displayed total with missing components counted as 0, and
    single-component updates. */
module Marks {
  import opened Common

  datatype Field = Participation | Behavior | WorkingQuiz | Project | FinalExam

  const AllFields: seq<Field> := [Participation, Behavior, WorkingQuiz, Project, FinalExam]

  /** `maxValues` of the teacher mark-entry page. */
  function MaxValue(f: Field): nat
  {
    match f
    case Participation => 15
    case Behavior => 15
    case WorkingQuiz => 15
    case Project => 20
    case FinalExam => 35
  }

  /** Sum of the maxima of the listed fields. */
  function MaxOver(fs: seq<Field>): nat
    decreases |fs|
  {
    if |fs| == 0 then 0 else MaxValue(fs[0]) + MaxOver(fs[1..])
  }

  /** The five maxima add up to a total out of 100. */
  function MaxTotal(): (t: nat)
    ensures t == 100
    ensures t == MaxValue(Participation) + MaxValue(Behavior) + MaxValue(WorkingQuiz)
                 + MaxValue(Project) + MaxValue(FinalExam)
  {
    MaxOver(AllFields)
  }

  /** The component values of one mark. `None` is a component that is absent,
      `undefined` or `null`. */
  datatype Components = Components(
    participation: Option<int>,
    behavior: Option<int>,
    workingQuiz: Option<int>,
    project: Option<int>,
    finalExam: Option<int>)

  const NoComponents := Components(None, None, None, None, None)

  /** Every component stored as 0: the state of a freshly created mark row. */
  const ZeroComponents := Components(Some(0), Some(0), Some(0), Some(0), Some(0))

  function Get(c: Components, f: Field): Option<int>
  {
    match f
    case Participation => c.participation
    case Behavior => c.behavior
    case WorkingQuiz => c.workingQuiz
    case Project => c.project
    case FinalExam => c.finalExam
  }

  /** `{ ...c, [f]: v }`: the one field replaced, every other field kept. */
  function Set(c: Components, f: Field, v: Option<int>): (r: Components)
    ensures Get(r, f) == v
    ensures forall g :: g != f ==> Get(r, g) == Get(c, g)
  {
    match f
    case Participation => c.(participation := v)
    case Behavior => c.(behavior := v)
    case WorkingQuiz => c.(workingQuiz := v)
    case Project => c.(project := v)
    case FinalExam => c.(finalExam := v)
  }

  /** Two component records agree on every field exactly when they are equal. */
  lemma ComponentsExt(a: Components, b: Components)
    requires forall f :: Get(a, f) == Get(b, f)
    ensures a == b
  {
    assert Get(a, Participation) == Get(b, Participation);
    assert Get(a, Behavior) == Get(b, Behavior);
    assert Get(a, WorkingQuiz) == Get(b, WorkingQuiz);
    assert Get(a, Project) == Get(b, Project);
    assert Get(a, FinalExam) == Get(b, FinalExam);
  }

  /** JavaScript `v || 0` on a number: an absent value (and 0 itself) reads as 0. */
  function OrZero(v: Option<int>): int
  {
    if v.Some? then v.value else 0
  }

  /** Sum over the listed fields, missing components counted as 0. */
  function SumOver(c: Components, fs: seq<Field>): int
    decreases |fs|
  {
    if |fs| == 0 then 0 else OrZero(Get(c, fs[0])) + SumOver(c, fs[1..])
  }

  /** Components inside `[0, max]` for every field. */
  predicate WithinMaxima(c: Components)
  {
    forall f :: 0 <= OrZero(Get(c, f)) <= MaxValue(f)
  }

  /** The displayed total: `(c.participation || 0) + … + (c.finalExam || 0)`. */
  function Total(c: Components): (t: int)
    ensures t == OrZero(c.participation) + OrZero(c.behavior) + OrZero(c.workingQuiz)
                 + OrZero(c.project) + OrZero(c.finalExam)
  {
    SumOver(c, AllFields)
  }

  /** Components within their maxima give a total between 0 and 100. */
  lemma TotalWithinMaxTotal(c: Components)
    requires WithinMaxima(c)
    ensures 0 <= Total(c) <= MaxTotal()
  {
    assert 0 <= OrZero(Get(c, Participation)) <= MaxValue(Participation);
    assert 0 <= OrZero(Get(c, Behavior)) <= MaxValue(Behavior);
    assert 0 <= OrZero(Get(c, WorkingQuiz)) <= MaxValue(WorkingQuiz);
    assert 0 <= OrZero(Get(c, Project)) <= MaxValue(Project);
    assert 0 <= OrZero(Get(c, FinalExam)) <= MaxValue(FinalExam);
  }

  /** Changing one component moves the total by exactly the change in that component. */
  lemma TotalAfterSet(c: Components, f: Field, v: Option<int>)
    ensures Total(Set(c, f, v)) == Total(c) - OrZero(Get(c, f)) + OrZero(v)
  {
  }

  /** An absent component contributes exactly what a stored 0 does. */
  lemma MissingCountsAsZero(c: Components, f: Field)
    ensures Total(Set(c, f, None)) == Total(Set(c, f, Some(0)))
  {
    TotalAfterSet(c, f, None);
    TotalAfterSet(c, f, Some(0));
  }

  /** Setting the same value twice is the same as setting it once. */
  lemma SetIdempotent(c: Components, f: Field, v: Option<int>)
    ensures Set(Set(c, f, v), f, v) == Set(c, f, v)
  {
    ComponentsExt(Set(Set(c, f, v), f, v), Set(c, f, v));
  }

  /** The three trimester labels a newly enrolled student gets marks for, in order. */
  const TrimesterLabels: seq<string> := ["First Trimester", "Second Trimester", "Third Trimester"]
}

=== FILE: school.dfy ===
/** The relational store the route handlers read and write, as an immutable value:
    one sequence per table, in the order the database returns rows. Row ids the
    database or `randomUUID` generates for marks and reports are not modelled. */
module School {
  import opened Common
  import opened Marks

  datatype ClassRow = ClassRow(id: string, name: string)

  datatype SubjectRow = SubjectRow(id: string, name: string)

  datatype TeacherRow = TeacherRow(
    id: string,
    name: Option<string>,
    email: Option<string>,
    password: Option<string>,
    academicYear: Option<string>)

  datatype StudentRow = StudentRow(
    id: string,
    name: string,
    arabicName: Option<string>,
    dateOfBirth: Option<string>,
    school: Option<string>,
    classId: string,
    nationality: Option<string>,
    iqamaNo: Option<string>,
    passportNo: Option<string>,
    expenses: Option<string>,
    username: Option<string>,
    password: Option<string>)

  /** Join rows; each table has a unique key on its pair of ids. */
  datatype SubjectTeacherRow = SubjectTeacherRow(subjectId: string, teacherId: string)
  datatype ClassTeacherRow = ClassTeacherRow(id: string, classId: string, teacherId: string)
  datatype ClassSubjectRow = ClassSubjectRow(classId: string, subjectId: string)

  /** One mark row: a student's components for one subject under one class-teacher
      assignment, optionally tagged with an academic year and a trimester. */
  datatype MarkRow = MarkRow(
    studentId: string,
    classTeacherId: string,
    subjectId: string,
    academicYear: Option<string>,
    trimester: Option<string>,
    components: Components)

  datatype ReportRow = ReportRow(
    studentId: string,
    classId: string,
    teacherId: string,
    subjectId: string,
    academicYear: Option<string>,
    trimester: string,
    status: string,
    recommendations: seq<string>,
    comment: string)

  datatype SettingsRow = SettingsRow(id: string, targetDate: string)

  datatype Store = Store(
    classes: seq<ClassRow>,
    subjects: seq<SubjectRow>,
    teachers: seq<TeacherRow>,
    students: seq<StudentRow>,
    subjectTeachers: seq<SubjectTeacherRow>,
    classTeachers: seq<ClassTeacherRow>,
    classSubjects: seq<ClassSubjectRow>,
    marks: seq<MarkRow>,
    reports: seq<ReportRow>,
    settings: seq<SettingsRow>)

  /** A handler's reply together with the store it leaves behind. */
  datatype Step<T> = Step(response: Response<T>, store: Store)

  /** `prisma.class.findUnique({ where: { id } })`. */
  function ClassById(db: Store, id: string): Option<ClassRow>
  {
    FindFirst((c: ClassRow) => c.id == id, db.classes)
  }

  /** The academic year of the teacher a class-teacher row points at. */
  function TeacherYear(db: Store, teacherId: string): Option<string>
  {
    var t := FindFirst((t: TeacherRow) => t.id == teacherId, db.teachers);
    if t.Some? then t.value.academicYear else None
  }

  /** `prisma.classSubject.findMany({ where: { classId } })`. */
  function ClassSubjectsOf(db: Store, classId: string): (r: seq<ClassSubjectRow>)
    ensures forall i :: 0 <= i < |r| ==> r[i].classId == classId
  {
    Filter((cs: ClassSubjectRow) => cs.classId == classId, db.classSubjects)
  }

  /** `prisma.classTeacher.findMany({ where: { classId } })`. */
  function ClassTeachersOf(db: Store, classId: string): (r: seq<ClassTeacherRow>)
    ensures forall i :: 0 <= i < |r| ==> r[i].classId == classId
  {
    Filter((ct: ClassTeacherRow) => ct.classId == classId, db.classTeachers)
  }

  /** An upsert with an empty `update` on a uniquely keyed table: append the row
      unless an equal one is already there. */
  function InsertIfAbsent<T(==)>(s: seq<T>, x: T): (r: seq<T>)
    ensures x in r
    ensures forall i :: 0 <= i < |s| ==> s[i] in r
    ensures forall i :: 0 <= i < |r| ==> r[i] in s || r[i] == x
    ensures SubseqOf(s, r) && |r| <= |s| + 1
  {
    if x in s then (SubseqRefl(s); s) else (SubseqAppend(s, x); s + [x])
  }

  /** Inserting the same row twice leaves the table as inserting it once. */
  lemma InsertIfAbsentIdempotent<T>(s: seq<T>, x: T)
    ensures InsertIfAbsent(InsertIfAbsent(s, x), x) == InsertIfAbsent(s, x)
  {
  }

  /** A table without duplicates stays without duplicates. */
  lemma InsertIfAbsentKeepsDistinct<T>(s: seq<T>, x: T)
    requires forall i, j :: 0 <= i < j < |s| ==> s[i] != s[j]
    ensures var r := InsertIfAbsent(s, x); forall i, j :: 0 <= i < j < |r| ==> r[i] != r[j]
  {
  }
}

=== FILE: settings.dfy ===
/** The global settings route (`/api/settings`): a single row, under a fixed id,
    holding the target date of the mark-entry countdown. The date text is stored
    as given; its conversion to a `Date` is not modelled. */
module Settings {
  import opened Common
  import opened School

  const GlobalId: string := "global-settings"

  /** `GET`: `findFirst()` on the settings table. */
  function CurrentSettings(db: Store): (r: Option<SettingsRow>)
    ensures r.None? <==> |db.settings| == 0
    ensures r.Some? ==> r.value == db.settings[0]
  {
    if |db.settings| == 0 then None else Some(db.settings[0])
  }

  /** `POST`: 400 without a target date; otherwise every row is deleted and the one
      row with the fixed id is written. */
  function SaveSettings(db: Store, targetDate: Option<string>): (r: Step<SettingsRow>)
    ensures r.response.BadRequest? <==> !Truthy(targetDate)
    ensures !r.response.NotFound?
    ensures !r.response.Ok? ==> r.store == db
    ensures r.response.Ok? ==>
              && r.response.value == SettingsRow(GlobalId, targetDate.value)
              && r.store.settings == [r.response.value]
              && r.store.(settings := db.settings) == db
  {
    if !Truthy(targetDate) then Step(BadRequest("Target date is required."), db)
    else
      var row := SettingsRow(GlobalId, targetDate.value);
      Step(Ok(row), db.(settings := [row]))
  }

  /** After a successful save, reading the settings gives the saved date, whatever
      the table held before. */
  lemma SaveThenRead(db: Store, targetDate: Option<string>)
    requires Truthy(targetDate)
    ensures CurrentSettings(SaveSettings(db, targetDate).store) == Some(SettingsRow(GlobalId, targetDate.value))
  {
  }

  /** Saving twice in a row with the same date leaves the store as saving once;
      saving with another date leaves only the later date. */
  lemma SaveIdempotent(db: Store, d1: Option<string>, d2: Option<string>)
    requires Truthy(d1) && Truthy(d2)
    ensures var once := SaveSettings(db, d2).store;
            SaveSettings(SaveSettings(db, d1).store, d2).store == once
  {
  }
}

=== FILE: student_reports.dfy ===
/** Student reports: saving one report (`POST /api/saveStudentReport`), with its
    lookups by name and its duplicate guard on (student, subject, teacher,
    trimester), and the per-student report status the progress route derives
    (`GET /api/studentsProgress`). */
module StudentReports {
  import opened Common
  import opened Marks
  import opened School

  function StudentById(db: Store, id: string): Option<StudentRow>
  {
    FindFirst((s: StudentRow) => s.id == id, db.students)
  }

  function TeacherById(db: Store, id: string): Option<TeacherRow>
  {
    FindFirst((t: TeacherRow) => t.id == id, db.teachers)
  }

  function SubjectById(db: Store, id: string): Option<SubjectRow>
  {
    FindFirst((s: SubjectRow) => s.id == id, db.subjects)
  }

  /** `prisma.teacher.findFirst({ where: { name } })`. */
  function TeacherByName(db: Store, name: string): Option<TeacherRow>
  {
    FindFirst((t: TeacherRow) => t.name == Some(name), db.teachers)
  }

  function ClassByName(db: Store, name: string): Option<ClassRow>
  {
    FindFirst((c: ClassRow) => c.name == name, db.classes)
  }

  function SubjectByName(db: Store, name: string): Option<SubjectRow>
  {
    FindFirst((s: SubjectRow) => s.name == name, db.subjects)
  }

  /** The `report` object of the request body. `quizMark` and `projectMark` are
      read from it but never stored. */
  datatype ReportBody = ReportBody(
    presentStatus: Option<string>,
    recommendations: Option<seq<string>>,
    comment: Option<string>,
    quizMark: Option<string>,
    projectMark: Option<string>)

  datatype SaveRequest = SaveRequest(
    studentId: Option<string>,
    report: Option<ReportBody>,
    className: Option<string>,
    subject: Option<string>,
    trimester: Option<string>,
    teacherName: Option<string>)

  predicate HasAllFields(req: SaveRequest)
  {
    && Truthy(req.studentId) && req.report.Some? && Truthy(req.className)
    && Truthy(req.subject) && Truthy(req.trimester) && Truthy(req.teacherName)
  }

  /** The four lookups succeed. */
  predicate AllFound(db: Store, req: SaveRequest)
    requires HasAllFields(req)
  {
    && StudentById(db, req.studentId.value).Some?
    && TeacherByName(db, req.teacherName.value).Some?
    && ClassByName(db, req.className.value).Some?
    && SubjectByName(db, req.subject.value).Some?
  }

  /** The key a report is unique on. */
  predicate SameKey(r: ReportRow, studentId: string, subjectId: string, teacherId: string, trimester: string)
  {
    r.studentId == studentId && r.subjectId == subjectId && r.teacherId == teacherId && r.trimester == trimester
  }

  predicate KeyTaken(reports: seq<ReportRow>, studentId: string, subjectId: string, teacherId: string, trimester: string)
  {
    exists i :: 0 <= i < |reports| && SameKey(reports[i], studentId, subjectId, teacherId, trimester)
  }

  /** A report already exists for the request's key. */
  predicate Duplicate(db: Store, req: SaveRequest)
    requires HasAllFields(req) && AllFound(db, req)
  {
    KeyTaken(db.reports, req.studentId.value, SubjectByName(db, req.subject.value).value.id,
             TeacherByName(db, req.teacherName.value).value.id, req.trimester.value)
  }

  /** `presentStatus || 'Not Started'`. */
  function StatusOrDefault(s: Option<string>): (r: string)
    ensures Truthy(s) ==> r == s.value
    ensures !Truthy(s) ==> r == "Not Started"
  {
    if Truthy(s) then s.value else "Not Started"
  }

  /** `POST /api/saveStudentReport` on the store. */
  function SaveReport(db: Store, req: SaveRequest): (r: Step<ReportRow>)
    ensures r.response.BadRequest? <==> !HasAllFields(req) || (AllFound(db, req) && Duplicate(db, req))
    ensures r.response.NotFound? <==> HasAllFields(req) && !AllFound(db, req)
    ensures r.response.NotFound? && StudentById(db, req.studentId.value).None? ==>
              r.response.message == "Student not found."
    ensures !r.response.Ok? ==> r.store == db
    ensures r.response.Ok? ==>
              var rep := r.response.value;
              var teacher := TeacherByName(db, req.teacherName.value).value;
              var body := req.report.value;
              && rep.studentId == req.studentId.value && rep.trimester == req.trimester.value
              && rep.teacherId == teacher.id && teacher.name == req.teacherName
              && rep.academicYear == teacher.academicYear
              && rep.classId == ClassByName(db, req.className.value).value.id
              && rep.subjectId == SubjectByName(db, req.subject.value).value.id
              && rep.status == StatusOrDefault(body.presentStatus)
              && rep.recommendations == (if body.recommendations.Some? then body.recommendations.value else [])
              && rep.comment == OrElse(body.comment, "")
              && !KeyTaken(db.reports, rep.studentId, rep.subjectId, rep.teacherId, rep.trimester)
              && r.store == db.(reports := db.reports + [rep])
  {
    if !HasAllFields(req) then Step(BadRequest("Missing required fields."), db)
    else if StudentById(db, req.studentId.value).None? then Step(NotFound("Student not found."), db)
    else if TeacherByName(db, req.teacherName.value).None? then Step(NotFound("Teacher not found."), db)
    else if ClassByName(db, req.className.value).None? then Step(NotFound("Class not found."), db)
    else if SubjectByName(db, req.subject.value).None? then Step(NotFound("Subject not found."), db)
    else if Duplicate(db, req) then
      Step(BadRequest("Report already exists for this student, subject, teacher, and trimester."), db)
    else
      var teacher := TeacherByName(db, req.teacherName.value).value;
      var body := req.report.value;
      var rep := ReportRow(
        req.studentId.value, ClassByName(db, req.className.value).value.id, teacher.id,
        SubjectByName(db, req.subject.value).value.id, teacher.academicYear, req.trimester.value,
        StatusOrDefault(body.presentStatus),
        if body.recommendations.Some? then body.recommendations.value else [],
        OrElse(body.comment, ""));
      Step(Ok(rep), db.(reports := db.reports + [rep]))
  }

  /** The quiz and project marks sent with a report change nothing: the answer
      and the store are those of the same request without them. */
  lemma QuizAndProjectNotStored(db: Store, req: SaveRequest, quiz: Option<string>, project: Option<string>)
    requires req.report.Some?
    ensures var other := req.(report := Some(req.report.value.(quizMark := quiz, projectMark := project)));
            SaveReport(db, other) == SaveReport(db, req)
  {
  }

  /** Number of reports with the given key. */
  function KeyCount(reports: seq<ReportRow>, studentId: string, subjectId: string, teacherId: string, trimester: string): nat
  {
    CountIf((r: ReportRow) => SameKey(r, studentId, subjectId, teacherId, trimester), reports)
  }

  lemma {:induction false} KeyCountZero(reports: seq<ReportRow>, studentId: string, subjectId: string, teacherId: string, trimester: string)
    ensures KeyCount(reports, studentId, subjectId, teacherId, trimester) == 0
            <==> !KeyTaken(reports, studentId, subjectId, teacherId, trimester)
    decreases |reports|
  {
    if |reports| > 0 {
      KeyCountZero(reports[1..], studentId, subjectId, teacherId, trimester);
      assert forall i :: 1 <= i < |reports| ==> reports[i] == reports[1..][i - 1];
      if KeyTaken(reports[1..], studentId, subjectId, teacherId, trimester) {
        var i :| 0 <= i < |reports[1..]| && SameKey(reports[1..][i], studentId, subjectId, teacherId, trimester);
        assert SameKey(reports[i + 1], studentId, subjectId, teacherId, trimester);
      }
    }
  }

  lemma {:induction false} KeyCountAppend(reports: seq<ReportRow>, x: ReportRow, studentId: string, subjectId: string, teacherId: string, trimester: string)
    ensures KeyCount(reports + [x], studentId, subjectId, teacherId, trimester)
            == KeyCount(reports, studentId, subjectId, teacherId, trimester)
               + (if SameKey(x, studentId, subjectId, teacherId, trimester) then 1 else 0)
    decreases |reports|
  {
    if |reports| == 0 {
      assert reports + [x] == [x];
      assert [x][1..] == [];
    } else {
      assert (reports + [x])[1..] == reports[1..] + [x];
      KeyCountAppend(reports[1..], x, studentId, subjectId, teacherId, trimester);
    }
  }

  /** After a successful save there is exactly one report for its key. */
  lemma SavedReportIsUnique(db: Store, req: SaveRequest)
    requires SaveReport(db, req).response.Ok?
    ensures var step := SaveReport(db, req);
            var rep := step.response.value;
            KeyCount(step.store.reports, rep.studentId, rep.subjectId, rep.teacherId, rep.trimester) == 1
  {
    var step := SaveReport(db, req);
    var rep := step.response.value;
    KeyCountZero(db.reports, rep.studentId, rep.subjectId, rep.teacherId, rep.trimester);
    KeyCountAppend(db.reports, rep, rep.studentId, rep.subjectId, rep.teacherId, rep.trimester);
  }

  /** Saving the same request again is refused with 400 and changes nothing. */
  lemma SaveTwiceRejected(db: Store, req: SaveRequest)
    requires SaveReport(db, req).response.Ok?
    ensures var after := SaveReport(db, req).store;
            var again := SaveReport(after, req);
            again.response.BadRequest? && again.store == after
  {
    var step := SaveReport(db, req);
    var after := step.store;
    var rep := step.response.value;
    assert after.reports[|db.reports|] == rep;
    assert AllFound(after, req);
    assert Duplicate(after, req);
  }

  /** A store whose tables have distinct ids, as their primary keys guarantee. */
  predicate DistinctIds(db: Store)
  {
    && (forall i, j :: 0 <= i < j < |db.teachers| ==> db.teachers[i].id != db.teachers[j].id)
    && (forall i, j :: 0 <= i < j < |db.subjects| ==> db.subjects[i].id != db.subjects[j].id)
    && (forall i, j :: 0 <= i < j < |db.classes| ==> db.classes[i].id != db.classes[j].id)
  }

  /** One entry of the progress route: a student of the class, the reports matching
      the teacher, subject and trimester, and the derived status. */
  datatype StudentStatus = StudentStatus(student: StudentRow, reports: seq<ReportRow>, reportStatus: string)

  /** The relation filter on reports: `teacher.name`, `subject.name` and `trimester`. */
  predicate ReportMatches(db: Store, r: ReportRow, teacherName: string, subject: string, trimester: string)
  {
    && r.trimester == trimester
    && TeacherById(db, r.teacherId).Some? && TeacherById(db, r.teacherId).value.name == Some(teacherName)
    && SubjectById(db, r.subjectId).Some? && SubjectById(db, r.subjectId).value.name == subject
  }

  /** The student filter: in a class with that name, and with some mark for the
      subject (by name) in the trimester. */
  predicate Listed(db: Store, s: StudentRow, className: string, subject: string, trimester: string)
  {
    && ClassById(db, s.classId).Some? && ClassById(db, s.classId).value.name == className
    && exists m :: m in db.marks && m.studentId == s.id && m.trimester == Some(trimester)
                   && SubjectById(db, m.subjectId).Some? && SubjectById(db, m.subjectId).value.name == subject
  }

  function StatusOf(db: Store, s: StudentRow, subject: string, trimester: string, teacherName: string)
    : (r: StudentStatus)
    ensures r.student == s
    ensures forall x :: x in r.reports <==>
              (x in db.reports && x.studentId == s.id && ReportMatches(db, x, teacherName, subject, trimester))
    ensures r.reportStatus == "Done" <==> |r.reports| > 0
    ensures r.reportStatus == "Done" || r.reportStatus == "Not Yet"
  {
    var reports := Filter((x: ReportRow) => x.studentId == s.id && ReportMatches(db, x, teacherName, subject, trimester),
                          db.reports);
    StudentStatus(s, reports, if |reports| > 0 then "Done" else "Not Yet")
  }

  /** `GET /api/studentsProgress?className&subject&trimester&teacherName`. */
  function StudentsProgress(
    db: Store, className: Option<string>, subject: Option<string>,
    trimester: Option<string>, teacherName: Option<string>)
    : (r: Response<seq<StudentStatus>>)
    ensures r.BadRequest? <==> !(Truthy(className) && Truthy(subject) && Truthy(trimester) && Truthy(teacherName))
    ensures !r.NotFound?
    ensures r.Ok? ==>
              var listed := Filter((s: StudentRow) => Listed(db, s, className.value, subject.value, trimester.value),
                                   db.students);
              && |r.value| == |listed|
              && forall i :: 0 <= i < |listed| ==>
                   r.value[i] == StatusOf(db, listed[i], subject.value, trimester.value, teacherName.value)
  {
    if !(Truthy(className) && Truthy(subject) && Truthy(trimester) && Truthy(teacherName)) then
      BadRequest("Missing required query parameters")
    else
      var listed := Filter((s: StudentRow) => Listed(db, s, className.value, subject.value, trimester.value),
                           db.students);
      Ok(Map((s: StudentRow) => StatusOf(db, s, subject.value, trimester.value, teacherName.value), listed))
  }

  /** With distinct ids, looking a row up by its own id finds it. */
  lemma TeacherByOwnId(db: Store, t: TeacherRow)
    requires DistinctIds(db) && t in db.teachers
    ensures TeacherById(db, t.id) == Some(t)
  {
    var r := TeacherById(db, t.id);
    var i :| 0 <= i < |db.teachers| && db.teachers[i] == t;
    var j :| 0 <= j < |db.teachers| && db.teachers[j] == r.value && db.teachers[j].id == t.id
             && forall k :: 0 <= k < j ==> db.teachers[k].id != t.id;
    assert db.teachers[j].id == db.teachers[i].id;
    assert j == i;
  }

  lemma SubjectByOwnId(db: Store, s: SubjectRow)
    requires DistinctIds(db) && s in db.subjects
    ensures SubjectById(db, s.id) == Some(s)
  {
    var r := SubjectById(db, s.id);
    var i :| 0 <= i < |db.subjects| && db.subjects[i] == s;
    var j :| 0 <= j < |db.subjects| && db.subjects[j] == r.value && db.subjects[j].id == s.id
             && forall k :: 0 <= k < j ==> db.subjects[k].id != s.id;
    assert db.subjects[j].id == db.subjects[i].id;
    assert j == i;
  }

  /** After a report is saved for a student whom the progress route lists for the
      request's class, subject and trimester, the route's answer for the same four
      names includes that student with status "Done". */
  lemma SavedReportShowsDone(db: Store, req: SaveRequest, s: StudentRow)
    requires DistinctIds(db)
    requires SaveReport(db, req).response.Ok?
    requires s.id == req.studentId.value
    ensures var after := SaveReport(db, req).store;
            StatusOf(after, s, req.subject.value, req.trimester.value, req.teacherName.value).reportStatus == "Done"
    ensures s in db.students && Listed(db, s, req.className.value, req.subject.value, req.trimester.value) ==>
              var after := SaveReport(db, req).store;
              var r := StudentsProgress(after, req.className, req.subject, req.trimester, req.teacherName);
              && r.Ok?
              && StatusOf(after, s, req.subject.value, req.trimester.value, req.teacherName.value) in r.value
  {
    SavedReportStatusDone(db, req, s);
    if s in db.students && Listed(db, s, req.className.value, req.subject.value, req.trimester.value) {
      var after := SaveReport(db, req).store;
      assert after.students == db.students && after.classes == db.classes
          && after.marks == db.marks && after.subjects == db.subjects;
      assert Listed(after, s, req.className.value, req.subject.value, req.trimester.value);
      ListedStudentReported(after, req.className, req.subject, req.trimester, req.teacherName, s);
    }
  }

  /** The saved report makes its student's status "Done" for the request's names. */
  lemma SavedReportStatusDone(db: Store, req: SaveRequest, s: StudentRow)
    requires DistinctIds(db)
    requires SaveReport(db, req).response.Ok?
    requires s.id == req.studentId.value
    ensures var after := SaveReport(db, req).store;
            StatusOf(after, s, req.subject.value, req.trimester.value, req.teacherName.value).reportStatus == "Done"
  {
    var step := SaveReport(db, req);
    var after := step.store;
    var rep := step.response.value;
    var teacher := TeacherByName(db, req.teacherName.value).value;
    var subject := SubjectByName(db, req.subject.value).value;
    TeacherByOwnId(db, teacher);
    SubjectByOwnId(db, subject);
    assert after.teachers == db.teachers && after.subjects == db.subjects;
    assert TeacherById(after, rep.teacherId) == Some(teacher);
    assert SubjectById(after, rep.subjectId) == Some(subject);
    assert rep in after.reports;
    assert ReportMatches(after, rep, req.teacherName.value, req.subject.value, req.trimester.value);
  }

  /** A student the route lists appears in its answer with its own status. */
  lemma ListedStudentReported(
    db: Store, className: Option<string>, subject: Option<string>,
    trimester: Option<string>, teacherName: Option<string>, s: StudentRow)
    requires Truthy(className) && Truthy(subject) && Truthy(trimester) && Truthy(teacherName)
    requires s in db.students && Listed(db, s, className.value, subject.value, trimester.value)
    ensures var r := StudentsProgress(db, className, subject, trimester, teacherName);
            r.Ok? && StatusOf(db, s, subject.value, trimester.value, teacherName.value) in r.value
  {
    var r := StudentsProgress(db, className, subject, trimester, teacherName);
    var listed := Filter((x: StudentRow) => Listed(db, x, className.value, subject.value, trimester.value),
                         db.students);
    var k :| 0 <= k < |listed| && listed[k] == s;
    assert r.value[k] == StatusOf(db, s, subject.value, trimester.value, teacherName.value);
  }
}

=== FILE: students_manage.dfy ===
/** The student-management page: the list of all students, the name and class
    filter over it, the edit form filled from a chosen student, and saving the
    form, which moves the student's marks when the class changed, updates the
    student and merges the form into the full list. Server responses are
    parameters. */
module StudentsManage {
  import opened Common
  import opened Text

  /** A student as the page holds it; the optional fields may be null. */
  datatype PageStudent = PageStudent(
    id: string,
    name: string,
    arabicName: Option<string>,
    classId: string,
    nationality: Option<string>,
    dateOfBirth: Option<string>,
    iqamaNo: Option<string>,
    passportNo: Option<string>,
    expenses: Option<string>)

  /** The edit form: every field a string. */
  datatype Form = Form(
    name: string,
    arabicName: string,
    classId: string,
    nationality: string,
    dateOfBirth: string,
    iqamaNo: string,
    passportNo: string,
    expenses: string)

  /** The form before any student is chosen. */
  const BlankForm := Form("", "", "", "", "", "", "", "paid")

  datatype FilterState = FilterState(name: string, classId: string)

  datatype FilterField = NameField | ClassField

  /** The page state: the full list, the list shown, the filter, the chosen
      student, the form and whether the form is open. */
  datatype Page = Page(
    students: seq<PageStudent>,
    shown: seq<PageStudent>,
    filter: FilterState,
    selected: Option<PageStudent>,
    form: Form,
    formOpen: bool)

  /** The page right after the student list arrives: everything shown. */
  function Loaded(data: seq<PageStudent>): (p: Page)
    ensures p.students == data && p.shown == data
    ensures p.filter == FilterState("", "") && p.selected.None? && p.form == BlankForm && !p.formOpen
  {
    Page(data, data, FilterState("", ""), None, BlankForm, false)
  }

  /** A student passes the filter when its name contains the name filter, ignoring
      case, and the class filter is empty or is its class. */
  predicate Matches(f: FilterState, s: PageStudent)
  {
    ContainsIgnoringCase(s.name, f.name) && (f.classId == "" || s.classId == f.classId)
  }

  /** The filter as a test on one student. */
  function Passes(f: FilterState): PageStudent -> bool
  {
    s => Matches(f, s)
  }

  /** `handleFilterChange`: the changed field is stored; clearing the name shows
      every student, otherwise the students passing the new filter are shown. */
  function FilterChange(page: Page, field: FilterField, value: string): (r: Page)
    ensures r.filter == (if field == NameField then page.filter.(name := value) else page.filter.(classId := value))
    ensures field == NameField && value == "" ==> r.shown == page.students
    ensures !(field == NameField && value == "") ==>
              && (forall i :: 0 <= i < |r.shown| ==> r.shown[i] in page.students && Matches(r.filter, r.shown[i]))
              && (forall i :: 0 <= i < |page.students| && Matches(r.filter, page.students[i]) ==> page.students[i] in r.shown)
    ensures r.(shown := page.shown, filter := page.filter) == page
  {
    var nf := if field == NameField then page.filter.(name := value) else page.filter.(classId := value);
    if field == NameField && value == "" then page.(filter := nf, shown := page.students)
    else page.(filter := nf, shown := Filter(Passes(nf), page.students))
  }

  /** Whatever the filter, the shown list keeps the full list's order and omits
      only students. */
  lemma ShownIsSubsequence(page: Page, field: FilterField, value: string)
    ensures SubseqOf(FilterChange(page, field, value).shown, page.students)
  {
    if field == NameField && value == "" {
      SubseqRefl(page.students);
    } else {
      var nf := FilterChange(page, field, value).filter;
      FilterIsSubseq(Passes(nf), page.students);
    }
  }

  /** Clearing the name shows every student even while a class is chosen: the
      class filter is not applied until the next change. */
  lemma ClearingNameIgnoresClass(page: Page)
    requires page.filter.classId != ""
    requires exists i :: 0 <= i < |page.students| && page.students[i].classId != page.filter.classId
    ensures var r := FilterChange(page, NameField, "");
            r.filter.classId == page.filter.classId
            && exists s :: s in r.shown && !Matches(r.filter, s)
  {
    var i :| 0 <= i < |page.students| && page.students[i].classId != page.filter.classId;
    assert page.students[i] in FilterChange(page, NameField, "").shown;
  }

  /** With an empty name and no class chosen, choosing the empty class shows
      every student. */
  lemma EmptyFilterShowsAll(page: Page)
    requires page.filter.name == ""
    ensures FilterChange(page, ClassField, "").shown == page.students
  {
    var nf := FilterState("", "");
    forall i | 0 <= i < |page.students|
      ensures Passes(nf)(page.students[i])
    {
      assert StartsWith(Lower(page.students[i].name), Lower(""));
    }
    FilterKeepsAll(Passes(nf), page.students);
  }

  /** `dateOfBirth.split("T")[0]`: the text before the first "T". */
  function DatePart(s: string): (r: string)
    ensures |r| <= |s| && r == s[..|r|]
    ensures 'T' !in r
    ensures |r| < |s| ==> s[|r|] == 'T'
    decreases |s|
  {
    if |s| == 0 then ""
    else if s[0] == 'T' then ""
    else
      var rest := DatePart(s[1..]);
      [s[0]] + rest
  }

  /** A date without a time part is kept whole. */
  lemma DatePartOfDate(s: string)
    requires 'T' !in s
    ensures DatePart(s) == s
  {
  }

  /** `handleSettingsClick`: the form filled from the student, a null field shown
      as empty, the date cut to its day and missing expenses shown as "paid". */
  function FormFor(s: PageStudent): (f: Form)
    ensures f.name == s.name && f.classId == s.classId
    ensures f.arabicName == OrElse(s.arabicName, "") && f.nationality == OrElse(s.nationality, "")
    ensures f.iqamaNo == OrElse(s.iqamaNo, "") && f.passportNo == OrElse(s.passportNo, "")
    ensures f.expenses == OrElse(s.expenses, "paid")
    ensures Truthy(s.dateOfBirth) ==> f.dateOfBirth == DatePart(s.dateOfBirth.value)
    ensures !Truthy(s.dateOfBirth) ==> f.dateOfBirth == ""
  {
    Form(s.name, OrElse(s.arabicName, ""), s.classId, OrElse(s.nationality, ""),
         if Truthy(s.dateOfBirth) then DatePart(s.dateOfBirth.value) else "",
         OrElse(s.iqamaNo, ""), OrElse(s.passportNo, ""), OrElse(s.expenses, "paid"))
  }

  function SettingsClick(page: Page, s: PageStudent): (r: Page)
    ensures r.selected == Some(s) && r.form == FormFor(s) && r.formOpen
    ensures r.students == page.students && r.shown == page.shown && r.filter == page.filter
  {
    page.(selected := Some(s), form := FormFor(s), formOpen := true)
  }

  /** `{ ...student, ...formData }`: every form field written over the student. */
  function Merge(s: PageStudent, f: Form): (r: PageStudent)
    ensures r.id == s.id && r.name == f.name && r.classId == f.classId
    ensures r.arabicName == Some(f.arabicName) && r.nationality == Some(f.nationality)
    ensures r.dateOfBirth == Some(f.dateOfBirth) && r.iqamaNo == Some(f.iqamaNo)
    ensures r.passportNo == Some(f.passportNo) && r.expenses == Some(f.expenses)
  {
    PageStudent(s.id, f.name, Some(f.arabicName), f.classId, Some(f.nationality), Some(f.dateOfBirth),
                Some(f.iqamaNo), Some(f.passportNo), Some(f.expenses))
  }

  /** Opening a student whose fields are all filled, with a date without a time
      part, and saving the form untouched gives back the same student. */
  lemma FormRoundTrip(s: PageStudent)
    requires Truthy(s.arabicName) && Truthy(s.nationality) && Truthy(s.iqamaNo)
    requires Truthy(s.passportNo) && Truthy(s.expenses)
    requires Truthy(s.dateOfBirth) && 'T' !in s.dateOfBirth.value
    ensures Merge(s, FormFor(s)) == s
  {
    DatePartOfDate(s.dateOfBirth.value);
  }

  /** The requests `handleSave` sends. */
  datatype Request =
    | MigrateMarks(studentId: string, oldClassId: string, newClassId: string)
    | UpdateStudent(studentId: string, form: Form)

  datatype Saved = Saved(requests: seq<Request>, page: Page)

  /** `handleSave`: nothing without a chosen student; otherwise a mark migration
      when the class changed, then the update; when the update succeeds the form
      closes and the chosen student is merged into the full list. The shown list
      is not refreshed. */
  function HandleSave(page: Page, updateOk: bool): (r: Saved)
    ensures page.selected.None? ==> r.requests == [] && r.page == page
    ensures page.selected.Some? ==>
              var s := page.selected.value;
              && |r.requests| == (if page.form.classId != s.classId then 2 else 1)
              && r.requests[|r.requests| - 1] == UpdateStudent(s.id, page.form)
              && (page.form.classId != s.classId ==> r.requests[0] == MigrateMarks(s.id, s.classId, page.form.classId))
    ensures r.page.shown == page.shown && r.page.filter == page.filter
    ensures !updateOk ==> r.page == page
    ensures updateOk && page.selected.Some? ==>
              && !r.page.formOpen
              && |r.page.students| == |page.students|
              && forall i :: 0 <= i < |page.students| ==>
                   r.page.students[i] == (if page.students[i].id == page.selected.value.id
                                          then Merge(page.students[i], page.form) else page.students[i])
  {
    if page.selected.None? then Saved([], page)
    else
      var s := page.selected.value;
      var migrate := if page.form.classId != s.classId then [MigrateMarks(s.id, s.classId, page.form.classId)] else [];
      var requests := migrate + [UpdateStudent(s.id, page.form)];
      if !updateOk then Saved(requests, page)
      else
        var merged := Map((t: PageStudent) => if t.id == s.id then Merge(t, page.form) else t, page.students);
        Saved(requests, page.(students := merged, formOpen := false))
  }

  /** After a successful save the shown row still holds the old values: on a page
      showing one student, renaming it leaves the shown name as it was. */
  lemma ShownRowIsStale(s: PageStudent, newName: string)
    requires newName != s.name
    ensures var page := SettingsClick(Loaded([s]), s);
            var saved := HandleSave(page.(form := page.form.(name := newName)), true).page;
            saved.students[0].name == newName && saved.shown[0].name == s.name
  {
  }
}

=== FILE: students_progress_page.dfy ===
/** The per-class report page: the students of a class fetched from the progress
    route, the report form opened for one student, saving it, marking that
    student's row done, and the recommendation check boxes. The page's query
    parameters and the server's answer are inputs. */
module StudentsProgressPage {
  import opened Common
  import opened School
  import opened StudentReports

  /** The query parameters the page reads; each may be missing. */
  datatype Params = Params(
    className: Option<string>,
    teacherName: Option<string>,
    trimester: Option<string>,
    subject: Option<string>)

  /** The fetch guard: class, subject and trimester present and not empty. The
      teacher's name is not checked. */
  predicate ShouldFetch(p: Params)
  {
    Truthy(p.className) && Truthy(p.subject) && Truthy(p.trimester)
  }

  /** A parameter spliced into the query string: a missing one is rendered as
      the text "null". */
  function QueryValue(o: Option<string>): (r: string)
    ensures o.Some? ==> r == o.value
    ensures o.None? ==> r == "null"
  {
    if o.Some? then o.value else "null"
  }

  /** Once the guard passes, the route answers 400 only for a teacher name given
      but empty: a missing name reaches it as the teacher name "null". */
  lemma FetchRejectedOnlyForEmptyTeacher(db: Store, p: Params)
    requires ShouldFetch(p)
    ensures var r := StudentsProgress(db, Some(QueryValue(p.className)), Some(QueryValue(p.subject)),
                                      Some(QueryValue(p.trimester)), Some(QueryValue(p.teacherName)));
            r.BadRequest? <==> p.teacherName == Some("")
  {
  }

  /** The report form; every field is text except the recommendation list. */
  datatype ReportForm = ReportForm(
    presentStatus: string,
    recommendations: seq<string>,
    comment: string,
    quizMark: string,
    projectMark: string)

  const BlankReport := ReportForm("", [], "", "", "")

  /** A listed student; `reportStatus` is absent until the route or a save sets it. */
  datatype ProgressRow = ProgressRow(id: string, name: string, reportStatus: Option<string>)

  datatype ReportPage = ReportPage(students: seq<ProgressRow>, selected: Option<ProgressRow>, form: ReportForm)

  /** `handleAddReport`: the student chosen and the form emptied. */
  function AddReport(page: ReportPage, s: ProgressRow): (r: ReportPage)
    ensures r.selected == Some(s) && r.form == BlankReport && r.students == page.students
  {
    page.(selected := Some(s), form := BlankReport)
  }

  /** The body `handleSaveReport` posts. */
  function RequestFor(p: Params, s: ProgressRow, f: ReportForm): (req: SaveRequest)
    ensures req.studentId == Some(s.id)
    ensures req.report == Some(ReportBody(Some(f.presentStatus), Some(f.recommendations), Some(f.comment),
                                          Some(f.quizMark), Some(f.projectMark)))
    ensures req.className == p.className && req.subject == p.subject
    ensures req.trimester == p.trimester && req.teacherName == p.teacherName
  {
    SaveRequest(Some(s.id),
                Some(ReportBody(Some(f.presentStatus), Some(f.recommendations), Some(f.comment),
                                Some(f.quizMark), Some(f.projectMark))),
                p.className, p.subject, p.trimester, p.teacherName)
  }

  datatype SaveOutcome = SaveOutcome(request: Option<SaveRequest>, page: ReportPage)

  /** `handleSaveReport`: nothing without a chosen student; otherwise the request
      is sent, and on an OK answer the chosen student's row is marked done and the
      choice cleared. */
  function SaveReportLocal(p: Params, page: ReportPage, ok: bool): (r: SaveOutcome)
    ensures page.selected.None? ==> r.request.None? && r.page == page
    ensures page.selected.Some? ==> r.request == Some(RequestFor(p, page.selected.value, page.form))
    ensures !ok ==> r.page == page
    ensures ok && page.selected.Some? ==>
              && r.page.selected.None?
              && |r.page.students| == |page.students|
              && forall i :: 0 <= i < |page.students| ==>
                   if page.students[i].id == page.selected.value.id
                   then r.page.students[i] == page.students[i].(reportStatus := Some("Done"))
                   else r.page.students[i] == page.students[i]
  {
    if page.selected.None? then SaveOutcome(None, page)
    else
      var s := page.selected.value;
      var req := RequestFor(p, s, page.form);
      if !ok then SaveOutcome(Some(req), page)
      else
        var marked := Map((t: ProgressRow) => if t.id == s.id then t.(reportStatus := Some("Done")) else t, page.students);
        SaveOutcome(Some(req), page.(students := marked, selected := None))
  }

  /** Saving the form as opened stores the route's defaults: status "Not
      Started", no recommendations, an empty comment. */
  lemma BlankFormStoresDefaults(db: Store, p: Params, page: ReportPage, s: ProgressRow)
    ensures var req := SaveReportLocal(p, AddReport(page, s), true).request.value;
            var r := SaveReport(db, req);
            r.response.Ok? ==>
              && r.response.value.status == "Not Started"
              && r.response.value.recommendations == []
              && r.response.value.comment == ""
  {
  }

  /** A recommendation check box: checking appends the item, unchecking removes
      every copy of it. */
  function Toggle(recs: seq<string>, rec: string, checked: bool): (r: seq<string>)
    ensures checked ==> r == recs + [rec]
    ensures !checked ==> rec !in r
    ensures !checked ==> forall i :: 0 <= i < |recs| && recs[i] != rec ==> recs[i] in r
    ensures !checked ==> forall x :: x in r ==> x in recs
  {
    if checked then recs + [rec] else Filter((x: string) => x != rec, recs)
  }

  /** Unchecking keeps the other items in their order. */
  lemma UncheckKeepsOrder(recs: seq<string>, rec: string)
    ensures SubseqOf(Toggle(recs, rec, false), recs)
  {
    FilterIsSubseq((x: string) => x != rec, recs);
  }

  /** Checking and then unchecking an item that was not in the list gives the list
      back. */
  lemma CheckThenUncheck(recs: seq<string>, rec: string)
    requires rec !in recs
    ensures Toggle(Toggle(recs, rec, true), rec, false) == recs
  {
    var p := (x: string) => x != rec;
    FilterAppendOne(p, recs, rec);
    FilterKeepsAll(p, recs);
  }

  /** Filtering a list with one more element at the end. */
  lemma {:induction false} FilterAppendOne<T>(p: T -> bool, s: seq<T>, x: T)
    ensures Filter(p, s + [x]) == Filter(p, s) + (if p(x) then [x] else [])
    decreases |s|
  {
    if |s| == 0 {
      assert s + [x] == [x];
      assert [x][1..] == [];
    } else {
      assert (s + [x])[1..] == s[1..] + [x];
      FilterAppendOne(p, s[1..], x);
    }
  }
}

=== FILE: students_report_page.dfy ===
/** The student-report list page: all reports, filtered by student name and class
    each time a filter field changes, and the link to one student's report. */
module StudentsReportPage {
  import opened Common
  import opened Text

  /** One listed report: the student's name (possibly missing) and class. */
  datatype ListedReport = ListedReport(studentId: string, name: Option<string>, classId: string)

  datatype ReportFilter = ReportFilter(name: string, classId: string)

  datatype FilterField = NameField | ClassField

  datatype ListPage = ListPage(reports: seq<ListedReport>, shown: seq<ListedReport>, filter: ReportFilter)

  /** The page once the reports arrive: everything shown, no filter. */
  function LoadedList(data: seq<ListedReport>): (p: ListPage)
    ensures p.reports == data && p.shown == data && p.filter == ReportFilter("", "")
  {
    ListPage(data, data, ReportFilter("", ""))
  }

  /** An empty name filter lets every report through, otherwise the report needs
      a name containing it ignoring case; likewise an empty class filter, otherwise
      the report's class must be the chosen one. */
  predicate ReportMatches(f: ReportFilter, r: ListedReport)
  {
    (f.name == "" || (Truthy(r.name) && ContainsIgnoringCase(r.name.value, f.name)))
    && (f.classId == "" || r.classId == f.classId)
  }

  function PassesReport(f: ReportFilter): ListedReport -> bool
  {
    r => ReportMatches(f, r)
  }

  /** `handleFilterChange`: the field is stored and the full list filtered again
      with the new filter. */
  function ReportFilterChange(page: ListPage, field: FilterField, value: string): (r: ListPage)
    ensures r.filter == (if field == NameField then page.filter.(name := value) else page.filter.(classId := value))
    ensures r.reports == page.reports
    ensures forall i :: 0 <= i < |r.shown| ==> r.shown[i] in page.reports && ReportMatches(r.filter, r.shown[i])
    ensures forall i :: 0 <= i < |page.reports| && ReportMatches(r.filter, page.reports[i]) ==> page.reports[i] in r.shown
  {
    var nf := if field == NameField then page.filter.(name := value) else page.filter.(classId := value);
    ListPage(page.reports, Filter(PassesReport(nf), page.reports), nf)
  }

  /** The shown list keeps the order of the full list. */
  lemma ReportShownIsSubsequence(page: ListPage, field: FilterField, value: string)
    ensures SubseqOf(ReportFilterChange(page, field, value).shown, page.reports)
  {
    FilterIsSubseq(PassesReport(ReportFilterChange(page, field, value).filter), page.reports);
  }

  /** The shown list depends only on the full list and the new filter: unlike the
      student-management page, it never keeps the result of an earlier change. */
  lemma ShownDependsOnlyOnFilter(p1: ListPage, p2: ListPage, f1: FilterField, v1: string, f2: FilterField, v2: string)
    requires p1.reports == p2.reports
    requires ReportFilterChange(p1, f1, v1).filter == ReportFilterChange(p2, f2, v2).filter
    ensures ReportFilterChange(p1, f1, v1).shown == ReportFilterChange(p2, f2, v2).shown
  {
  }

  /** Emptying both filter fields shows every report again. */
  lemma ClearedFilterShowsAll(page: ListPage, field: FilterField)
    requires field == NameField ==> page.filter.classId == ""
    requires field == ClassField ==> page.filter.name == ""
    ensures ReportFilterChange(page, field, "").shown == page.reports
  {
    FilterKeepsAll(PassesReport(ReportFilter("", "")), page.reports);
  }

  /** A report whose student has no name is hidden as soon as a name is typed. */
  lemma NamelessHiddenByName(page: ListPage, value: string, i: nat)
    requires value != "" && i < |page.reports| && !Truthy(page.reports[i].name)
    ensures page.reports[i] !in ReportFilterChange(page, NameField, value).shown
  {
  }

  /** `handleViewReport`: the report page of a student, or no navigation for an
      empty id. */
  function ViewReport(studentId: string): (r: Option<string>)
    ensures r.None? <==> studentId == ""
    ensures r.Some? ==> StartsWith(r.value, "/studentsReport/") && r.value[|"/studentsReport/"|..] == studentId
  {
    if studentId == "" then None else Some("/studentsReport/" + studentId)
  }
}

=== FILE: teacher_creation.dfy ===
/** Teacher creation (`POST /api/teachersCreation`): the new teacher row, then for
    each (subject, class) assignment the three link upserts and one zero mark per
    student of the class. */
module TeacherCreation {
  import opened Common
  import opened Marks
  import opened School
  import opened Enrolment

  datatype Assignment = Assignment(subjectId: string, classId: string)

  /** The request body; `assignments` is `None` when `subjectClassAssignments` is
      not an array. */
  datatype TeacherRequest = TeacherRequest(
    name: Option<string>,
    email: Option<string>,
    password: Option<string>,
    assignments: Option<seq<Assignment>>)

  /** `prisma.student.findMany({ where: { classId } })`. */
  function StudentsIn(students: seq<StudentRow>, classId: string): (r: seq<StudentRow>)
    ensures forall i :: 0 <= i < |r| ==> r[i].classId == classId && r[i] in students
    ensures forall i :: 0 <= i < |students| && students[i].classId == classId ==> students[i] in r
  {
    Filter((s: StudentRow) => s.classId == classId, students)
  }

  predicate LinksClass(cts: seq<ClassTeacherRow>, classId: string, teacherId: string)
  {
    exists i :: 0 <= i < |cts| && cts[i].classId == classId && cts[i].teacherId == teacherId
  }

  /** The test identifying a class-teacher row for the pair. */
  function SameLink(classId: string, teacherId: string): ClassTeacherRow -> bool
  {
    (ct: ClassTeacherRow) => ct.classId == classId && ct.teacherId == teacherId
  }

  /** The class-teacher upsert: the first row for the pair if there is one,
      otherwise a new row with the fresh id, appended. Either way the row returned
      is the first row for the pair in the resulting table. */
  function UpsertClassTeacher(cts: seq<ClassTeacherRow>, classId: string, teacherId: string, freshId: string)
    : (r: (seq<ClassTeacherRow>, ClassTeacherRow))
    ensures r.1.classId == classId && r.1.teacherId == teacherId && r.1 in r.0
    ensures LinksClass(cts, classId, teacherId) ==> r.0 == cts
    ensures !LinksClass(cts, classId, teacherId) ==>
              r.0 == cts + [ClassTeacherRow(freshId, classId, teacherId)]
    ensures FindFirst(SameLink(classId, teacherId), r.0) == Some(r.1)
  {
    var found := FindFirst(SameLink(classId, teacherId), cts);
    if found.Some? then (cts, found.value)
    else
      var added := ClassTeacherRow(freshId, classId, teacherId);
      FindFirstAppendOnly(SameLink(classId, teacherId), cts, added);
      (cts + [added], added)
  }

  /** The marks one assignment creates: one zero row per student of the class, with
      neither an academic year nor a trimester. */
  function AssignmentMarks(students: seq<StudentRow>, ct: ClassTeacherRow, subjectId: string)
    : (r: seq<MarkRow>)
    ensures |r| == |students|
    ensures forall i :: 0 <= i < |r| ==>
              r[i] == MarkRow(students[i].id, ct.id, subjectId, None, None, ZeroComponents)
  {
    Map((s: StudentRow) => MarkRow(s.id, ct.id, subjectId, None, None, ZeroComponents), students)
  }

  /** A mark row as the teacher-creation route writes it. */
  predicate UntaggedZero(m: MarkRow)
  {
    m.components == ZeroComponents && m.academicYear.None? && m.trimester.None?
  }

  /** One iteration of the assignment loop. `freshId(classId)` is the id a new
      class-teacher row for this teacher and class receives. */
  function ApplyOne(db: Store, teacherId: string, a: Assignment, freshId: string -> string): (r: Store)
    ensures SubjectTeacherRow(a.subjectId, teacherId) in r.subjectTeachers
    ensures ClassSubjectRow(a.classId, a.subjectId) in r.classSubjects
    ensures LinksClass(r.classTeachers, a.classId, teacherId)
    ensures forall i :: 0 <= i < |db.subjectTeachers| ==> db.subjectTeachers[i] in r.subjectTeachers
    ensures forall i :: 0 <= i < |db.classSubjects| ==> db.classSubjects[i] in r.classSubjects
    ensures |r.classTeachers| >= |db.classTeachers| && r.classTeachers[..|db.classTeachers|] == db.classTeachers
    ensures |r.marks| == |db.marks| + |StudentsIn(db.students, a.classId)|
    ensures r.marks[..|db.marks|] == db.marks
    ensures forall m :: m in r.marks[|db.marks|..] ==> UntaggedZero(m)
    ensures FindFirst(SameLink(a.classId, teacherId), r.classTeachers).Some?
    ensures r.marks[|db.marks|..]
            == AssignmentMarks(StudentsIn(db.students, a.classId),
                               FindFirst(SameLink(a.classId, teacherId), r.classTeachers).value, a.subjectId)
    ensures !LinksClass(db.classTeachers, a.classId, teacherId) ==>
              r.marks[|db.marks|..]
              == AssignmentMarks(StudentsIn(db.students, a.classId), ClassTeacherRow(freshId(a.classId), a.classId, teacherId), a.subjectId)
    ensures r.(subjectTeachers := db.subjectTeachers, classTeachers := db.classTeachers,
               classSubjects := db.classSubjects, marks := db.marks) == db
  {
    var st := InsertIfAbsent(db.subjectTeachers, SubjectTeacherRow(a.subjectId, teacherId));
    var up := UpsertClassTeacher(db.classTeachers, a.classId, teacherId, freshId(a.classId));
    var cs := InsertIfAbsent(db.classSubjects, ClassSubjectRow(a.classId, a.subjectId));
    var ms := AssignmentMarks(StudentsIn(db.students, up.1.classId), up.1, a.subjectId);
    var r := db.(subjectTeachers := st, classTeachers := up.0, classSubjects := cs, marks := db.marks + ms);
    assert r.marks[|db.marks|..] == ms;
    assert r.classTeachers[..|db.classTeachers|] == db.classTeachers;
    assert up.1 in r.classTeachers;
    r
  }

  /** Students of the assigned classes, counted once per assignment. */
  function BatchSize(students: seq<StudentRow>, assignments: seq<Assignment>): nat
    decreases |assignments|
  {
    if |assignments| == 0 then 0
    else |StudentsIn(students, assignments[0].classId)| + BatchSize(students, assignments[1..])
  }

  /** `ms` is the marks the assignment loop adds for `assignments`, batch by batch in
      request order: for each assignment, one zero row per student of its class, in
      student order, under the first link in `cts` between its class and the teacher. */
  predicate BatchesFor(students: seq<StudentRow>, cts: seq<ClassTeacherRow>, teacherId: string,
                       assignments: seq<Assignment>, ms: seq<MarkRow>)
    decreases |assignments|
  {
    if |assignments| == 0 then ms == []
    else
      var a := assignments[0];
      var batch := StudentsIn(students, a.classId);
      var link := FindFirst(SameLink(a.classId, teacherId), cts);
      && link.Some?
      && |batch| <= |ms|
      && ms[..|batch|] == AssignmentMarks(batch, link.value, a.subjectId)
      && BatchesFor(students, cts, teacherId, assignments[1..], ms[|batch|..])
  }

  /** The assignment loop, in request order: only the three link tables and the
      marks change, link rows and marks are only appended, and one mark is added per
      student of each assigned class. */
  function ApplyAll(db: Store, teacherId: string, assignments: seq<Assignment>, freshId: string -> string)
    : (r: Store)
    ensures |r.classTeachers| >= |db.classTeachers| && r.classTeachers[..|db.classTeachers|] == db.classTeachers
    ensures |r.marks| == |db.marks| + BatchSize(db.students, assignments)
    ensures r.marks[..|db.marks|] == db.marks
    ensures r.(subjectTeachers := db.subjectTeachers, classTeachers := db.classTeachers,
               classSubjects := db.classSubjects, marks := db.marks) == db
    decreases |assignments|
  {
    if |assignments| == 0 then db
    else
      var mid := ApplyOne(db, teacherId, assignments[0], freshId);
      var r := ApplyAll(mid, teacherId, assignments[1..], freshId);
      assert r.marks[..|db.marks|] == mid.marks[..|mid.marks|][..|db.marks|];
      assert r.classTeachers[..|db.classTeachers|] == mid.classTeachers[..|mid.classTeachers|][..|db.classTeachers|];
      r
  }

  /** No subject-teacher or class-subject row already present is lost. */
  lemma {:induction false} ApplyAllKeeps(db: Store, teacherId: string, assignments: seq<Assignment>, freshId: string -> string)
    ensures var r := ApplyAll(db, teacherId, assignments, freshId);
            && (forall x :: x in db.subjectTeachers ==> x in r.subjectTeachers)
            && (forall x :: x in db.classSubjects ==> x in r.classSubjects)
    decreases |assignments|
  {
    if |assignments| > 0 {
      var mid := ApplyOne(db, teacherId, assignments[0], freshId);
      ApplyAllKeeps(mid, teacherId, assignments[1..], freshId);
      assert forall x :: x in db.subjectTeachers ==> x in mid.subjectTeachers;
      assert forall x :: x in db.classSubjects ==> x in mid.classSubjects;
    }
  }

  /** Every assignment of the request ends up linked: teacher to subject, class to
      subject, and teacher to class. */
  lemma {:induction false} ApplyAllLinks(db: Store, teacherId: string, assignments: seq<Assignment>, freshId: string -> string)
    ensures var r := ApplyAll(db, teacherId, assignments, freshId);
            forall j :: 0 <= j < |assignments| ==>
              && SubjectTeacherRow(assignments[j].subjectId, teacherId) in r.subjectTeachers
              && ClassSubjectRow(assignments[j].classId, assignments[j].subjectId) in r.classSubjects
              && LinksClass(r.classTeachers, assignments[j].classId, teacherId)
    decreases |assignments|
  {
    if |assignments| > 0 {
      var a := assignments[0];
      var mid := ApplyOne(db, teacherId, a, freshId);
      var r := ApplyAll(mid, teacherId, assignments[1..], freshId);
      assert r == ApplyAll(db, teacherId, assignments, freshId);
      ApplyAllLinks(mid, teacherId, assignments[1..], freshId);
      ApplyAllKeeps(mid, teacherId, assignments[1..], freshId);
      LinksClassKept(mid.classTeachers, r.classTeachers, a.classId, teacherId);
      forall j | 0 <= j < |assignments|
        ensures SubjectTeacherRow(assignments[j].subjectId, teacherId) in r.subjectTeachers
        ensures ClassSubjectRow(assignments[j].classId, assignments[j].subjectId) in r.classSubjects
        ensures LinksClass(r.classTeachers, assignments[j].classId, teacherId)
      {
        if j > 0 {
          assert assignments[j] == assignments[1..][j - 1];
        }
      }
    }
  }

  /** Every mark the loop adds is an untagged zero row. */
  lemma {:induction false} ApplyAllMarksUntagged(db: Store, teacherId: string, assignments: seq<Assignment>, freshId: string -> string)
    ensures var r := ApplyAll(db, teacherId, assignments, freshId);
            forall m :: m in r.marks[|db.marks|..] ==> UntaggedZero(m)
    decreases |assignments|
  {
    if |assignments| > 0 {
      var mid := ApplyOne(db, teacherId, assignments[0], freshId);
      var r := ApplyAll(mid, teacherId, assignments[1..], freshId);
      ApplyAllMarksUntagged(mid, teacherId, assignments[1..], freshId);
      forall m | m in r.marks[|db.marks|..]
        ensures UntaggedZero(m)
      {
        var k :| |db.marks| <= k < |r.marks| && r.marks[k] == m;
        if k < |mid.marks| {
          assert m == mid.marks[k];
          assert m in mid.marks[|db.marks|..];
        } else {
          assert m == r.marks[|mid.marks|..][k - |mid.marks|];
        }
      }
    }
  }

  /** One assignment's batch in front of the batches the rest of the loop adds. */
  lemma BatchesStep(db: Store, mid: Store, r: Store, teacherId: string, assignments: seq<Assignment>)
    requires |assignments| > 0
    requires var a := assignments[0];
             var link := FindFirst(SameLink(a.classId, teacherId), mid.classTeachers);
             && mid.students == db.students
             && |mid.marks| == |db.marks| + |StudentsIn(db.students, a.classId)|
             && link.Some?
             && mid.marks[|db.marks|..] == AssignmentMarks(StudentsIn(db.students, a.classId), link.value, a.subjectId)
    requires |r.classTeachers| >= |mid.classTeachers| && r.classTeachers[..|mid.classTeachers|] == mid.classTeachers
    requires |r.marks| >= |mid.marks| && r.marks[..|mid.marks|] == mid.marks
    requires BatchesFor(mid.students, r.classTeachers, teacherId, assignments[1..], r.marks[|mid.marks|..])
    ensures BatchesFor(db.students, r.classTeachers, teacherId, assignments, r.marks[|db.marks|..])
  {
    var a := assignments[0];
    var batch := StudentsIn(db.students, a.classId);
    var ms := r.marks[|db.marks|..];
    FindFirstPrefix(SameLink(a.classId, teacherId), mid.classTeachers, r.classTeachers);
    assert ms[..|batch|] == mid.marks[|db.marks|..];
    assert ms[|batch|..] == r.marks[|mid.marks|..];
  }

  /** The marks the loop adds are exactly its batches, one per assignment, each under
      the first link of the final store for its class and the teacher. */
  lemma {:induction false} ApplyAllBatches(db: Store, teacherId: string, assignments: seq<Assignment>, freshId: string -> string)
    ensures var r := ApplyAll(db, teacherId, assignments, freshId);
            BatchesFor(db.students, r.classTeachers, teacherId, assignments, r.marks[|db.marks|..])
    decreases |assignments|
  {
    var r := ApplyAll(db, teacherId, assignments, freshId);
    if |assignments| == 0 {
      assert r.marks[|db.marks|..] == [];
    } else {
      var mid := ApplyOne(db, teacherId, assignments[0], freshId);
      assert r == ApplyAll(mid, teacherId, assignments[1..], freshId);
      ApplyAllBatches(mid, teacherId, assignments[1..], freshId);
      BatchesStep(db, mid, r, teacherId, assignments);
    }
  }

  /** A link survives whenever rows are only appended. */
  lemma LinksClassKept(a: seq<ClassTeacherRow>, b: seq<ClassTeacherRow>, classId: string, teacherId: string)
    requires |b| >= |a| && b[..|a|] == a
    ensures LinksClass(a, classId, teacherId) ==> LinksClass(b, classId, teacherId)
  {
    if LinksClass(a, classId, teacherId) {
      var i :| 0 <= i < |a| && a[i].classId == classId && a[i].teacherId == teacherId;
      assert b[i] == a[i];
    }
  }

  /** `POST /api/teachersCreation` on the store. `teacherId` is the id the database
      gives the new teacher, who is created without an academic year. */
  function CreateTeacher(db: Store, req: TeacherRequest, teacherId: string, freshId: string -> string)
    : (r: Step<string>)
    ensures r.response.BadRequest? <==> req.assignments.None?
    ensures !r.response.NotFound?
    ensures !r.response.Ok? ==> r.store == db
    ensures r.response.Ok? ==>
              var assignments := req.assignments.value;
              && r.store.teachers == db.teachers + [TeacherRow(teacherId, req.name, req.email, req.password, None)]
              && (forall j :: 0 <= j < |assignments| ==>
                    && SubjectTeacherRow(assignments[j].subjectId, teacherId) in r.store.subjectTeachers
                    && ClassSubjectRow(assignments[j].classId, assignments[j].subjectId) in r.store.classSubjects
                    && LinksClass(r.store.classTeachers, assignments[j].classId, teacherId))
              && |r.store.marks| == |db.marks| + BatchSize(db.students, assignments)
              && r.store.marks[..|db.marks|] == db.marks
              && (forall m :: m in r.store.marks[|db.marks|..] ==> UntaggedZero(m))
              && BatchesFor(db.students, r.store.classTeachers, teacherId, assignments, r.store.marks[|db.marks|..])
              && r.store.students == db.students && r.store.classes == db.classes
              && r.store.reports == db.reports && r.store.settings == db.settings
  {
    if req.assignments.None? then
      Step(BadRequest("subjectClassAssignments must be an array"), db)
    else
      var withTeacher := db.(teachers := db.teachers + [TeacherRow(teacherId, req.name, req.email, req.password, None)]);
      ApplyAllLinks(withTeacher, teacherId, req.assignments.value, freshId);
      ApplyAllKeeps(withTeacher, teacherId, req.assignments.value, freshId);
      ApplyAllMarksUntagged(withTeacher, teacherId, req.assignments.value, freshId);
      ApplyAllBatches(withTeacher, teacherId, req.assignments.value, freshId);
      Step(Ok("Teacher created successfully"), ApplyAll(withTeacher, teacherId, req.assignments.value, freshId))
  }

  /** Repeating an assignment adds no second link row but does add a second batch
      of zero marks for the class. */
  lemma {:induction false} RepeatedAssignmentDuplicatesMarks(db: Store, teacherId: string, a: Assignment, freshId: string -> string)
    ensures var once := ApplyAll(db, teacherId, [a], freshId);
            var twice := ApplyAll(db, teacherId, [a, a], freshId);
            && twice.subjectTeachers == once.subjectTeachers
            && twice.classTeachers == once.classTeachers
            && twice.classSubjects == once.classSubjects
            && |twice.marks| == |once.marks| + |StudentsIn(db.students, a.classId)|
  {
    var once := ApplyOne(db, teacherId, a, freshId);
    assert [a, a][1..] == [a];
    assert [a][1..] == [];
    var twice := ApplyOne(once, teacherId, a, freshId);
    assert ApplyAll(db, teacherId, [a], freshId) == ApplyAll(once, teacherId, [], freshId) == once;
    assert ApplyAll(db, teacherId, [a, a], freshId) == ApplyAll(once, teacherId, [a], freshId);
    assert ApplyAll(once, teacherId, [a], freshId) == ApplyAll(twice, teacherId, [], freshId) == twice;
    InsertIfAbsentIdempotent(db.subjectTeachers, SubjectTeacherRow(a.subjectId, teacherId));
    InsertIfAbsentIdempotent(db.classSubjects, ClassSubjectRow(a.classId, a.subjectId));
    assert LinksClass(once.classTeachers, a.classId, teacherId);
  }

  /** After a teacher is created, enrolling a student into any assigned class
      creates that student's three trimester rows for the assigned subject under
      the new teacher's class-teacher link. */
  lemma EnrolmentAfterTeacherCreation(
    db: Store, req: TeacherRequest, teacherId: string, freshId: string -> string,
    j: nat, studentId: string, k: nat)
    requires req.assignments.Some? && j < |req.assignments.value| && k < 3
    ensures var after := CreateTeacher(db, req, teacherId, freshId).store;
            var a := req.assignments.value[j];
            exists ct :: ct in after.classTeachers && ct.classId == a.classId && ct.teacherId == teacherId
                         && EnrolmentMark(after, studentId, a.subjectId, ct, k)
                            in MarksForEnrolment(after, studentId, a.classId)
  {
    var after := CreateTeacher(db, req, teacherId, freshId).store;
    var a := req.assignments.value[j];
    assert LinksClass(after.classTeachers, a.classId, teacherId);
    var i :| 0 <= i < |after.classTeachers| && after.classTeachers[i].classId == a.classId
             && after.classTeachers[i].teacherId == teacherId;
    var ct := after.classTeachers[i];
    var cs := ClassSubjectRow(a.classId, a.subjectId);
    var subjects := ClassSubjectsOf(after, a.classId);
    var cts := ClassTeachersOf(after, a.classId);
    var si :| 0 <= si < |after.classSubjects| && after.classSubjects[si] == cs;
    assert cs in subjects;
    assert ct in cts;
    var x :| 0 <= x < |subjects| && subjects[x] == cs;
    var y :| 0 <= y < |cts| && cts[y] == ct;
    assert EnrolmentMark(after, studentId, subjects[x].subjectId, cts[y], k)
           in MarksForEnrolment(after, studentId, a.classId);
  }
}

=== FILE: teacher_creation_page.dfy ===
/** The teacher-creation form: name and e-mail inputs, the default password,
    the list of (subject, class) pairs built by choosing a subject and then a
    class, and the request body it submits. */
module TeacherCreationPage {
  import opened Common
  import opened School
  import opened TeacherCreation

  const DefaultPassword: string := "123456789"

  datatype TeacherForm = TeacherForm(
    name: string,
    email: string,
    password: string,
    assignments: seq<Assignment>,
    selectedSubject: Option<string>)

  const BlankTeacherForm := TeacherForm("", "", DefaultPassword, [], None)

  /** The subject select: the chosen subject is remembered. */
  function SelectSubject(form: TeacherForm, subjectId: string): (r: TeacherForm)
    ensures r.selectedSubject == Some(subjectId) && r.(selectedSubject := form.selectedSubject) == form
  {
    form.(selectedSubject := Some(subjectId))
  }

  /** `handleAddSubjectClassPair`: with a subject chosen, the pair is appended and
      the subject choice cleared; without one nothing changes. */
  function AddPair(form: TeacherForm, classId: string): (r: TeacherForm)
    ensures !Truthy(form.selectedSubject) ==> r == form
    ensures Truthy(form.selectedSubject) ==>
              && r.assignments == form.assignments + [Assignment(form.selectedSubject.value, classId)]
              && r.selectedSubject.None?
              && r.(assignments := form.assignments, selectedSubject := form.selectedSubject) == form
  {
    if Truthy(form.selectedSubject) then
      form.(assignments := form.assignments + [Assignment(form.selectedSubject.value, classId)], selectedSubject := None)
    else form
  }

  /** Choosing a subject and then a class adds exactly that pair; choosing a
      second class without choosing the subject again adds nothing. */
  lemma PairNeedsFreshSubject(form: TeacherForm, subjectId: string, c1: string, c2: string)
    requires subjectId != ""
    ensures var once := AddPair(SelectSubject(form, subjectId), c1);
            && once.assignments == form.assignments + [Assignment(subjectId, c1)]
            && AddPair(once, c2) == once
  {
  }

  datatype TextField = NameInput | EmailInput

  /** `handleChange`: the named input's value stored, nothing else touched. */
  function HandleChange(form: TeacherForm, field: TextField, value: string): (r: TeacherForm)
    ensures field == NameInput ==> r.name == value && r.(name := form.name) == form
    ensures field == EmailInput ==> r.email == value && r.(email := form.email) == form
  {
    match field
    case NameInput => form.(name := value)
    case EmailInput => form.(email := value)
  }

  /** The submitted body: `JSON.stringify(teacherData)`. */
  function RequestOf(form: TeacherForm): (req: TeacherRequest)
    ensures req.name == Some(form.name) && req.email == Some(form.email) && req.password == Some(form.password)
    ensures req.assignments == Some(form.assignments)
  {
    TeacherRequest(Some(form.name), Some(form.email), Some(form.password), Some(form.assignments))
  }

  /** The form always sends its pairs as an array, so the route never answers 400
      to it, and the new teacher row carries the form's name, e-mail and password. */
  lemma FormRequestAccepted(db: Store, form: TeacherForm, teacherId: string, freshId: string -> string)
    ensures var r := CreateTeacher(db, RequestOf(form), teacherId, freshId);
            && r.response == Ok("Teacher created successfully")
            && r.store.teachers[|db.teachers|] == TeacherRow(teacherId, Some(form.name), Some(form.email), Some(form.password), None)
  {
  }
}

=== FILE: teacher_page.dfy ===
/** The teacher mark-entry page: the per-student mark state keyed by student id,
    its initialisation from each student's first mark, single-cell edits, the
    fill-column and reset-column buttons, the row total, and the save payloads. */
module TeacherPage {
  import opened Common
  import opened Marks

  /** One student's entry: the id of the mark it was loaded from (absent for a
      student without marks or an entry created by an edit) and the components. */
  datatype Entry = Entry(markId: Option<string>, components: Components)

  /** `prevMarks[studentId] || {}`: a missing entry reads as an empty object. */
  const EmptyEntry := Entry(None, NoComponents)

  function EntryOf(marks: map<string, Entry>, studentId: string): Entry
  {
    if studentId in marks then marks[studentId] else EmptyEntry
  }

  /** A fetched mark and a fetched student with their marks. */
  datatype FetchedMark = FetchedMark(id: string, components: Components)
  datatype StudentWithMarks = StudentWithMarks(id: string, marks: seq<FetchedMark>)

  /** `(c || 0)` for every component. */
  function Defaulted(c: Components): (r: Components)
    ensures forall f :: Get(r, f) == Some(OrZero(Get(c, f)))
  {
    Components(Some(OrZero(c.participation)), Some(OrZero(c.behavior)), Some(OrZero(c.workingQuiz)),
               Some(OrZero(c.project)), Some(OrZero(c.finalExam)))
  }

  /** The entry built for one student: `student.marks[0] || {}`, components defaulted. */
  function InitialEntry(s: StudentWithMarks): (e: Entry)
    ensures |s.marks| > 0 ==> e.markId == Some(s.marks[0].id)
    ensures |s.marks| > 0 ==> forall f :: Get(e.components, f) == Some(OrZero(Get(s.marks[0].components, f)))
    ensures |s.marks| == 0 ==> e.markId.None? && e.components == ZeroComponents
    ensures forall f :: Get(e.components, f).Some?
    ensures |s.marks| > 0 ==> Total(e.components) == Total(s.marks[0].components)
  {
    if |s.marks| > 0 then Entry(Some(s.marks[0].id), Defaulted(s.marks[0].components))
    else Entry(None, Defaulted(NoComponents))
  }

  function StudentIds(students: seq<StudentWithMarks>): (r: seq<string>)
    ensures |r| == |students| && forall i :: 0 <= i < |r| ==> r[i] == students[i].id
  {
    Map((s: StudentWithMarks) => s.id, students)
  }

  /** No later student in the list has the same id as student `i`. */
  predicate LastListing(students: seq<StudentWithMarks>, i: nat)
    requires i < |students|
  {
    forall j :: i < j < |students| ==> students[j].id != students[i].id
  }

  /** The `forEach` building the initial state: one entry per listed student. */
  function InitialMarks(students: seq<StudentWithMarks>): (r: map<string, Entry>)
    ensures forall k :: k in r <==> k in StudentIds(students)
    decreases |students|
  {
    if |students| == 0 then map[]
    else
      var n := |students| - 1;
      assert StudentIds(students) == StudentIds(students[..n]) + [students[n].id];
      InitialMarks(students[..n])[students[n].id := InitialEntry(students[n])]
  }

  /** Each student's entry is built from its own marks; of several listings of the
      same id, the last one wins. */
  lemma {:induction false} InitialMarksEntry(students: seq<StudentWithMarks>, i: nat)
    requires i < |students| && LastListing(students, i)
    ensures students[i].id in InitialMarks(students)
    ensures InitialMarks(students)[students[i].id] == InitialEntry(students[i])
    decreases |students|
  {
    var n := |students| - 1;
    var prev := InitialMarks(students[..n]);
    assert InitialMarks(students) == prev[students[n].id := InitialEntry(students[n])];
    if i < n {
      assert students[..n][i] == students[i];
      assert LastListing(students[..n], i);
      InitialMarksEntry(students[..n], i);
      assert students[n].id != students[i].id;
    }
  }

  /** `value ? Number(value) : undefined`: an empty input clears the component.
      `toNumber` stands for `Number`. */
  function CellValue(value: string, toNumber: string -> int): (v: Option<int>)
    ensures v.None? <==> value == ""
    ensures value != "" ==> v == Some(toNumber(value))
  {
    if value == "" then None else Some(toNumber(value))
  }

  /** `handleMarkChange`. */
  function HandleMarkChange(marks: map<string, Entry>, studentId: string, f: Field, value: string, toNumber: string -> int)
    : (r: map<string, Entry>)
    ensures r.Keys == marks.Keys + {studentId}
    ensures Get(r[studentId].components, f) == CellValue(value, toNumber)
    ensures forall g :: g != f ==> Get(r[studentId].components, g) == Get(EntryOf(marks, studentId).components, g)
    ensures r[studentId].markId == EntryOf(marks, studentId).markId
    ensures forall k :: k in marks && k != studentId ==> r[k] == marks[k]
  {
    var e := EntryOf(marks, studentId);
    marks[studentId := e.(components := Set(e.components, f, CellValue(value, toNumber)))]
  }

  /** The loop of `fillAllMarks`/`resetAllMarks`: component `f` of every listed
      student set to `v`, missing entries started from the empty one. */
  function SetColumn(marks: map<string, Entry>, ids: seq<string>, f: Field, v: int): (r: map<string, Entry>)
    ensures forall k :: k in r <==> k in marks || k in ids
    ensures forall i :: 0 <= i < |ids| ==> Get(r[ids[i]].components, f) == Some(v)
    ensures forall i, g :: 0 <= i < |ids| && g != f ==>
              Get(r[ids[i]].components, g) == Get(EntryOf(marks, ids[i]).components, g)
    ensures forall i :: 0 <= i < |ids| ==> r[ids[i]].markId == EntryOf(marks, ids[i]).markId
    ensures forall k :: k in marks && k !in ids ==> r[k] == marks[k]
    decreases |ids|
  {
    if |ids| == 0 then marks
    else
      var n := |ids| - 1;
      var prev := SetColumn(marks, ids[..n], f, v);
      assert forall i :: 0 <= i < n ==> ids[..n][i] == ids[i];
      assert ids == ids[..n] + [ids[n]];
      var e := EntryOf(prev, ids[n]);
      prev[ids[n] := e.(components := Set(e.components, f, Some(v)))]
  }

  /** `fillAllMarks(f)`: every listed student's `f` set to its maximum. */
  function FillAll(marks: map<string, Entry>, students: seq<StudentWithMarks>, f: Field): (r: map<string, Entry>)
    ensures forall i :: 0 <= i < |students| ==> students[i].id in r
    ensures forall i :: 0 <= i < |students| ==> Get(r[students[i].id].components, f) == Some(MaxValue(f))
  {
    SetColumn(marks, StudentIds(students), f, MaxValue(f))
  }

  /** `resetAllMarks(f)`: every listed student's `f` set to 0. */
  function ResetAll(marks: map<string, Entry>, students: seq<StudentWithMarks>, f: Field): (r: map<string, Entry>)
    ensures forall i :: 0 <= i < |students| ==> students[i].id in r
    ensures forall i :: 0 <= i < |students| ==> Get(r[students[i].id].components, f) == Some(0)
  {
    SetColumn(marks, StudentIds(students), f, 0)
  }

  /** Two mark states with the same keys and the same entries are equal. */
  lemma MapExt(a: map<string, Entry>, b: map<string, Entry>)
    requires a.Keys == b.Keys && forall k :: k in a ==> a[k] == b[k]
    ensures a == b
  {
  }

  lemma EntryExt(a: Entry, b: Entry)
    requires a.markId == b.markId && forall g :: Get(a.components, g) == Get(b.components, g)
    ensures a == b
  {
    ComponentsExt(a.components, b.components);
  }

  /** Setting a column twice is setting it once: fill and reset are idempotent. */
  lemma SetColumnIdempotent(marks: map<string, Entry>, ids: seq<string>, f: Field, v: int)
    ensures SetColumn(SetColumn(marks, ids, f, v), ids, f, v) == SetColumn(marks, ids, f, v)
  {
    var once := SetColumn(marks, ids, f, v);
    var twice := SetColumn(once, ids, f, v);
    forall k | k in twice
      ensures twice[k] == once[k]
    {
      if i :| 0 <= i < |ids| && ids[i] == k {
        EntryExt(twice[k], once[k]);
      }
    }
    MapExt(twice, once);
  }

  lemma FillResetIdempotent(marks: map<string, Entry>, students: seq<StudentWithMarks>, f: Field)
    ensures FillAll(FillAll(marks, students, f), students, f) == FillAll(marks, students, f)
    ensures ResetAll(ResetAll(marks, students, f), students, f) == ResetAll(marks, students, f)
  {
    SetColumnIdempotent(marks, StudentIds(students), f, MaxValue(f));
    SetColumnIdempotent(marks, StudentIds(students), f, 0);
  }

  /** After a fill the listed student's total is the old total with `f` raised to its
      maximum; after a reset, with `f` counted as 0. */
  lemma TotalAfterFill(marks: map<string, Entry>, students: seq<StudentWithMarks>, f: Field, i: nat)
    requires i < |students|
    ensures var before := EntryOf(marks, students[i].id).components;
            var after := FillAll(marks, students, f)[students[i].id].components;
            Total(after) == Total(before) - OrZero(Get(before, f)) + MaxValue(f)
  {
    var ids := StudentIds(students);
    var before := EntryOf(marks, students[i].id).components;
    var after := FillAll(marks, students, f)[students[i].id].components;
    assert ids[i] == students[i].id;
    ComponentsExt(after, Set(before, f, Some(MaxValue(f))));
    TotalAfterSet(before, f, Some(MaxValue(f)));
  }

  /** `calculateTotalMarks`: a student without an entry totals 0. */
  function RowTotal(marks: map<string, Entry>, studentId: string): (t: int)
    ensures studentId !in marks ==> t == 0
    ensures studentId in marks ==> t == Total(marks[studentId].components)
  {
    Total(EntryOf(marks, studentId).components)
  }

  /** The body of one `PUT /api/students/{id}`. */
  datatype Payload = Payload(studentId: string, markId: string, components: Components)

  /** The payload for one student, or `None` where building it throws: the student
      has no marks, or no entry in the state. */
  function PayloadFor(s: StudentWithMarks, marks: map<string, Entry>): (r: Option<Payload>)
    ensures r.Some? <==> |s.marks| > 0 && s.id in marks
    ensures r.Some? ==> r.value == Payload(s.id, s.marks[0].id, marks[s.id].components)
  {
    if |s.marks| > 0 && s.id in marks then Some(Payload(s.id, s.marks[0].id, marks[s.id].components)) else None
  }

  /** The requests `students.map` issues before the first student whose payload
      throws; `failed` records that it threw. */
  datatype Batch = Batch(sent: seq<Payload>, failed: bool)

  function SavePayloads(students: seq<StudentWithMarks>, marks: map<string, Entry>): (r: Batch)
    ensures |r.sent| <= |students|
    ensures forall i :: 0 <= i < |r.sent| ==> PayloadFor(students[i], marks) == Some(r.sent[i])
    ensures r.failed <==> exists i :: 0 <= i < |students| && PayloadFor(students[i], marks).None?
    ensures r.failed ==> PayloadFor(students[|r.sent|], marks).None?
    ensures !r.failed ==> |r.sent| == |students|
    decreases |students|
  {
    if |students| == 0 then Batch([], false)
    else
      var p := PayloadFor(students[0], marks);
      if p.None? then Batch([], true)
      else
        var rest := SavePayloads(students[1..], marks);
        assert forall i :: 1 <= i < |students| ==> students[i] == students[1..][i - 1];
        Batch([p.value] + rest.sent, rest.failed)
  }

  /** Right after loading, every listed student with marks can be saved, and the
      payload carries the loaded mark's id and its defaulted components. */
  lemma LoadedStudentsSave(students: seq<StudentWithMarks>, i: nat)
    requires i < |students| && |students[i].marks| > 0
    requires LastListing(students, i)
    ensures var p := PayloadFor(students[i], InitialMarks(students));
            p.Some? && p.value.markId == students[i].marks[0].id
            && p.value.components == Defaulted(students[i].marks[0].components)
  {
    InitialMarksEntry(students, i);
  }
}

=== FILE: teacher_progress_page.dfy ===
/** The teacher-progress page: the table of progress rows from the progress
    route, the "All classes completed" label, the settings form opened from a
    row, and the local list updates after saving or deleting a teacher. The rows
    the page holds come from the progress route, which names a teacher by
    `teacherId` and gives no `id`; the page as written matches rows on `id`. */
module TeacherProgressPage {
  import opened Common
  import opened Completion

  /** One element of a row's `classes` or `subjects` as the page holds it: an
      object carrying an `id` (possibly undefined), a bare string (a subject name
      from the route, or a value a saved form left behind), or `undefined` (a form
      value that was never chosen). */
  datatype Entry = IdObject(entryId: Option<string>) | Text(text: string) | Absent

  /** `.id` read from an entry that is not `undefined`: a bare string has no `id`. */
  function IdOf(e: Entry): (r: Option<string>)
    requires !e.Absent?
    ensures r.Some? ==> e == IdObject(r)
  {
    if e.IdObject? then e.entryId else None
  }

  /** `entries.map((e) => e.id)`: the ids in order, or `None` when some entry is
      `undefined`, where reading `.id` throws a `TypeError`. */
  function Ids(es: seq<Entry>): (r: Option<seq<Option<string>>>)
    ensures r.None? <==> exists i :: 0 <= i < |es| && es[i].Absent?
    ensures r.Some? ==> |r.value| == |es| && forall i :: 0 <= i < |es| ==> r.value[i] == IdOf(es[i])
    decreases |es|
  {
    if |es| == 0 then Some([])
    else if es[0].Absent? then None
    else
      var rest := Ids(es[1..]);
      assert forall i :: 1 <= i < |es| ==> es[i] == es[1..][i - 1];
      if rest.None? then None else Some([IdOf(es[0])] + rest.value)
  }

  /** A row as the page holds it. `id` and `classes` are optional because the
      progress route supplies neither. */
  datatype PageTeacher = PageTeacher(
    id: Option<string>,
    teacherId: Option<string>,
    name: Option<string>,
    academicYear: Option<string>,
    classes: Option<seq<Entry>>,
    subjects: Option<seq<Entry>>,
    classesAssigned: seq<string>,
    completedClasses: seq<string>,
    incompleteClasses: seq<string>)

  /** A progress row as the page receives it: subject names are bare strings, and
      there is no `id` and no `classes`. */
  function FromRoute(tp: TeacherProgress): (t: PageTeacher)
    ensures t.id.None? && t.teacherId == Some(tp.teacherId) && t.classes.None?
    ensures t.subjects.Some? && |t.subjects.value| == |tp.subjects|
    ensures forall i :: 0 <= i < |t.subjects.value| ==> t.subjects.value[i] == Text(tp.subjects[i])
    ensures t.name == tp.name && t.academicYear == tp.academicYear
    ensures t.classesAssigned == tp.classesAssigned && t.completedClasses == tp.completedClasses
    ensures t.incompleteClasses == tp.incompleteClasses
  {
    PageTeacher(None, Some(tp.teacherId), tp.name, tp.academicYear, None,
                Some(Map((n: string) => Text(n), tp.subjects)),
                tp.classesAssigned, tp.completedClasses, tp.incompleteClasses)
  }

  function FromRouteAll(rows: seq<TeacherProgress>): (r: seq<PageTeacher>)
    ensures |r| == |rows| && forall i :: 0 <= i < |rows| ==> r[i] == FromRoute(rows[i])
  {
    Map(FromRoute, rows)
  }

  /** The table rows: every teacher except the one named "test-teacher". */
  function VisibleRows(ts: seq<PageTeacher>): (r: seq<PageTeacher>)
    ensures forall i :: 0 <= i < |r| ==> r[i] in ts && r[i].name != Some("test-teacher")
    ensures forall i :: 0 <= i < |ts| && ts[i].name != Some("test-teacher") ==> ts[i] in r
  {
    Filter((t: PageTeacher) => t.name != Some("test-teacher"), ts)
  }

  lemma VisibleRowsInOrder(ts: seq<PageTeacher>)
    ensures SubseqOf(VisibleRows(ts), ts)
  {
    FilterIsSubseq((t: PageTeacher) => t.name != Some("test-teacher"), ts);
  }

  /** The "Completed" cell shows "All classes completed" when the two lists have
      the same length. */
  predicate AllCompletedLabel(t: PageTeacher)
  {
    |t.completedClasses| == |t.classesAssigned|
  }

  /** On a row from the route the label shows exactly when every class of the
      teacher counts as completed there, so a teacher whose classes have no marks
      for the trimester is labelled as having completed them all. */
  lemma LabelMeansAllCompleted(t: FetchedTeacher, trimester: string)
    ensures AllCompletedLabel(FromRoute(ClassifyTeacher(t, trimester))) <==>
              forall i :: 0 <= i < |t.classes| ==> RouteCompleted(t.classes[i], trimester)
    ensures (forall i :: 0 <= i < |t.classes| ==> |MarksIn(t.classes[i], trimester)| == 0) ==>
              AllCompletedLabel(FromRoute(ClassifyTeacher(t, trimester)))
  {
  }

  datatype SettingsForm = SettingsForm(
    name: Option<string>,
    classes: seq<Option<string>>,
    subjects: seq<Option<string>>,
    academicYear: Option<string>)

  /** A list the row may lack, as the form reads it: `[]` when absent. */
  function IdsOrEmpty(es: Option<seq<Entry>>): Option<seq<Option<string>>>
  {
    if es.Some? then Ids(es.value) else Some([])
  }

  /** `handleSettingsClick`: the form filled from the row, classes and subjects as
      the `.id` of each entry, or empty when the row has none. `None` when an entry
      is `undefined`: the handler throws and no form opens. */
  function SettingsFor(t: PageTeacher): (f: Option<SettingsForm>)
    ensures f.None? <==> (t.classes.Some? && exists i :: 0 <= i < |t.classes.value| && t.classes.value[i].Absent?)
                         || (t.subjects.Some? && exists i :: 0 <= i < |t.subjects.value| && t.subjects.value[i].Absent?)
    ensures f.Some? ==> f.value.name == t.name && f.value.academicYear == t.academicYear
    ensures f.Some? && t.classes.None? ==> f.value.classes == []
    ensures f.Some? && t.classes.Some? ==>
              |f.value.classes| == |t.classes.value|
              && forall i :: 0 <= i < |t.classes.value| ==> f.value.classes[i] == IdOf(t.classes.value[i])
    ensures f.Some? && t.subjects.None? ==> f.value.subjects == []
    ensures f.Some? && t.subjects.Some? ==>
              |f.value.subjects| == |t.subjects.value|
              && forall i :: 0 <= i < |t.subjects.value| ==> f.value.subjects[i] == IdOf(t.subjects.value[i])
  {
    var classes := IdsOrEmpty(t.classes);
    var subjects := IdsOrEmpty(t.subjects);
    if classes.None? || subjects.None? then None
    else Some(SettingsForm(t.name, classes.value, subjects.value, t.academicYear))
  }

  /** Opened on a row from the route, the form opens with no classes and one
      missing id per subject. */
  lemma SettingsOfRouteRow(tp: TeacherProgress)
    ensures var f := SettingsFor(FromRoute(tp));
            && f.Some?
            && f.value.classes == [] && |f.value.subjects| == |tp.subjects|
            && forall i :: 0 <= i < |f.value.subjects| ==> f.value.subjects[i].None?
  {
  }

  /** A form value spread into the row: the string itself, or `undefined`. */
  function FormEntry(v: Option<string>): Entry
  {
    if v.Some? then Text(v.value) else Absent
  }

  /** `{ ...teacher, ...formData }`, as written: the form's raw values replace the
      row's class and subject entries. */
  function MergeSettings(t: PageTeacher, f: SettingsForm): (r: PageTeacher)
    ensures r.name == f.name && r.academicYear == f.academicYear
    ensures r.classes.Some? && |r.classes.value| == |f.classes|
    ensures forall i :: 0 <= i < |f.classes| ==>
              && (r.classes.value[i].Absent? <==> f.classes[i].None?)
              && (f.classes[i].Some? ==> r.classes.value[i] == Text(f.classes[i].value))
    ensures r.subjects.Some? && |r.subjects.value| == |f.subjects|
    ensures forall i :: 0 <= i < |f.subjects| ==>
              && (r.subjects.value[i].Absent? <==> f.subjects[i].None?)
              && (f.subjects[i].Some? ==> r.subjects.value[i] == Text(f.subjects[i].value))
    ensures r.id == t.id && r.teacherId == t.teacherId
    ensures r.classesAssigned == t.classesAssigned && r.completedClasses == t.completedClasses
  {
    t.(name := f.name, academicYear := f.academicYear,
       classes := Some(Map(FormEntry, f.classes)), subjects := Some(Map(FormEntry, f.subjects)))
  }

  /** Reopening the settings of a row saved as written: the handler throws when
      some saved class or subject was never chosen; otherwise the form opens with
      the saved name but every class and subject id undefined, so the saved
      choices are lost. */
  lemma ReopenAfterSave(t: PageTeacher, f: SettingsForm)
    ensures var g := SettingsFor(MergeSettings(t, f));
            g.None? <==> (exists i :: 0 <= i < |f.classes| && f.classes[i].None?)
                         || (exists i :: 0 <= i < |f.subjects| && f.subjects[i].None?)
    ensures var g := SettingsFor(MergeSettings(t, f));
            g.Some? ==>
              && g.value.name == f.name && g.value.academicYear == f.academicYear
              && |g.value.classes| == |f.classes| && |g.value.subjects| == |f.subjects|
              && (forall i :: 0 <= i < |g.value.classes| ==> g.value.classes[i].None?)
              && (forall i :: 0 <= i < |g.value.subjects| ==> g.value.subjects[i].None?)
  {
    var r := MergeSettings(t, f);
    if exists i :: 0 <= i < |f.classes| && f.classes[i].None? {
      var i :| 0 <= i < |f.classes| && f.classes[i].None?;
      assert r.classes.value[i].Absent?;
    }
    if exists i :: 0 <= i < |f.subjects| && f.subjects[i].None? {
      var i :| 0 <= i < |f.subjects| && f.subjects[i].None?;
      assert r.subjects.value[i].Absent?;
    }
  }

  /** A route row with a subject: its settings open with an undefined subject id;
      saving them and reopening throws. */
  lemma ReopenRouteRowAfterSaveThrows(tp: TeacherProgress)
    requires |tp.subjects| > 0
    ensures var t := FromRoute(tp);
            && SettingsFor(t).Some?
            && SettingsFor(MergeSettings(t, SettingsFor(t).value)).None?
  {
    var t := FromRoute(tp);
    SettingsOfRouteRow(tp);
    ReopenAfterSave(t, SettingsFor(t).value);
    assert SettingsFor(t).value.subjects[0].None?;
  }

  /** The merge the page evidently intends: each chosen id stored as an entry
      carrying that id, so the settings reopen with the saved choices. */
  function MergeSettingsKeepingIds(t: PageTeacher, f: SettingsForm): (r: PageTeacher)
    ensures r.name == f.name && r.academicYear == f.academicYear
    ensures r.id == t.id && r.teacherId == t.teacherId
    ensures r.classesAssigned == t.classesAssigned && r.completedClasses == t.completedClasses
    ensures r.incompleteClasses == t.incompleteClasses
  {
    t.(name := f.name, academicYear := f.academicYear,
       classes := Some(Map((v: Option<string>) => IdObject(v), f.classes)),
       subjects := Some(Map((v: Option<string>) => IdObject(v), f.subjects)))
  }

  /** With the corrected merge, reopening a saved row shows exactly the saved form. */
  lemma ReopenShowsSaved(t: PageTeacher, f: SettingsForm)
    ensures SettingsFor(MergeSettingsKeepingIds(t, f)) == Some(f)
  {
    var g := SettingsFor(MergeSettingsKeepingIds(t, f)).value;
    assert g.classes == f.classes;
    assert g.subjects == f.subjects;
  }

  /** The local update after a successful save, as written: every row whose `id`
      equals the selected row's `id` takes the form. */
  function SaveLocalAsWritten(ts: seq<PageTeacher>, selected: PageTeacher, f: SettingsForm): (r: seq<PageTeacher>)
    ensures |r| == |ts|
    ensures forall i :: 0 <= i < |ts| ==> r[i] == if ts[i].id == selected.id then MergeSettings(ts[i], f) else ts[i]
  {
    Map((t: PageTeacher) => if t.id == selected.id then MergeSettings(t, f) else t, ts)
  }

  /** On rows from the route every `id` is missing, so saving one teacher writes
      the form into every row: two teachers both end up with the saved name. */
  lemma SaveAsWrittenRewritesEveryRow(rows: seq<TeacherProgress>, k: nat, f: SettingsForm)
    requires k < |rows|
    ensures var ts := FromRouteAll(rows);
            var r := SaveLocalAsWritten(ts, ts[k], f);
            forall i :: 0 <= i < |rows| ==> r[i] == MergeSettings(ts[i], f) && r[i].name == f.name
  {
  }

  lemma SaveAsWrittenCounterexample()
    ensures var a := TeacherProgress("t1", Some("Amal"), None, None, "TEACHER", [], [], [], []);
            var b := TeacherProgress("t2", Some("Badr"), None, None, "TEACHER", [], [], [], []);
            var ts := FromRouteAll([a, b]);
            var f := SettingsForm(Some("Amal S."), [], [], None);
            SaveLocalAsWritten(ts, ts[0], f)[1].name == Some("Amal S.")
  {
    var a := TeacherProgress("t1", Some("Amal"), None, None, "TEACHER", [], [], [], []);
    var b := TeacherProgress("t2", Some("Badr"), None, None, "TEACHER", [], [], [], []);
    SaveAsWrittenRewritesEveryRow([a, b], 0, SettingsForm(Some("Amal S."), [], [], None));
  }

  /** The local update matching on `teacherId`, the id the rows carry and the save
      request already sends. */
  function SaveLocal(ts: seq<PageTeacher>, selected: PageTeacher, f: SettingsForm): (r: seq<PageTeacher>)
    ensures |r| == |ts|
    ensures forall i :: 0 <= i < |ts| ==>
              r[i] == if ts[i].teacherId == selected.teacherId then MergeSettingsKeepingIds(ts[i], f) else ts[i]
  {
    Map((t: PageTeacher) => if t.teacherId == selected.teacherId then MergeSettingsKeepingIds(t, f) else t, ts)
  }

  /** With the corrected match, saving one teacher from the route's rows changes
      that teacher's row and no other, and that row's settings reopen with the
      saved form. */
  lemma SaveChangesOnlySelected(rows: seq<TeacherProgress>, k: nat, f: SettingsForm)
    requires k < |rows|
    requires forall i, j :: 0 <= i < j < |rows| ==> rows[i].teacherId != rows[j].teacherId
    ensures var ts := FromRouteAll(rows);
            var r := SaveLocal(ts, ts[k], f);
            && r[k] == MergeSettingsKeepingIds(ts[k], f)
            && SettingsFor(r[k]) == Some(f)
            && forall i :: 0 <= i < |rows| && i != k ==> r[i] == ts[i]
  {
    var ts := FromRouteAll(rows);
    ReopenShowsSaved(ts[k], f);
  }

  /** The body of the delete request: the id it names, if any. */
  datatype Deleted = Deleted(requestId: Option<string>, rows: seq<PageTeacher>)

  /** `handleDelete` as written: the request names the selected row's `id`, and
      after an OK answer every row with that `id` is removed. */
  function DeleteAsWritten(ts: seq<PageTeacher>, selected: PageTeacher, ok: bool): (r: Deleted)
    ensures r.requestId == selected.id
    ensures !ok ==> r.rows == ts
    ensures ok ==> forall i :: 0 <= i < |r.rows| ==> r.rows[i] in ts && r.rows[i].id != selected.id
    ensures ok ==> forall i :: 0 <= i < |ts| && ts[i].id != selected.id ==> ts[i] in r.rows
  {
    Deleted(selected.id, if ok then Filter((t: PageTeacher) => t.id != selected.id, ts) else ts)
  }

  /** On rows from the route the request names no teacher, and an OK answer
      empties the whole table. */
  lemma DeleteAsWrittenEmptiesTable(rows: seq<TeacherProgress>, k: nat)
    requires k < |rows|
    ensures var ts := FromRouteAll(rows);
            var r := DeleteAsWritten(ts, ts[k], true);
            r.requestId.None? && r.rows == []
  {
    var ts := FromRouteAll(rows);
    var drop := (t: PageTeacher) => t.id != ts[k].id;
    FilterLengthIsCount(drop, ts);
    CountNoneKept(drop, ts);
  }

  /** `handleDelete` naming the teacher by `teacherId`, in the request and in the
      local filter; nothing is removed without an OK answer. */
  function Delete(ts: seq<PageTeacher>, selected: PageTeacher, ok: bool): (r: Deleted)
    ensures r.requestId == selected.teacherId
    ensures !ok ==> r.rows == ts
    ensures ok ==> forall i :: 0 <= i < |r.rows| ==> r.rows[i] in ts && r.rows[i].teacherId != selected.teacherId
    ensures ok ==> forall i :: 0 <= i < |ts| && ts[i].teacherId != selected.teacherId ==> ts[i] in r.rows
  {
    Deleted(selected.teacherId, if ok then Filter((t: PageTeacher) => t.teacherId != selected.teacherId, ts) else ts)
  }

  /** With the corrected match, deleting one of the route's teachers names it in
      the request and removes exactly its row, keeping the others in order. */
  lemma DeleteRemovesOnlySelected(rows: seq<TeacherProgress>, k: nat)
    requires k < |rows|
    requires forall i, j :: 0 <= i < j < |rows| ==> rows[i].teacherId != rows[j].teacherId
    ensures var ts := FromRouteAll(rows);
            var r := Delete(ts, ts[k], true);
            && r.requestId == Some(rows[k].teacherId)
            && |r.rows| == |rows| - 1
            && ts[k] !in r.rows
            && SubseqOf(r.rows, ts)
  {
    var ts := FromRouteAll(rows);
    var keep := (t: PageTeacher) => t.teacherId != ts[k].teacherId;
    FilterIsSubseq(keep, ts);
    FilterLengthIsCount(keep, ts);
    CountAllButOne(ts, k);
  }

  /** In a list whose `teacherId`s are distinct, exactly one entry has the
      `teacherId` of entry `k`. */
  lemma {:induction false} CountAllButOne(ts: seq<PageTeacher>, k: nat)
    requires k < |ts|
    requires forall i, j :: 0 <= i < j < |ts| ==> ts[i].teacherId != ts[j].teacherId
    ensures CountIf((t: PageTeacher) => t.teacherId != ts[k].teacherId, ts) == |ts| - 1
    decreases |ts|
  {
    var id := ts[k].teacherId;
    var keep := (t: PageTeacher) => t.teacherId != id;
    if k == 0 {
      forall i | 0 <= i < |ts[1..]|
        ensures keep(ts[1..][i])
      {
        assert ts[1..][i] == ts[i + 1];
      }
      CountAllKept(keep, ts[1..]);
    } else {
      assert ts[1..][k - 1] == ts[k];
      forall i, j | 0 <= i < j < |ts[1..]|
        ensures ts[1..][i].teacherId != ts[1..][j].teacherId
      {
        assert ts[1..][i] == ts[i + 1] && ts[1..][j] == ts[j + 1];
      }
      CountAllButOne(ts[1..], k - 1);
    }
  }

  /** Counting a predicate that holds nowhere gives 0. */
  lemma {:induction false} CountNoneKept<T>(p: T -> bool, s: seq<T>)
    requires forall i :: 0 <= i < |s| ==> !p(s[i])
    ensures CountIf(p, s) == 0
    decreases |s|
  {
    if |s| > 0 {
      assert forall i :: 0 <= i < |s[1..]| ==> s[1..][i] == s[i + 1];
      CountNoneKept(p, s[1..]);
    }
  }

  /** Counting a predicate that holds everywhere counts every element. */
  lemma {:induction false} CountAllKept<T>(p: T -> bool, s: seq<T>)
    requires forall i :: 0 <= i < |s| ==> p(s[i])
    ensures CountIf(p, s) == |s|
    decreases |s|
  {
    if |s| > 0 {
      assert forall i :: 0 <= i < |s[1..]| ==> s[1..][i] == s[i + 1];
      CountAllKept(p, s[1..]);
    }
  }
}

=== FILE: text.dfy ===
/** String helpers standing in for the JavaScript built-ins the handlers call:
    `trim`, `startsWith`, `toLowerCase`, `includes`, `join`, and number-to-text. */
module Text {

  /** The characters `String.prototype.trim` removes: ECMAScript white space
      (tab, vertical tab, form feed, space, no-break space, byte order mark and
      the Unicode space separators) and line terminators. */
  predicate IsSpace(c: char)
  {
    || c == '\t' || c == '\n' || c == '\U{000B}' || c == '\U{000C}' || c == '\r' || c == ' '
    || c == '\U{00A0}' || c == '\U{1680}' || ('\U{2000}' <= c <= '\U{200A}')
    || c == '\U{2028}' || c == '\U{2029}' || c == '\U{202F}' || c == '\U{205F}'
    || c == '\U{3000}' || c == '\U{FEFF}'
  }

  predicate AllSpace(s: string)
  {
    forall i :: 0 <= i < |s| ==> IsSpace(s[i])
  }

  /** Drops leading white space. */
  function TrimStart(s: string): (r: string)
    ensures |r| <= |s| && r == s[|s| - |r|..]
    ensures AllSpace(s[..|s| - |r|])
    ensures |r| == 0 || !IsSpace(r[0])
    decreases |s|
  {
    if |s| > 0 && IsSpace(s[0]) then TrimStart(s[1..]) else s
  }

  /** Drops trailing white space. */
  function TrimEnd(s: string): (r: string)
    ensures |r| <= |s| && r == s[..|r|]
    ensures AllSpace(s[|r|..])
    ensures |r| == 0 || !IsSpace(r[|r| - 1])
    decreases |s|
  {
    if |s| > 0 && IsSpace(s[|s| - 1]) then TrimEnd(s[..|s| - 1]) else s
  }

  /** `s.trim()`: the infix of `s` left after removing white space at both ends. */
  function Trim(s: string): (r: string)
    ensures exists i, j :: 0 <= i <= j <= |s| && r == s[i..j] && AllSpace(s[..i]) && AllSpace(s[j..])
    ensures |r| == 0 || (!IsSpace(r[0]) && !IsSpace(r[|r| - 1]))
  {
    var t := TrimStart(s);
    var r := TrimEnd(t);
    var i := |s| - |t|;
    assert r == s[i..i + |r|];
    assert s[i + |r|..] == t[|r|..];
    r
  }

  predicate StartsWith(s: string, prefix: string)
  {
    |prefix| <= |s| && s[..|prefix|] == prefix
  }

  /** `s.includes(sub)`: `sub` occurs in `s` at some position. */
  predicate Contains(s: string, sub: string)
    decreases |s|
  {
    StartsWith(s, sub) || (|s| > 0 && Contains(s[1..], sub))
  }

  /** `toLowerCase` on the ASCII letters; other characters are left as they are. */
  function LowerChar(c: char): (r: char)
    ensures 'A' <= c <= 'Z' ==> 'a' <= r <= 'z'
    ensures !('A' <= c <= 'Z') ==> r == c
  {
    if 'A' <= c <= 'Z' then (c as int + 32) as char else c
  }

  function Lower(s: string): (r: string)
    ensures |r| == |s|
    ensures forall i :: 0 <= i < |s| ==> r[i] == LowerChar(s[i])
  {
    seq(|s|, i requires 0 <= i < |s| => LowerChar(s[i]))
  }

  /** The case-insensitive `includes` the filters use: both sides lower-cased. */
  predicate ContainsIgnoringCase(s: string, sub: string)
  {
    Contains(Lower(s), Lower(sub))
  }

  /** `parts.join(sep)`. */
  function Join(parts: seq<string>, sep: string): string
    decreases |parts|
  {
    if |parts| == 0 then ""
    else if |parts| == 1 then parts[0]
    else parts[0] + sep + Join(parts[1..], sep)
  }

  function DigitChar(d: nat): (c: char)
    requires d < 10
    ensures '0' <= c <= '9'
  {
    ('0' as int + d) as char
  }

  function DigitValue(c: char): (d: nat)
    requires '0' <= c <= '9'
    ensures d < 10
  {
    c as int - '0' as int
  }

  predicate AllDigits(s: string)
  {
    forall i :: 0 <= i < |s| ==> '0' <= s[i] <= '9'
  }

  /** Decimal rendering of a natural number, without leading zeros. */
  function NatToString(n: nat): (r: string)
    ensures |r| >= 1 && AllDigits(r)
    ensures n < 10 <==> |r| == 1
    ensures |r| > 1 ==> r[0] != '0'
    decreases n
  {
    if n < 10 then [DigitChar(n)]
    else NatToString(n / 10) + [DigitChar(n % 10)]
  }

  /** Decimal rendering of an integer, as a JavaScript template literal prints it. */
  function IntToString(n: int): (r: string)
    ensures n >= 0 ==> r == NatToString(n)
    ensures n < 0 ==> |r| >= 2 && r[0] == '-' && r[1..] == NatToString(-n)
  {
    if n >= 0 then NatToString(n) else "-" + NatToString(-n)
  }

  /** Value of a string of decimal digits (the reference reading of a rendered number). */
  function ParseDigits(s: string): nat
    requires AllDigits(s)
    decreases |s|
  {
    if |s| == 0 then 0
    else ParseDigits(s[..|s| - 1]) * 10 + DigitValue(s[|s| - 1])
  }

  /** Rendering a number and reading it back gives the number. */
  lemma {:induction false} ParseNatToString(n: nat)
    ensures ParseDigits(NatToString(n)) == n
    decreases n
  {
    if n >= 10 {
      ParseNatToString(n / 10);
      var s := NatToString(n);
      assert s[..|s| - 1] == NatToString(n / 10);
    }
  }
}

=== FILE: upload.dfy ===
/** Bulk enrolment (`POST /api/students/upload`): format detection, per-row
    validation with an all-or-nothing error gate, rows of unknown classes skipped,
    and the same zero-mark rows as single enrolment for each created student.
    Parsing JSON or CSV, `Date.parse` and `JSON.stringify` of a row are supplied
    by the caller as functions. */
module Upload {
  import opened Common
  import opened Text
  import opened Marks
  import opened School
  import opened Enrolment

  /** One uploaded record: a CSV line read with a header row, or one JSON object. */
  datatype UploadRow = UploadRow(
    name: Option<string>,
    arabicName: Option<string>,
    dob: Option<string>,
    school: Option<string>,
    classId: Option<string>,
    nationality: Option<string>,
    iqamaNo: Option<string>,
    passportNo: Option<string>,
    expenses: JsValue,
    username: Option<string>,
    password: Option<string>)

  datatype Format = Json | Csv

  /** The content is read as JSON exactly when, trimmed, it starts with `[{`. */
  function DetectFormat(content: string): Format
  {
    if StartsWith(Trim(content), "[{") then Json else Csv
  }

  /** Leading and trailing white space never changes the detected format. */
  lemma DetectFormatIgnoresPadding(content: string, before: string, after: string)
    requires AllSpace(before) && AllSpace(after)
    ensures DetectFormat(before + content + after) == DetectFormat(content)
  {
    TrimPadding(content, before, after);
  }

  /** Trimming removes exactly the padding white space. */
  lemma TrimPadding(content: string, before: string, after: string)
    requires AllSpace(before) && AllSpace(after)
    ensures Trim(before + content + after) == Trim(content)
  {
    assert before + content + after == before + (content + after);
    TrimStartPadding(content + after, before);
    var t := TrimStart(content);
    if |t| > 0 {
      TrimStartAppend(content, after);
      TrimEndPadding(t, after);
    } else {
      assert content == content[..|content| - |t|];
      AllSpaceAppend(content, after);
      TrimStartOfSpace(content + after);
    }
  }

  lemma {:induction false} TrimStartPadding(s: string, before: string)
    requires AllSpace(before)
    ensures TrimStart(before + s) == TrimStart(s)
    decreases |before|
  {
    if |before| > 0 {
      var w := before + s;
      assert w[0] == before[0] && IsSpace(w[0]);
      assert w[1..] == before[1..] + s;
      assert AllSpace(before[1..]) by {
        forall i | 0 <= i < |before[1..]| ensures IsSpace(before[1..][i]) {
          assert before[1..][i] == before[i + 1];
        }
      }
      TrimStartPadding(s, before[1..]);
    } else {
      assert before + s == s;
    }
  }

  lemma {:induction false} TrimEndPadding(s: string, after: string)
    requires AllSpace(after)
    ensures TrimEnd(s + after) == TrimEnd(s)
    decreases |after|
  {
    if |after| > 0 {
      var w := s + after;
      var a := after[..|after| - 1];
      assert w[|w| - 1] == after[|after| - 1] && IsSpace(w[|w| - 1]);
      assert w[..|w| - 1] == s + a;
      assert AllSpace(a) by {
        forall i | 0 <= i < |a| ensures IsSpace(a[i]) {
          assert a[i] == after[i];
        }
      }
      TrimEndPadding(s, a);
    } else {
      assert s + after == s;
    }
  }

  /** Stripping the front of `s + after` is stripping the front of `s`, then
      appending, when `s` is not all white space. */
  lemma {:induction false} TrimStartAppend(s: string, after: string)
    requires |TrimStart(s)| > 0
    ensures TrimStart(s + after) == TrimStart(s) + after
    decreases |s|
  {
    var w := s + after;
    assert w[0] == s[0];
    if IsSpace(s[0]) {
      assert w[1..] == s[1..] + after;
      TrimStartAppend(s[1..], after);
    }
  }

  lemma AllSpaceAppend(s: string, t: string)
    requires AllSpace(s) && AllSpace(t)
    ensures AllSpace(s + t)
  {
    forall i | 0 <= i < |s + t| ensures IsSpace((s + t)[i]) {
      if i < |s| { assert (s + t)[i] == s[i]; } else { assert (s + t)[i] == t[i - |s|]; }
    }
  }

  /** A string of white space trims to nothing. */
  lemma TrimStartOfSpace(w: string)
    requires AllSpace(w)
    ensures TrimStart(w) == []
  {
  }

  /** Why a row is refused, with the rendered row the message quotes. */
  predicate DobInvalid(row: UploadRow, dateValid: string -> bool)
  {
    Truthy(row.dob) && !dateValid(row.dob.value)
  }

  predicate MissingFields(row: UploadRow)
  {
    !Truthy(row.name) || !Truthy(row.classId) || !Truthy(row.username) || !Truthy(row.password)
  }

  /** A row passes when its date (if any) parses and the four required fields are present. */
  predicate RowPasses(row: UploadRow, dateValid: string -> bool)
  {
    !DobInvalid(row, dateValid) && !MissingFields(row)
  }

  /** The error for a failing row: the date check comes first and, when it fails,
      the required-field check is not reached. */
  function RowError(row: UploadRow, dateValid: string -> bool, render: UploadRow -> string): (e: string)
    ensures DobInvalid(row, dateValid) ==> e == "Invalid date format for dob in row: " + render(row)
    ensures !DobInvalid(row, dateValid) ==> e == "Missing required fields in row: " + render(row)
  {
    if DobInvalid(row, dateValid) then "Invalid date format for dob in row: " + render(row)
    else "Missing required fields in row: " + render(row)
  }

  /** `{ ...row, dob }` with `dob` null unless the row carried one. */
  function Normalize(row: UploadRow): (r: UploadRow)
    ensures r.dob == (if Truthy(row.dob) then row.dob else None)
    ensures r.(dob := row.dob) == row
  {
    row.(dob := if Truthy(row.dob) then row.dob else None)
  }

  /** The row tests and the error text as function values, for stating what the
      validation loop keeps. */
  function Passes(dateValid: string -> bool): UploadRow -> bool
  {
    row => RowPasses(row, dateValid)
  }

  function Fails(dateValid: string -> bool): UploadRow -> bool
  {
    row => !RowPasses(row, dateValid)
  }

  function ErrorFor(dateValid: string -> bool, render: UploadRow -> string): UploadRow -> string
  {
    row => RowError(row, dateValid, render)
  }

  /** The validation loop: the accepted rows and the error messages, each in row order. */
  datatype Checked = Checked(accepted: seq<UploadRow>, errors: seq<string>)

  /** The loop keeps, normalized, exactly the passing rows, and reports one error per
      failing row, in row order. */
  function CheckRows(rows: seq<UploadRow>, dateValid: string -> bool, render: UploadRow -> string)
    : (r: Checked)
    ensures r.accepted == Map(Normalize, Filter(Passes(dateValid), rows))
    ensures r.errors == Map(ErrorFor(dateValid, render), Filter(Fails(dateValid), rows))
    ensures |r.accepted| + |r.errors| == |rows|
    ensures |r.errors| == 0 <==> forall i :: 0 <= i < |rows| ==> RowPasses(rows[i], dateValid)
    ensures forall i :: 0 <= i < |r.accepted| ==> !MissingFields(r.accepted[i])
    ensures forall i :: 0 <= i < |r.accepted| ==> Normalize(r.accepted[i]) == r.accepted[i]
    decreases |rows|
  {
    if |rows| == 0 then Checked([], [])
    else
      var rest := CheckRows(rows[1..], dateValid, render);
      assert forall i :: 1 <= i < |rows| ==> rows[i] == rows[1..][i - 1];
      if RowPasses(rows[0], dateValid) then
        assert Filter(Passes(dateValid), rows) == [rows[0]] + Filter(Passes(dateValid), rows[1..]);
        assert Filter(Fails(dateValid), rows) == Filter(Fails(dateValid), rows[1..]);
        MapCons(Normalize, rows[0], Filter(Passes(dateValid), rows[1..]));
        Checked([Normalize(rows[0])] + rest.accepted, rest.errors)
      else
        assert Filter(Passes(dateValid), rows) == Filter(Passes(dateValid), rows[1..]);
        assert Filter(Fails(dateValid), rows) == [rows[0]] + Filter(Fails(dateValid), rows[1..]);
        MapCons(ErrorFor(dateValid, render), rows[0], Filter(Fails(dateValid), rows[1..]));
        Checked(rest.accepted, [RowError(rows[0], dateValid, render)] + rest.errors)
  }

  /** The created student for an accepted row. */
  function StudentFromRow(row: UploadRow, id: string): (s: StudentRow)
    ensures s.id == id && s.dateOfBirth == row.dob && s.expenses == ExpensesOrPaid(row.expenses)
    ensures s.name == OrElse(row.name, "") && s.classId == OrElse(row.classId, "")
    ensures s.arabicName == row.arabicName && s.school == row.school && s.nationality == row.nationality
    ensures s.iqamaNo == row.iqamaNo && s.passportNo == row.passportNo
    ensures s.username == row.username && s.password == row.password
  {
    StudentRow(id, OrElse(row.name, ""), row.arabicName, row.dob, row.school, OrElse(row.classId, ""),
               row.nationality, row.iqamaNo, row.passportNo, ExpensesOrPaid(row.expenses),
               row.username, row.password)
  }

  predicate ClassKnown(db: Store, row: UploadRow)
  {
    ClassById(db, OrElse(row.classId, "")).Some?
  }

  datatype Created = Created(store: Store, students: seq<StudentRow>)

  /** The class test and the enrolment rows as function values. */
  function Known(db: Store): UploadRow -> bool
  {
    row => ClassKnown(db, row)
  }

  function EnrolmentOf(db: Store): StudentRow -> seq<MarkRow>
  {
    (s: StudentRow) => MarksForEnrolment(db, s.id, s.classId)
  }

  /** Every row enrolling a list of students creates is all zero and belongs to one
      of them. */
  lemma EnrolledMarksAreZero(db: Store, students: seq<StudentRow>)
    ensures forall m: MarkRow :: m in Flatten(Map(EnrolmentOf(db), students)) ==>
              m.components == ZeroComponents
              && exists i :: 0 <= i < |students| && m.studentId == students[i].id
  {
    var perStudent := Map(EnrolmentOf(db), students);
    forall m: MarkRow | m in Flatten(perStudent)
      ensures m.components == ZeroComponents
      ensures exists i :: 0 <= i < |students| && m.studentId == students[i].id
    {
      FlattenMembership(perStudent, m);
      var i :| 0 <= i < |perStudent| && m in perStudent[i];
      EnrolmentRowsAreZero(db, students[i].id, students[i].classId, m);
    }
  }

  /** The creation loop: rows of unknown classes are skipped; every other row becomes,
      in row order, a student with its enrolment marks; `idFor(i)` is the id the
      database gives the i-th student created. The class links do not change during the
      loop, so each student's marks are computed from the store as it was. */
  function CreateAll(db: Store, rows: seq<UploadRow>, idFor: nat -> string): (r: Created)
    ensures var kept := Filter(Known(db), rows);
            && |r.students| == |kept|
            && (forall i :: 0 <= i < |kept| ==> r.students[i] == StudentFromRow(kept[i], idFor(i)))
    ensures forall i :: 0 <= i < |r.students| ==> ClassById(db, r.students[i].classId).Some?
    ensures r.store.students == db.students + r.students
    ensures r.store.marks == db.marks + Flatten(Map(EnrolmentOf(db), r.students))
    ensures forall m :: m in r.store.marks[|db.marks|..] ==>
              m.components == ZeroComponents
              && exists i :: 0 <= i < |r.students| && m.studentId == r.students[i].id
    ensures r.store.(students := db.students, marks := db.marks) == db
  {
    var kept := Filter(Known(db), rows);
    var students := seq(|kept|, i requires 0 <= i < |kept| => StudentFromRow(kept[i], idFor(i)));
    var perStudent := Map(EnrolmentOf(db), students);
    var created := Flatten(perStudent);
    EnrolledMarksAreZero(db, students);
    var db' := db.(students := db.students + students, marks := db.marks + created);
    assert db'.marks[|db.marks|..] == created;
    Created(db', students)
  }

  /** The rows of the uploaded content, read as JSON or CSV by its format. */
  function ParseRows(content: string, parseJson: string -> seq<UploadRow>, parseCsv: string -> seq<UploadRow>)
    : seq<UploadRow>
  {
    if DetectFormat(content) == Json then parseJson(content) else parseCsv(content)
  }

  /** `POST /api/students/upload` on the store. `parseJson`/`parseCsv` stand for
      `JSON.parse` and the CSV reader, `dateValid` for `Date.parse` not giving NaN,
      `render` for `JSON.stringify` of a row, `idFor(i)` for the id the database
      gives the i-th created student. */
  function UploadStudents(
    db: Store, fileContent: Option<string>,
    parseJson: string -> seq<UploadRow>, parseCsv: string -> seq<UploadRow>,
    dateValid: string -> bool, render: UploadRow -> string, idFor: nat -> string)
    : (r: Step<seq<StudentRow>>)
    ensures r.response.BadRequest? && !Truthy(fileContent) ==> r.response.message == "CSV file content is required."
    ensures !Truthy(fileContent) ==> r.response.BadRequest? && r.store == db
    ensures !r.response.Ok? ==> r.store == db
    ensures !r.response.NotFound?
    ensures Truthy(fileContent) ==>
              var rows := ParseRows(fileContent.value, parseJson, parseCsv);
              && (r.response.Ok? <==> forall i :: 0 <= i < |rows| ==> RowPasses(rows[i], dateValid))
              && (r.response.Ok? ==> |r.response.value| <= |rows|)
              && (r.response.Ok? ==> r.store.students == db.students + r.response.value)
              && (r.response.Ok? ==> forall i :: 0 <= i < |r.response.value| ==>
                    ClassById(db, r.response.value[i].classId).Some?)
              && (r.response.BadRequest? ==> exists i :: 0 <= i < |rows| && !RowPasses(rows[i], dateValid))
              && (r.response.BadRequest? ==>
                    r.response.message == Join(Map(ErrorFor(dateValid, render), Filter(Fails(dateValid), rows)), "\n"))
              && (r.response.Ok? ==>
                    var created := CreateAll(db, Map(Normalize, rows), idFor);
                    r.response.value == created.students && r.store == created.store)
  {
    if !Truthy(fileContent) then Step(BadRequest("CSV file content is required."), db)
    else
      var content := fileContent.value;
      var rows := ParseRows(content, parseJson, parseCsv);
      var checked := CheckRows(rows, dateValid, render);
      if |checked.errors| > 0 then Step(BadRequest(Join(checked.errors, "\n")), db)
      else
        FilterKeepsAll(Passes(dateValid), rows);
        var created := CreateAll(db, checked.accepted, idFor);
        Step(Ok(created.students), created.store)
  }

  /** A successful upload creates, in row order, one student per uploaded row whose
      class exists, the i-th with the i-th id, and adds exactly those students'
      enrolment rows to the marks. */
  lemma UploadCreatesKnownRows(
    db: Store, content: string,
    parseJson: string -> seq<UploadRow>, parseCsv: string -> seq<UploadRow>,
    dateValid: string -> bool, render: UploadRow -> string, idFor: nat -> string)
    requires content != ""
    ensures var r := UploadStudents(db, Some(content), parseJson, parseCsv, dateValid, render, idFor);
            var kept := Filter(Known(db), Map(Normalize, ParseRows(content, parseJson, parseCsv)));
            r.response.Ok? ==>
              && |r.response.value| == |kept|
              && (forall i :: 0 <= i < |kept| ==> r.response.value[i] == StudentFromRow(kept[i], idFor(i)))
              && r.store.students == db.students + r.response.value
              && r.store.marks == db.marks + Flatten(Map(EnrolmentOf(db), r.response.value))
  {
  }

  /** A row's enrolment rows are among the marks a successful upload adds exactly when
      they belong to one of the created students. */
  lemma UploadMarksAreEnrolmentMarks(
    db: Store, content: string,
    parseJson: string -> seq<UploadRow>, parseCsv: string -> seq<UploadRow>,
    dateValid: string -> bool, render: UploadRow -> string, idFor: nat -> string, m: MarkRow)
    requires content != ""
    ensures var r := UploadStudents(db, Some(content), parseJson, parseCsv, dateValid, render, idFor);
            r.response.Ok? ==>
              (m in r.store.marks[|db.marks|..] <==>
                 exists i :: 0 <= i < |r.response.value|
                             && m in MarksForEnrolment(db, r.response.value[i].id, r.response.value[i].classId))
  {
    var r := UploadStudents(db, Some(content), parseJson, parseCsv, dateValid, render, idFor);
    if r.response.Ok? {
      var per := Map(EnrolmentOf(db), r.response.value);
      assert r.store.marks[|db.marks|..] == Flatten(per);
      FlattenMembership(per, m);
    }
  }
}
